=== FILE: README.md ===
# Local thresholds, histogram validation, Li's method and image moments

A Dafny model of two parts of cuCIM's scikit-image port.

- **Thresholding helpers** (`filters/thresholding.py`):
  - the block-size validation and filter dispatch of `threshold_local`;
  - the histogram validation of `_validate_image_histogram`, including its trimming of zero
    counts at both ends;
  - the control flow of `threshold_li` (NaN removal, degenerate images, shift to a zero
    minimum, tolerance, initial guess, and the iteration itself);
  - the local mean and standard deviation of `_mean_std`, computed from integral images of a
    reflect-padded image with a sparse corner kernel;
  - the Niblack and Sauvola thresholds built on those.
- **Moments** (`measure/_moments.py`):
  - `moments_coords` and `moments_coords_central` for point sets;
  - `moments`, `moments_central`, `moments_normalized` and `centroid` for images;
  - `inertia_tensor`;
  - the clip-and-sort tail of `inertia_tensor_eigvals`.

Images and arrays are values:
- a 1-D or 2-D `Image` for the thresholding code;
- an `NdArray` (shape plus value function) for the moments;
- every pixel value is a mathematical real.

Python's error paths are a `Result` with the exception class: ValueError, TypeError,
IndexError, ZeroDivisionError, NotImplementedError, or a plain Exception. NumPy's IEEE
division by zero is an extended real (`XReal`: NaN, +inf, -inf or a finite value).
Functions the code calls but that are numerical primitives are parameters of the model:
- `math.log`;
- the fractional power `mu0 ** e`;
- `sqrt`;
- the neighbourhood filters;
- `histogram`.

Modules, one per concept:
- `Errors`, `ExtReal`, `Sums`;
- `Grid` (multi-indices in row-major order);
- `Images`;
- `LocalThreshold`;
- `Histogram`;
- `Li`;
- `LocalStats`;
- `ReflectPad`, `SparseKernel`, `Integral1D`, `Integral2D`;
- `Monomials`, `CoordMoments`, `ImageMoments`, `NormalizedMoments`, `Inertia`, `Eigvals`.

The central theorem of the local statistics, proved in 1-D and in 2-D, is about `_mean_std`.
Pad the image with reflect mode by `(w // 2 + 1, w // 2)`. Take its inclusive integral image.
Apply the `2^ndim`-corner kernel with the parity signs. The result, divided by the window
size, is at every pixel the exact mean of the w-wide window of the reflect-extended image
centred on that pixel. The same steps on the squared image, then `sqrt(clip(g2 - m * m, 0))`,
give sqrt of that window's exact population variance.

## Model

| member | source | states |
|---|---|---|
| LocalThreshold.BlockSizes | python/cucim/src/cucim/skimage/filters/thresholding.py:228-234 | a scalar block size is repeated per axis; accepted exactly when there is one size per axis and every size is odd (negative odd sizes pass); otherwise ValueError |
| LocalThreshold.WindowSizesAreBlockSizes | python/cucim/src/cucim/skimage/filters/thresholding.py:228-234 | every window size the local statistics accept is accepted by `threshold_local` with the same per-axis values |
| LocalThreshold.NegativeBlockSizeAccepted | python/cucim/src/cucim/skimage/filters/thresholding.py:232-234 | the converse fails: block size -3 passes `threshold_local`'s check but not the window-size check |
| LocalThreshold.DefaultSigmaCoversBlock | python/cucim/src/cucim/skimage/filters/thresholding.py:244-246 | for an odd block size b, three default Gaussian widths (b - 1) / 6 equal the block radius b // 2, so the block reaches the default Gaussian's 3-sigma radius on each side |
| LocalThreshold.LocalFilter | python/cucim/src/cucim/skimage/filters/thresholding.py:238-259 | block-size errors come first; then 'generic' is NotImplementedError, an unknown name is ValueError, and exactly 'gaussian', 'mean' and 'median' succeed, with the caller's sigma or the per-axis default and the block sizes as filter sizes |
| LocalThreshold.ThresholdLocal | python/cucim/src/cucim/skimage/filters/thresholding.py:227-261 | fails exactly when the filter choice fails, with the same error; otherwise it has the image's shape, and each threshold plus the offset is the filter's value at that pixel |
| LocalThreshold.OffsetShiftsThreshold | python/cucim/src/cucim/skimage/filters/thresholding.py:261 | raising the offset lowers every threshold by exactly that amount, relative to the zero-offset result |
| Histogram.TrimBoundsSpan | python/cucim/src/cucim/skimage/filters/thresholding.py:309-311 | with a positive count, start and end are the first positive count and one past the last, and every positive count lies between them; with none, they span the whole histogram (argmax of all-False is 0) |
| Histogram.Trim | python/cucim/src/cucim/skimage/filters/thresholding.py:306-312 | an empty counts array is IndexError; a histogram with non-zero counts at both ends is returned unchanged; otherwise the result is no longer than the input |
| Histogram.ValidateHistogram | python/cucim/src/cucim/skimage/filters/thresholding.py:296-318 | no image and no histogram raise; a caller's histogram fails exactly when its counts are empty and is trimmed, with centres 0 .. n - 1 for a counts-only one; without one, the image's histogram is returned |
| Histogram.TrimLockstep | python/cucim/src/cucim/skimage/filters/thresholding.py:306-312 | when trimming applies, counts and centres are cut by the same slice, and every positive count keeps its centre |
| Histogram.CountsOnlyCentres | python/cucim/src/cucim/skimage/filters/thresholding.py:302-312 | for a counts-only histogram every kept count is paired with its original bin index as centre |
| Histogram.TrimKeepsTotal | python/cucim/src/cucim/skimage/filters/thresholding.py:306-312 | trimming a non-negative histogram keeps its total count |
| Histogram.TrimIdempotent | python/cucim/src/cucim/skimage/filters/thresholding.py:306-312 | validating an already validated (counts, centres) pair changes nothing |
| Histogram.TrimmedEndsPositive | python/cucim/src/cucim/skimage/filters/thresholding.py:306-312 | after trimming a histogram with a positive count, both end counts are non-zero, so trimming would not fire again |
| Li.RemoveNaN | python/cucim/src/cucim/skimage/filters/thresholding.py:637 | holds exactly the non-NaN values of the image and no NaN; empty exactly when every value is NaN |
| Li.RemoveNaNCounts | python/cucim/src/cucim/skimage/filters/thresholding.py:637 | keeps every non-NaN value exactly as often as it occurs in the image |
| Li.FiniteValues | python/cucim/src/cucim/skimage/filters/thresholding.py:648 | holds exactly the finite values of the image, dropping NaN and the infinities; empty exactly when no value is finite |
| Li.FiniteValuesCounts | python/cucim/src/cucim/skimage/filters/thresholding.py:648 | keeps every finite value exactly as often as it occurs in the image |
| Li.MinGapIsLowerBound | python/cucim/src/cucim/skimage/filters/thresholding.py:661 | `min(diff(unique(image)))` is positive and at most the distance between any two distinct values |
| Li.MinGapAttained | python/cucim/src/cucim/skimage/filters/thresholding.py:661 | that minimum is the distance between some two distinct values |
| Li.DefaultToleranceBounds | python/cucim/src/cucim/skimage/filters/thresholding.py:658-661 | the default tolerance is 0.5 for integer images; for float images it exists exactly when the finite values are not all equal, and then it is positive and exactly half the smallest gap: twice it is at most every gap between distinct values and equal to one of them |
| Li.GuessInsideRange | python/cucim/src/cucim/skimage/filters/thresholding.py:668-675 | a numeric initial guess is accepted exactly when it lies strictly between the image's smallest and largest finite values |
| Li.LiSetup | python/cucim/src/cucim/skimage/filters/thresholding.py:636-684 | the setup raises only ValueError or TypeError; when it goes on to iterate, it works on the finite values shifted by their minimum |
| Li.SetupChoices | python/cucim/src/cucim/skimage/filters/thresholding.py:656-669 | when the setup goes on to iterate, its tolerance is the caller's unless that is missing or 0, and otherwise the default of the image's kind; its first estimate is the mean of the shifted values, the callable's value on them, or the caller's number minus the shift |
| Li.GuessErrors | python/cucim/src/cucim/skimage/filters/thresholding.py:668-679 | once the tolerance is settled, a numeric guess not strictly between the smallest and largest finite values raises ValueError, and a guess of any other type raises TypeError |
| Li.NaNsIgnored | python/cucim/src/cucim/skimage/filters/thresholding.py:636-639 | removing the NaNs beforehand does not change the setup's outcome |
| Li.DegenerateImages | python/cucim/src/cucim/skimage/filters/thresholding.py:636-645 | an all-NaN image gives NaN; an image whose non-NaN values all equal v (even an infinite v) gives v |
| Li.OnlyInfinities | python/cucim/src/cucim/skimage/filters/thresholding.py:647-653 | when no finite value remains but the values differ, both infinities occur and the threshold is 0 |
| Li.SingleFiniteValueRaises | python/cucim/src/cucim/skimage/filters/thresholding.py:643-661 | a float image, with no tolerance given, whose non-NaN values differ but whose finite values are all equal raises ValueError from the minimum over an empty `diff`, whatever the guess |
| Li.FirstUpdateHappens | python/cucim/src/cucim/skimage/filters/thresholding.py:664-684 | with the default or a numeric guess the first estimate is non-negative, so the start value -2 * tol is more than tol away and the loop runs at least once |
| Li.SplitIsPartition | python/cucim/src/cucim/skimage/filters/thresholding.py:723-726 | foreground and background together hold every value exactly once |
| Li.LiUpdate | python/cucim/src/cucim/skimage/filters/thresholding.py:693-729 | an empty side of the split makes the update NaN for a float image and a ZeroDivisionError for an integer image; the update is NaN in no other case, and otherwise it is finite or a ZeroDivisionError |
| Li.TraceExtends | python/cucim/src/cucim/skimage/filters/thresholding.py:721-732 | a run of the method whose last estimate keeps the loop going extends by that estimate's update |
| Li.LiLoop | python/cucim/src/cucim/skimage/filters/thresholding.py:693-734 | the estimates form a run of the method, with the update of the image's kind (integer or float); on convergence the last estimate moved by at most tol (or is NaN) and the threshold is it plus the shift; a raise comes from the last update of a run that goes on, before `fuel` updates; out of fuel only after `fuel` updates |
| Li.ThresholdLi | python/cucim/src/cucim/skimage/filters/thresholding.py:636-735 | setup errors and early answers pass through with no callback; otherwise the callbacks are a run of the method in image units, and the run ends as the loop does: converged only once the last estimate moved by at most tol (or is NaN), with the last callback as threshold; raised only by the last update of a run that goes on, before `fuel` updates; out of fuel only after `fuel` updates |
| LocalStats.WindowSizes | python/cucim/src/cucim/skimage/filters/thresholding.py:952-954 | a scalar window is repeated per axis; accepted exactly when there is one size per axis and each is odd and positive; otherwise ValueError |
| LocalStats.PixelStats | python/cucim/src/cucim/skimage/filters/thresholding.py:972-985 | from a window's sum and sum of squares, dividing by the window size gives its mean, and the clipped `g2 - m * m` is its exact variance, so the clip never fires in exact arithmetic |
| Sums.VarianceIsMeanSquaredDeviation | python/cucim/src/cucim/skimage/filters/thresholding.py:981-984 | the shortcut variance, mean of squares minus the squared mean, equals the mean squared deviation from the mean |
| LocalStats.MeanStd1 | python/cucim/src/cucim/skimage/filters/thresholding.py:952-986 | for a line, every output pixel holds the exact mean and the sqrt of the exact variance of the reflect-extended window centred on it |
| LocalStats.MeanStd2 | python/cucim/src/cucim/skimage/filters/thresholding.py:952-986 | the same for a plane with window w0 x w1 |
| LocalStats.MeanStd | python/cucim/src/cucim/skimage/filters/thresholding.py:952-986 | fails, with ValueError, exactly on a bad window size or an empty image; otherwise the result holds the local statistics at every pixel |
| LocalStats.StdNonNegative | python/cucim/src/cucim/skimage/filters/thresholding.py:984-985 | with a square root that is non-negative on non-negative inputs, the local std is never negative |
| LocalStats.Niblack | python/cucim/src/cucim/skimage/filters/thresholding.py:1048-1049 | fails exactly when `_mean_std` fails; otherwise it has the image's shape and holds local mean minus k times local std |
| LocalStats.NiblackZeroK | python/cucim/src/cucim/skimage/filters/thresholding.py:1049 | with k = 0 the Niblack threshold is the local mean image |
| LocalStats.DTypeLimits | python/cucim/src/cucim/skimage/filters/thresholding.py:1105-1107 | every dtype's range is non-empty, so the default Sauvola R is positive |
| LocalStats.Sauvola | python/cucim/src/cucim/skimage/filters/thresholding.py:1105-1109 | fails exactly when `_mean_std` fails; otherwise each pixel holds m * (1 + k * (s / R - 1)) with IEEE division by R |
| LocalStats.SauvolaDefaultRangeFinite | python/cucim/src/cucim/skimage/filters/thresholding.py:1105-1109 | without an explicit r every threshold is finite and follows the real formula |
| LocalStats.SauvolaIsMean | python/cucim/src/cucim/skimage/filters/thresholding.py:1109 | with k = 0, or where the local std equals R, the threshold is the local mean |
| ReflectPad.ReflectAboutFirst | python/cucim/src/cucim/skimage/filters/thresholding.py:957-959 | reflect padding mirrors about the first sample |
| ReflectPad.ReflectAboutLast | python/cucim/src/cucim/skimage/filters/thresholding.py:957-959 | reflect padding mirrors about the last sample |
| ReflectPad.Pad1Centre | python/cucim/src/cucim/skimage/filters/thresholding.py:957-959 | the original line sits in the padded one shifted by the left pad w // 2 + 1 |
| ReflectPad.Pad2Centre | python/cucim/src/cucim/skimage/filters/thresholding.py:957-959 | the original plane sits in the padded one shifted by both left pads |
| SparseKernel.CornerOffsetsShape | python/cucim/src/cucim/skimage/filters/thresholding.py:968 | the kernel indices are 2^ndim corners of the box [0, w] |
| SparseKernel.CornerOffsetsComplete | python/cucim/src/cucim/skimage/filters/thresholding.py:968 | every corner of the box is among the kernel indices |
| SparseKernel.CornerOffsetsDistinct | python/cucim/src/cucim/skimage/filters/thresholding.py:968 | with non-zero sizes, no corner is listed twice |
| SparseKernel.CornerOffsetsEnds | python/cucim/src/cucim/skimage/filters/thresholding.py:968 | the first kernel index is the origin and the last is the far corner w |
| SparseKernel.ParitySignIsInclusionExclusion | python/cucim/src/cucim/skimage/filters/thresholding.py:969-970 | with odd sizes, the parity rule gives each corner the inclusion-exclusion sign (-1)^(number of near coordinates) |
| SparseKernel.KernelEndSigns | python/cucim/src/cucim/skimage/filters/thresholding.py:969-970 | the far corner has sign +1 and the origin has (-1)^ndim |
| SparseKernel.EvenWindowBreaksParity | python/cucim/src/cucim/skimage/filters/thresholding.py:969-970 | with an even size the parity rule gives both 1-D corners sign -1, which is why odd sizes are required |
| Integral1D.CornerSum1 | python/cucim/src/cucim/skimage/filters/thresholding.py:963-974 | the 1-D kernel applied to the integral image at i sums exactly the w padded samples after i |
| Integral1D.LocalSums1 | python/cucim/src/cucim/skimage/filters/thresholding.py:957-974 | pad, integrate and correlate give, at every pixel, the sum of the reflect-extended window centred on it |
| Integral1D.LocalSquareSums1 | python/cucim/src/cucim/skimage/filters/thresholding.py:964-978 | the same on the squared padded line gives the window's sum of squares |
| Integral2D.IntegralImage2Is | python/cucim/src/cucim/skimage/filters/thresholding.py:963 | entry (a, b) of the 2-D integral image is the sum of the block [0, a] x [0, b] |
| Integral2D.InclusionExclusion2 | python/cucim/src/cucim/skimage/filters/thresholding.py:969-974 | the four signed corner prefix sums combine into the sum of the w0 x w1 block between them |
| Integral2D.CornerSum2 | python/cucim/src/cucim/skimage/filters/thresholding.py:963-974 | the 2-D kernel applied to an integral image sums the w0 x w1 block below and to the right |
| Integral2D.LocalSums2 | python/cucim/src/cucim/skimage/filters/thresholding.py:957-974 | pad, integrate and correlate give, at every pixel, the sum of the reflect-extended window centred on it |
| Integral2D.LocalSquareSums2 | python/cucim/src/cucim/skimage/filters/thresholding.py:964-978 | the same on the squared padded plane gives the window's sum of squares |
| CoordMoments.Points | python/cucim/src/cucim/skimage/measure/_moments.py:117-123 | a tuple of axis arrays is stacked into points (point k, axis d is array d's entry k) and needs non-empty arrays of one length; a point array must be non-empty and rectangular; otherwise ValueError |
| CoordMoments.Centre | python/cucim/src/cucim/skimage/measure/_moments.py:126-134 | the mean by default; a scalar or length-1 array is broadcast; a length-ndim array is used as is; any other length fails to broadcast |
| CoordMoments.MomentsCoordsCentral | python/cucim/src/cucim/skimage/measure/_moments.py:117-161 | fails exactly when the points or the centre fail; the result has order + 1 entries per axis, and entry p is the sum over points of the product of (x_d - c_d) ** p_d |
| CoordMoments.MomentsCoords | python/cucim/src/cucim/skimage/measure/_moments.py:49 | fails exactly when the points fail; otherwise entry p is the raw moment, the sum over points of the product of x_d ** p_d, with no centre |
| CoordMoments.ZerothCoordMomentIsCount | python/cucim/src/cucim/skimage/measure/_moments.py:117-161 | entry (0, ..., 0) counts the points, whatever the centre |
| CoordMoments.FirstCoordMomentsVanish | python/cucim/src/cucim/skimage/measure/_moments.py:126-127 | about the default centre every first-order moment is 0 |
| CoordMoments.CentralCoordMomentsTranslationInvariant | python/cucim/src/cucim/skimage/measure/_moments.py:126-134 | central moments about the mean do not change when every point is translated |
| ImageMoments.ImageCentre | python/cucim/src/cucim/skimage/measure/_moments.py:260-266 | the centroid by default; an array's first ndim entries; too short an array is an IndexError and a scalar a TypeError on any image with axes |
| ImageMoments.MomentsCentral | python/cucim/src/cucim/skimage/measure/_moments.py:260-271 | fails exactly when the centre fails; entry p is the intensity-weighted sum over pixels of the product of (x_d - c_d) ** p_d |
| ImageMoments.Moments | python/cucim/src/cucim/skimage/measure/_moments.py:208 | the result has order + 1 entries per axis, and entry p is the raw moment, the intensity-weighted sum over pixels of the product of x_d ** p_d, with no centre |
| ImageMoments.ZerothCentralMomentIsMass | python/cucim/src/cucim/skimage/measure/_moments.py:260-271 | entry (0, ..., 0) is the total intensity, whatever the centre |
| ImageMoments.CentroidFromMoments | python/cucim/src/cucim/skimage/measure/_moments.py:425-431 | the centroid is the order-1 moment along the axis over the zeroth moment |
| ImageMoments.Centroid | python/cucim/src/cucim/skimage/measure/_moments.py:425-431 | one entry per axis; each is finite exactly when the total intensity is non-zero, and then it times the total intensity is the intensity-weighted sum of that axis's coordinate |
| ImageMoments.CentroidInsideImage | python/cucim/src/cucim/skimage/measure/_moments.py:425-431 | for a non-negative image of non-zero mass the centroid lies within [0, shape[a] - 1] |
| ImageMoments.FirstCentralMomentsVanish | python/cucim/src/cucim/skimage/measure/_moments.py:260-271 | about the default centre every first-order central moment is 0 |
| ImageMoments.SecondMomentsNonNeg | python/cucim/src/cucim/skimage/measure/_moments.py:260-271 | for a non-negative image every second moment along one axis is non-negative, about any centre |
| NormalizedMoments.Normalized | python/cucim/src/cucim/skimage/measure/_moments.py:326-338 | ValueError exactly when some axis has at most `order` entries; IndexError when, with a negative order, an axis is empty; otherwise nu has mu's shape |
| NormalizedMoments.NormalizedAccepts | python/cucim/src/cucim/skimage/measure/_moments.py:326-327 | for a non-negative order the result exists exactly when every axis is longer than the order |
| NormalizedMoments.LowOrdersAreNaN | python/cucim/src/cucim/skimage/measure/_moments.py:334-335 | every visited exponent tuple of total order below 2 is NaN |
| NormalizedMoments.BeyondOrderIsZero | python/cucim/src/cucim/skimage/measure/_moments.py:331-333 | an index with an exponent beyond the order keeps the 0 of `zeros_like` |
| NormalizedMoments.Denormalize | python/cucim/src/cucim/skimage/measure/_moments.py:336-337 | where the power of mu0 is a finite non-zero y, nu[p] is finite and nu[p] * y is mu[p] |
| NormalizedMoments.ZeroPowerDivides | python/cucim/src/cucim/skimage/measure/_moments.py:336-337 | a zero power of mu0 gives an infinity, or NaN exactly when mu[p] is 0, instead of raising |
| NormalizedMoments.NaNMask | python/cucim/src/cucim/skimage/measure/_moments.py:333-337 | with finite non-zero powers of mu0, a visited entry is NaN exactly when its total order is below 2 |
| Inertia.InertiaTensor | python/cucim/src/cucim/skimage/measure/_moments.py:471-488 | IndexError when an axis of mu is shorter than 3; ValueError for a 0-d image; otherwise an ndim x ndim tensor |
| Inertia.TensorSymmetric | python/cucim/src/cucim/skimage/measure/_moments.py:483-487 | the tensor is symmetric |
| Inertia.TensorEntries | python/cucim/src/cucim/skimage/measure/_moments.py:472-487 | with mu0 non-zero every entry is finite; diagonal i times mu0 is the sum of the other axes' second moments, and off-diagonal (i, j) times mu0 is minus the mixed moment |
| Inertia.TensorTrace | python/cucim/src/cucim/skimage/measure/_moments.py:475-481 | with mu0 non-zero the trace times mu0 is (ndim - 1) times the sum of the second moments |
| Inertia.TwoDimensional | python/cucim/src/cucim/skimage/measure/_moments.py:472-487 | in 2-D the tensor is [[mu02, -mu11], [-mu11, mu20]] / mu0 |
| Inertia.ImageInertiaTensor | python/cucim/src/cucim/skimage/measure/_moments.py:468-488 | with the default second-order central moments, the tensor exists exactly when the image has an axis |
| Inertia.DiagonalNonNeg | python/cucim/src/cucim/skimage/measure/_moments.py:468-481 | for a non-negative image of positive mass every diagonal entry is finite and non-negative |
| Eigvals.ClipSort | python/cucim/src/cucim/skimage/measure/_moments.py:538-539 | the result is non-negative, largest first, and a rearrangement of the eigenvalues clipped at 0 |
| Eigvals.DescendingUnique | python/cucim/src/cucim/skimage/measure/_moments.py:539 | two descending arrangements of the same values are equal, so the sorted result is determined by the values alone |
| Eigvals.ClipSortPermutation | python/cucim/src/cucim/skimage/measure/_moments.py:533-539 | eigenvalues returned in any order give the same result |
| Eigvals.ClipSortIdempotent | python/cucim/src/cucim/skimage/measure/_moments.py:538-539 | clipping and sorting a second time changes nothing |

## Left out

- Device transfers (`cp.asnumpy`, `cp.array`), dtype selection and casts (`_supported_float_type`, `astype`, float64 integral images): values are exact reals, so rounding, overflow and signed zero are not modelled.
- `integral_image` and `_correlate_sparse` live in other modules and are not part of this model. They are defined here by what they compute: inclusive prefix sums (cumulative sums along each axis), and a valid-mode correlation that sums sign times the integral image at each kernel offset.
- `_validate_window_size` is not part of this model. Its check (odd and positive sizes, one per axis) is defined in `LocalStats.WindowSizes`.
- `check_nD` is not part of this model. It is modelled as its effect on a 2-D coordinate array: non-empty and rectangular, else ValueError.
- The window theorem of `_mean_std` is proved for 1-D and 2-D images only. The corner kernel facts (`SparseKernel`) hold in any dimension.
- LocalThreshold.ThresholdLocal: takes 1-D and 2-D images only. The source accepts images of any number of axes.
- LocalStats.MeanStd: takes 1-D and 2-D images only, like the window theorem it rests on. The source accepts any number of axes.
- LocalStats.Niblack: takes 1-D and 2-D images only, since it is built on `MeanStd`.
- LocalStats.Sauvola: takes 1-D and 2-D images only, since it is built on `MeanStd`.
- The neighbourhood filters of `threshold_local` (`gaussian`, `uniform_filter`, `median_filter`) and its `mode`/`cval` arguments are a parameter: the model states which filter is chosen with which sizes, not what it computes.
- The 'generic' branch's unreachable `generic_filter` call after the raise is not modelled.
- `histogram()` and its `nbins`/`normalize` arguments are a parameter of `Histogram.ValidateHistogram`. The final cast of counts to float is the identity on reals.
- `math.log`, the fractional power `mu0 ** e`, `sqrt` and `np.linalg.eigvalsh` are numerical primitives passed in as functions. `Eigvals.ClipSort` starts from eigvalsh's output.
- Li.LiLoop: the `while` loop has no termination argument in the source. The model runs it for at most `fuel` updates and reports `OutOfFuel` beyond that. All its facts are about the run so far.
- Li.LiUpdate: the integer-image branch (lines 693-715) iterates over a histogram of the shifted integer values. The model takes its count-weighted means as the means of the values above and not above the estimate, without modelling `histogram()` itself. Its ZeroDivisionError on an empty side is modelled.
- CoordMoments.MomentsCoordsCentral: the source centres the coordinates in place (`coords -= center`), so a caller's float32 or float64 coordinate array is overwritten with the centred coordinates. The model's result is a new value and its input is untouched.
- Li.LiSetup: a callable initial guess returns a real here. In the source it may return NaN or an infinity: with NaN the loop's test `abs(t_next - t_curr) > tolerance` is false at once, so the callback sees NaN once and the threshold is NaN. A callable that raises is not modelled either.
- ImageMoments.ImageCentre: a default centre on an image of total intensity 0 is required away, because centres are reals. There the source's centroid is NaN or infinite.
- ImageMoments.MomentsCentral: the same requirement. The source accepts an all-zero image and returns mass 0 with NaN higher moments.
- ImageMoments.ZerothCentralMomentIsMass: the same requirement, inherited from `MomentsCentral`.
- Inertia.ImageInertiaTensor: images of total intensity 0 are required away, because its default moments come from `MomentsCentral`.
- NormalizedMoments.Normalized: mu holds finite reals; NaN or infinite moments are not modelled.
- Inertia.InertiaTensor: positive semidefiniteness of the tensor is not proved. Non-negativity of its diagonal (`Inertia.DiagonalNonNeg`) is.
- `moments_hu`, `inertia_tensor_eigvals`'s call to `inertia_tensor` with a given T, and the other thresholding methods (Otsu, Yen, isodata, minimum, mean, triangle, multi-Otsu, hysteresis, `try_all_threshold`) are outside the modelled core.

=== FILE: coord_moments.dfy ===
/** `moments_coords_central` and `moments_coords`: moments of a point set given as an
    (npoints, ndim) array or as a tuple of per-axis coordinate arrays (the output of
    `nonzero`). Entry p of the result is the sum over the points of
    `prod_d (x_d - c_d) ** p_d`. */
module CoordMoments {
  import opened Errors
  import opened Sums
  import opened Grid
  import opened Monomials

  /** The `coords` argument: rows of an (npoints, ndim) array, or a tuple of per-axis arrays. */
  datatype Coords = PointRows(rows: seq<seq<real>>) | AxisTuple(axes: seq<seq<real>>)

  /** The `center` argument: absent, a scalar (broadcast to every axis), or an array. */
  datatype CentreArg = DefaultCentre | ScalarCentre(c: real) | VectorCentre(cs: seq<real>)

  /** A non-empty point set whose points all have the same number `ndim` > 0 of axes. */
  predicate IsPointSet(pts: seq<seq<real>>) {
    |pts| > 0 && |pts[0]| > 0 && forall k :: 0 <= k < |pts| ==> |pts[k]| == |pts[0]|
  }

  /** The coordinates of every point along axis d. */
  function Column(pts: seq<seq<real>>, d: nat): (col: seq<real>)
    requires IsPointSet(pts) && d < |pts[0]|
    ensures |col| == |pts| && forall k :: 0 <= k < |pts| ==> col[k] == pts[k][d]
  {
    seq(|pts|, k requires 0 <= k < |pts| => pts[k][d])
  }

  /** The coordinates as an (npoints, ndim) array: a tuple is stacked along a new last axis
      (`stack(coords, axis=-1)`), which needs at least one array and equal lengths; an array
      that is ragged or empty is a ValueError (`check_nD(coords, 2)`). */
  function Points(coords: Coords): (r: Result<seq<seq<real>>>)
    ensures r.Err? ==> r.error.ValueError?
    ensures r.Ok? ==> IsPointSet(r.value)
    ensures coords.PointRows? ==> (r.Ok? <==> IsPointSet(coords.rows))
    ensures coords.PointRows? && r.Ok? ==> r.value == coords.rows
    ensures coords.AxisTuple? ==>
      (r.Ok? <==> |coords.axes| > 0 && |coords.axes[0]| > 0
                  && forall d :: 0 <= d < |coords.axes| ==> |coords.axes[d]| == |coords.axes[0]|)
    ensures coords.AxisTuple? && r.Ok? ==>
      |r.value| == |coords.axes[0]| && |r.value[0]| == |coords.axes|
      && forall k, d :: 0 <= k < |r.value| && 0 <= d < |coords.axes| ==> r.value[k][d] == coords.axes[d][k]
  {
    match coords
    case PointRows(rows) =>
      if IsPointSet(rows) then Ok(rows)
      else Err(ValueError("The parameter `coords` must be a non-empty 2-dimensional array"))
    case AxisTuple(axes) =>
      if |axes| == 0 then Err(ValueError("need at least one array to stack"))
      else if exists d :: 0 <= d < |axes| && |axes[d]| != |axes[0]| then
        Err(ValueError("all input arrays must have the same shape"))
      else if |axes[0]| == 0 then Err(ValueError("The parameter `coords` cannot be an empty array"))
      else
        Ok(seq(|axes[0]|, k requires 0 <= k < |axes[0]| =>
             seq(|axes|, d requires 0 <= d < |axes| => axes[d][k])))
  }

  /** The per-axis mean of the points, `mean(coords, axis=0)`. */
  function MeanPoint(pts: seq<seq<real>>): (c: seq<real>)
    requires IsPointSet(pts)
    ensures |c| == |pts[0]| && forall d :: 0 <= d < |c| ==> c[d] == Mean(Column(pts, d))
  {
    seq(|pts[0]|, d requires 0 <= d < |pts[0]| => Mean(Column(pts, d)))
  }

  /** The centre subtracted from every point: the mean by default; a scalar, or an array of
      length 1, broadcast to every axis; an array of length ndim as is; any other length does
      not broadcast against the points (ValueError). */
  function Centre(pts: seq<seq<real>>, centre: CentreArg): (r: Result<seq<real>>)
    requires IsPointSet(pts)
    ensures r.Ok? ==> |r.value| == |pts[0]|
    ensures r.Err? <==> centre.VectorCentre? && |centre.cs| != 1 && |centre.cs| != |pts[0]|
    ensures r.Err? ==> r.error.ValueError?
    ensures centre.DefaultCentre? ==> r == Ok(MeanPoint(pts))
    ensures centre.ScalarCentre? ==> r.Ok? && forall d :: 0 <= d < |pts[0]| ==> r.value[d] == centre.c
    ensures centre.VectorCentre? && |centre.cs| == |pts[0]| ==> r == Ok(centre.cs)
  {
    var ndim := |pts[0]|;
    match centre
    case DefaultCentre => Ok(MeanPoint(pts))
    case ScalarCentre(c) => Ok(seq(ndim, d => c))
    case VectorCentre(cs) =>
      if |cs| == ndim then Ok(cs)
      else if |cs| == 1 then Ok(seq(ndim, d => cs[0]))
      else Err(ValueError("operands could not be broadcast together"))
  }

  /** The moment of the points about c with exponents p: `sum_k prod_d (x_kd - c_d) ** p_d`. */
  function CoordMoment(pts: seq<seq<real>>, c: seq<real>, p: seq<nat>): real
    requires IsPointSet(pts) && |c| == |pts[0]| && |p| == |c|
  {
    Sum(seq(|pts|, k requires 0 <= k < |pts| => Monomial(Deltas(pts[k], c), p)))
  }

  /** `moments_coords_central(coords, center, order)`: an (order + 1, ..., order + 1) array
      whose entry p is the moment of the points about the centre with exponents p. */
  function MomentsCoordsCentral(coords: Coords, centre: CentreArg, order: int)
    : (r: Result<NdArray<real>>)
    ensures r.Ok? <==> Points(coords).Ok? && Centre(Points(coords).value, centre).Ok?
    ensures r.Err? ==> r.error.ValueError?
    ensures r.Ok? ==>
      var pts, c := Points(coords).value, Centre(Points(coords).value, centre).value;
      r.value.shape == MomentShape(|pts[0]|, order)
      && forall p :: IsIndex(r.value.shape, p) ==> r.value.at(p) == CoordMoment(pts, c, p)
  {
    var pts :- Points(coords);
    var c :- Centre(pts, centre);
    Ok(NdArray(MomentShape(|c|, order), p => if |p| == |c| then CoordMoment(pts, c, p) else 0.0))
  }

  /** `moments_coords(coords, order)`: the central moments about the scalar centre 0, which
      are the raw moments of the points. */
  function MomentsCoords(coords: Coords, order: int): (r: Result<NdArray<real>>)
    ensures r.Ok? <==> Points(coords).Ok?
    ensures r.Ok? ==> r.value.shape == MomentShape(|Points(coords).value[0]|, order)
    ensures r.Ok? ==> forall p :: IsIndex(r.value.shape, p) ==>
      r.value.at(p) == RawCoordMoment(Points(coords).value, p)
  {
    var r := MomentsCoordsCentral(coords, ScalarCentre(0.0), order);
    if r.Err? then r
    else
      var pts := Points(coords).value;
      var c := Centre(pts, ScalarCentre(0.0)).value;
      assert forall p :: IsIndex(r.value.shape, p) ==> r.value.at(p) == RawCoordMoment(pts, p) by {
        forall p | IsIndex(r.value.shape, p)
          ensures r.value.at(p) == RawCoordMoment(pts, p)
        {
          assert forall k :: 0 <= k < |pts| ==> Deltas(pts[k], c) == pts[k];
          assert seq(|pts|, k requires 0 <= k < |pts| => Monomial(Deltas(pts[k], c), p))
              == seq(|pts|, k requires 0 <= k < |pts| => Monomial(pts[k], p));
        }
      }
      r
  }

  /** The raw moment of the points: `sum_k prod_d x_kd ** p_d`, with no centre at all. */
  function RawCoordMoment(pts: seq<seq<real>>, p: seq<nat>): real
    requires IsPointSet(pts) && |p| == |pts[0]|
  {
    Sum(seq(|pts|, k requires 0 <= k < |pts| => Monomial(pts[k], p)))
  }

  /** Entry (0, ..., 0) counts the points, whatever the centre. */
  lemma ZerothCoordMomentIsCount(coords: Coords, centre: CentreArg, order: int)
    requires MomentsCoordsCentral(coords, centre, order).Ok? && order >= 0
    ensures var m := MomentsCoordsCentral(coords, centre, order).value;
      IsIndex(m.shape, Zeros(|m.shape|)) && m.at(Zeros(|m.shape|)) == |Points(coords).value| as real
  {
    var pts := Points(coords).value;
    var c := Centre(pts, centre).value;
    var z := Zeros(|c|);
    var terms := seq(|pts|, k requires 0 <= k < |pts| => Monomial(Deltas(pts[k], c), z));
    forall k | 0 <= k < |pts|
      ensures terms[k] == 1.0
    {
      MonomialOfZero(Deltas(pts[k], c), z);
    }
    SumOnes(terms);
  }

  /** About the default centre (the mean) every first-order moment is 0, whether or not
      the point set is symmetric. */
  lemma FirstCoordMomentsVanish(coords: Coords, order: int, a: nat)
    requires MomentsCoordsCentral(coords, DefaultCentre, order).Ok? && order >= 1
    requires a < |Points(coords).value[0]|
    ensures var m := MomentsCoordsCentral(coords, DefaultCentre, order).value;
      IsIndex(m.shape, Unit(|m.shape|, a, 1)) && m.at(Unit(|m.shape|, a, 1)) == 0.0
  {
    var pts := Points(coords).value;
    var c := MeanPoint(pts);
    var e := Unit(|c|, a, 1);
    var col := Column(pts, a);
    var terms := seq(|pts|, k requires 0 <= k < |pts| => Monomial(Deltas(pts[k], c), e));
    forall k | 0 <= k < |pts|
      ensures terms[k] == col[k] - Mean(col)
    {
      MonomialOfOneAxis(Deltas(pts[k], c), e, a);
      assert Pow(Deltas(pts[k], c)[a], 1) == Deltas(pts[k], c)[a];
    }
    DeviationsSumToZero(col, terms);
  }

  /** Moving every point by t moves the mean by t. */
  function Translate(pts: seq<seq<real>>, t: seq<real>): (r: seq<seq<real>>)
    requires IsPointSet(pts) && |t| == |pts[0]|
    ensures IsPointSet(r) && |r| == |pts| && |r[0]| == |pts[0]|
    ensures forall k, d :: 0 <= k < |pts| && 0 <= d < |t| ==> r[k][d] == pts[k][d] + t[d]
  {
    seq(|pts|, k requires 0 <= k < |pts| => seq(|t|, d requires 0 <= d < |t| => pts[k][d] + t[d]))
  }

  /** The mean of a translated point set is the translated mean. */
  lemma MeanOfTranslate(pts: seq<seq<real>>, t: seq<real>, d: nat)
    requires IsPointSet(pts) && |t| == |pts[0]| && d < |t|
    ensures MeanPoint(Translate(pts, t))[d] == MeanPoint(pts)[d] + t[d]
  {
    MeanShift(Column(pts, d), Column(Translate(pts, t), d), t[d]);
  }

  /** Central moments about the mean do not change when the point set is translated. */
  lemma CentralCoordMomentsTranslationInvariant(rows: seq<seq<real>>, t: seq<real>, order: int, p: seq<nat>)
    requires IsPointSet(rows) && |t| == |rows[0]|
    requires IsIndex(MomentShape(|t|, order), p)
    ensures MomentsCoordsCentral(PointRows(Translate(rows, t)), DefaultCentre, order).Ok?
    ensures MomentsCoordsCentral(PointRows(rows), DefaultCentre, order).Ok?
    ensures MomentsCoordsCentral(PointRows(Translate(rows, t)), DefaultCentre, order).value.at(p)
         == MomentsCoordsCentral(PointRows(rows), DefaultCentre, order).value.at(p)
  {
    var moved := Translate(rows, t);
    var c, c' := MeanPoint(rows), MeanPoint(moved);
    forall k | 0 <= k < |rows|
      ensures Deltas(moved[k], c') == Deltas(rows[k], c)
    {
      forall d | 0 <= d < |t|
        ensures moved[k][d] - c'[d] == rows[k][d] - c[d]
      {
        MeanOfTranslate(rows, t, d);
      }
    }
    assert seq(|moved|, k requires 0 <= k < |moved| => Monomial(Deltas(moved[k], c'), p))
        == seq(|rows|, k requires 0 <= k < |rows| => Monomial(Deltas(rows[k], c), p));
  }
}

=== FILE: eigvals.dfy ===
/** The post-processing of `inertia_tensor_eigvals`: eigenvalues clipped below at 0
    (`np.clip(eigvals, 0, None)`) and sorted largest first (`sorted(..., reverse=True)`). */
module Eigvals {
  import opened Sums

  /** `np.clip(e, 0, None)`. */
  function Clip(e: seq<real>): (r: seq<real>)
    ensures |r| == |e| && forall k :: 0 <= k < |e| ==> r[k] == ClipLow(e[k])
  {
    seq(|e|, k requires 0 <= k < |e| => ClipLow(e[k]))
  }

  /** Non-increasing order. */
  predicate Descending(s: seq<real>) {
    forall i, j :: 0 <= i < j < |s| ==> s[i] >= s[j]
  }

  /** x inserted into a descending list before the first element smaller than it. */
  function Insert(x: real, s: seq<real>): (r: seq<real>)
    requires Descending(s)
    ensures Descending(r) && multiset(r) == multiset(s) + multiset{x}
    decreases |s|
  {
    if |s| == 0 then [x]
    else if x >= s[0] then
      ConsDescending(x, s);
      [x] + s
    else
      DescendingTail(s);
      var tail := Insert(x, s[1..]);
      DropHead(s);
      HeadBoundsInsert(s, x, tail);
      ConsDescending(s[0], tail);
      [s[0]] + tail
  }

  /** A value at least every element of a descending list can go in front of it. */
  lemma ConsDescending(h: real, t: seq<real>)
    requires Descending(t) && (|t| > 0 ==> h >= t[0])
    ensures Descending([h] + t)
  {
  }

  /** After inserting x < s[0] into the tail of s, s[0] still bounds the result. */
  lemma HeadBoundsInsert(s: seq<real>, x: real, tail: seq<real>)
    requires Descending(s) && |s| > 0 && x < s[0]
    requires multiset(tail) == multiset(s[1..]) + multiset{x}
    ensures |tail| > 0 ==> s[0] >= tail[0]
  {
    if |tail| > 0 {
      assert tail[0] in multiset(tail);
      if tail[0] != x {
        assert tail[0] in s[1..];
      }
    }
  }

  /** Insertion sort, largest first. */
  function SortDescending(s: seq<real>): (r: seq<real>)
    ensures Descending(r) && multiset(r) == multiset(s)
    decreases |s|
  {
    if |s| == 0 then []
    else
      assert s == [s[0]] + s[1..];
      Insert(s[0], SortDescending(s[1..]))
  }

  /** `sorted(np.clip(eigvals, 0, None), reverse=True)`: non-negative, largest first, and a
      rearrangement of the clipped eigenvalues. */
  function ClipSort(e: seq<real>): (r: seq<real>)
    ensures |r| == |e|
    ensures forall k :: 0 <= k < |r| ==> r[k] >= 0.0
    ensures Descending(r)
    ensures multiset(r) == multiset(Clip(e))
  {
    var r := SortDescending(Clip(e));
    assert |r| == |multiset(r)| == |Clip(e)|;
    forall k | 0 <= k < |r|
      ensures r[k] >= 0.0
    {
      assert r[k] in multiset(Clip(e));
    }
    r
  }

  /** Two descending arrangements of the same values are the same list, so the sorted
      eigenvalues do not depend on the order eigvalsh returns them in. */
  lemma {:induction false} DescendingUnique(a: seq<real>, b: seq<real>)
    requires Descending(a) && Descending(b) && multiset(a) == multiset(b)
    ensures a == b
    decreases |a|
  {
    if |a| > 0 {
      HeadsEqual(a, b);
      DescendingTail(a);
      DescendingTail(b);
      DescendingUnique(a[1..], b[1..]);
      assert a == [a[0]] + a[1..] && b == [b[0]] + b[1..];
    } else {
      assert |b| == |multiset(b)| == 0;
    }
  }

  /** Two descending arrangements of the same non-empty multiset start with the same value and
      continue with the same multiset. */
  lemma HeadsEqual(a: seq<real>, b: seq<real>)
    requires Descending(a) && Descending(b) && multiset(a) == multiset(b) && |a| > 0
    ensures |b| > 0 && a[0] == b[0] && multiset(a[1..]) == multiset(b[1..])
  {
    assert |b| == |multiset(b)| == |a|;
    HeadIsMax(a, b[0]);
    HeadIsMax(b, a[0]);
    DropHead(a);
    DropHead(b);
  }

  /** The head of a descending list is at least each of its values. */
  lemma HeadIsMax(s: seq<real>, x: real)
    requires Descending(s) && x in multiset(s)
    ensures |s| > 0 && s[0] >= x
  {
    assert x in s;
  }

  /** The tail of a descending list is descending. */
  lemma DescendingTail(s: seq<real>)
    requires Descending(s) && |s| > 0
    ensures Descending(s[1..])
  {
    forall i, j | 0 <= i < j < |s| - 1
      ensures s[1..][i] >= s[1..][j]
    {
      assert s[1..][i] == s[i + 1] && s[1..][j] == s[j + 1];
    }
  }

  /** Dropping the head removes one copy of it. */
  lemma DropHead(s: seq<real>)
    requires |s| > 0
    ensures multiset(s[1..]) == multiset(s) - multiset{s[0]}
  {
    assert s == [s[0]] + s[1..];
  }

  /** Clipping and sorting a second time changes nothing. */
  lemma ClipSortIdempotent(e: seq<real>)
    ensures ClipSort(ClipSort(e)) == ClipSort(e)
  {
    var r := ClipSort(e);
    assert Clip(r) == r;
    DescendingUnique(ClipSort(r), r);
  }

  /** Eigenvalues that are rearrangements of each other give the same result. */
  lemma ClipSortPermutation(e: seq<real>, f: seq<real>)
    requires multiset(e) == multiset(f)
    ensures ClipSort(e) == ClipSort(f)
  {
    ClipPermutation(e, f);
    DescendingUnique(ClipSort(e), ClipSort(f));
  }

  /** Clipping commutes with rearrangement. */
  lemma {:induction false} ClipPermutation(e: seq<real>, f: seq<real>)
    requires multiset(e) == multiset(f)
    ensures multiset(Clip(e)) == multiset(Clip(f))
    decreases |e|
  {
    if |e| > 0 {
      assert e[0] in f by {
        assert e[0] in multiset(f);
      }
      var i :| 0 <= i < |f| && f[i] == e[0];
      var rest := f[..i] + f[i + 1..];
      RemoveAt(f, i);
      DropHead(e);
      ClipPermutation(e[1..], rest);
      ClipRemove(f, i);
      ClipRemove(e, 0);
      assert e[..0] + e[1..] == e[1..];
    } else {
      assert |f| == |multiset(f)| == 0;
    }
  }

  /** Removing the i-th value removes one copy of it. */
  lemma RemoveAt(f: seq<real>, i: nat)
    requires i < |f|
    ensures multiset(f[..i] + f[i + 1..]) == multiset(f) - multiset{f[i]}
  {
    assert f == f[..i] + [f[i]] + f[i + 1..];
  }

  /** Clipping f is clipping f without its i-th value, plus that value clipped. */
  lemma ClipRemove(f: seq<real>, i: nat)
    requires i < |f|
    ensures multiset(Clip(f)) == multiset(Clip(f[..i] + f[i + 1..])) + multiset{ClipLow(f[i])}
  {
    var f1, x, f2 := f[..i], [f[i]], f[i + 1..];
    assert f == f1 + x + f2;
    ClipAppend(f1 + x, f2);
    ClipAppend(f1, x);
    ClipAppend(f1, f2);
  }

  /** Clipping is termwise, so it distributes over concatenation. */
  lemma ClipAppend(x: seq<real>, y: seq<real>)
    ensures Clip(x + y) == Clip(x) + Clip(y)
  {
  }
}

=== FILE: errors.dfy ===
/** Failure-carrying results for the exceptions the thresholding and moment routines raise. */
module Errors {

  datatype Option<+T> = None | Some(value: T)

  /** The Python exception class a routine raises, with a short reason. */
  datatype Error =
    | ValueError(what: string)
    | TypeError(what: string)
    | IndexError(what: string)
    | ZeroDivisionError(what: string)
    | NotImplementedError(what: string)
    | PlainException(what: string)

  datatype Result<+T> = Ok(value: T) | Err(error: Error) {

    predicate IsFailure() {
      Err?
    }

    function PropagateFailure<U>(): Result<U>
      requires Err?
    {
      Err(error)
    }

    function Extract(): T
      requires Ok?
    {
      value
    }
  }
}

=== FILE: ext_real.dfy ===
/** Extended reals: the IEEE-754 values the routines can produce, without rounding. */
module ExtReal {

  datatype XReal = NaN | PosInf | NegInf | Fin(v: real) {

    predicate IsFinite() {
      Fin?
    }
  }

  /** IEEE-754 division of two finite numbers (signed zero is not modelled). */
  function Div(x: real, y: real): (r: XReal)
    ensures r.Fin? <==> y != 0.0
    ensures r.Fin? ==> r.v * y == x
    ensures r == PosInf <==> y == 0.0 && x > 0.0
    ensures r == NegInf <==> y == 0.0 && x < 0.0
    ensures r == NaN <==> y == 0.0 && x == 0.0
  {
    if y != 0.0 then Fin(x / y)
    else if x > 0.0 then PosInf
    else if x < 0.0 then NegInf
    else NaN
  }

  /** A finite quotient v of x by y satisfies v * y == x. */
  lemma DivFinite(x: real, y: real, v: real)
    requires Div(x, y) == Fin(v)
    ensures y != 0.0 && v * y == x
  {
  }

  /** IEEE-754 division of a finite x by an extended y: a finite x over an infinity is 0 and
      anything over NaN is NaN. */
  function DivBy(x: real, y: XReal): (r: XReal)
    ensures y.Fin? ==> r == Div(x, y.v)
    ensures y == NaN ==> r == NaN
    ensures y == PosInf || y == NegInf ==> r == Fin(0.0)
  {
    match y
    case Fin(v) => Div(x, v)
    case NaN => NaN
    case _ => Fin(0.0)
  }

  /** IEEE-754 product of a finite factor a and an extended value x. */
  function Scale(a: real, x: XReal): (r: XReal)
    ensures x.Fin? <==> r.Fin?
    ensures x.Fin? ==> r.v == a * x.v
    ensures r == NaN <==> x == NaN || (a == 0.0 && !x.Fin?)
  {
    match x
    case Fin(v) => Fin(a * v)
    case NaN => NaN
    case PosInf => if a > 0.0 then PosInf else if a < 0.0 then NegInf else NaN
    case NegInf => if a > 0.0 then NegInf else if a < 0.0 then PosInf else NaN
  }

  /** IEEE-754 sum of a finite term a and an extended value x. */
  function Shift(a: real, x: XReal): (r: XReal)
    ensures x.Fin? ==> r == Fin(a + x.v)
    ensures !x.Fin? ==> r == x
  {
    if x.Fin? then Fin(a + x.v) else x
  }
}

=== FILE: grid.dfy ===
/** N-dimensional index grids: the multi-indices of an array of a given shape, enumerated in
    row-major order as `itertools.product(range(n0), range(n1), ...)` does, and arrays as a
    shape with a value at every index. */
module Grid {

  /** An n-dimensional array: its shape and its value at each multi-index of that shape
      (`at` outside the shape is irrelevant). */
  datatype NdArray<T> = NdArray(shape: seq<nat>, at: seq<nat> -> T)

  /** p is a valid multi-index of an array of the given shape. */
  predicate IsIndex(shape: seq<nat>, p: seq<nat>) {
    |p| == |shape| && forall d :: 0 <= d < |p| ==> p[d] < shape[d]
  }

  /** `[i] + q` for every q of rest, in order. */
  function Prefixed(i: nat, rest: seq<seq<nat>>): (r: seq<seq<nat>>)
    ensures |r| == |rest|
    ensures forall k :: 0 <= k < |r| ==> r[k] == [i] + rest[k]
  {
    seq(|rest|, k requires 0 <= k < |rest| => [i] + rest[k])
  }

  /** `[i] + q` for i in 0 .. n - 1 (outer) and q in rest (inner). */
  function Lift(n: nat, rest: seq<seq<nat>>): (r: seq<seq<nat>>)
    ensures |r| == n * |rest|
    decreases n
  {
    if n == 0 then [] else Lift(n - 1, rest) + Prefixed(n - 1, rest)
  }

  /** All multi-indices of the shape in row-major order. */
  function Product(shape: seq<nat>): (r: seq<seq<nat>>)
    ensures |r| == Volume(shape)
    decreases |shape|
  {
    if |shape| == 0 then [[]] else Lift(shape[0], Product(shape[1..]))
  }

  /** The number of elements of an array of the shape. */
  function Volume(shape: seq<nat>): nat
    decreases |shape|
  {
    if |shape| == 0 then 1 else shape[0] * Volume(shape[1..])
  }

  /** Membership in Lift: a leading coordinate below n followed by a member of rest. */
  lemma {:induction false} LiftMembers(n: nat, rest: seq<seq<nat>>, q: seq<nat>)
    ensures q in Lift(n, rest) <==> |q| > 0 && q[0] < n && q[1..] in rest
    decreases n
  {
    if n > 0 {
      LiftMembers(n - 1, rest, q);
      var pre := Prefixed(n - 1, rest);
      if q in pre {
        var k :| 0 <= k < |pre| && pre[k] == q;
        assert q[1..] == rest[k];
      }
      if |q| > 0 && q[0] == n - 1 && q[1..] in rest {
        var k :| 0 <= k < |rest| && rest[k] == q[1..];
        assert pre[k] == [q[0]] + q[1..] == q;
      }
    }
  }

  /** Product enumerates exactly the valid multi-indices of the shape. */
  lemma {:induction false} ProductMembers(shape: seq<nat>, p: seq<nat>)
    ensures p in Product(shape) <==> IsIndex(shape, p)
    decreases |shape|
  {
    if |shape| == 0 {
      assert p in Product(shape) <==> p == [];
    } else {
      if |p| > 0 {
        ProductMembers(shape[1..], p[1..]);
      }
      LiftMembers(shape[0], Product(shape[1..]), p);
      if |p| > 0 && IsIndex(shape[1..], p[1..]) && p[0] < shape[0] {
        forall d | 0 <= d < |p|
          ensures p[d] < shape[d]
        {
          if d > 0 { assert p[1..][d - 1] == p[d]; }
        }
      }
      if IsIndex(shape, p) {
        assert |p| > 0;
        forall d | 0 <= d < |p| - 1
          ensures p[1..][d] < shape[1..][d]
        {
          assert p[d + 1] < shape[d + 1];
        }
      }
    }
  }

  /** Every element of Product(shape) is a valid multi-index. */
  lemma ProductIndices(shape: seq<nat>)
    ensures forall k :: 0 <= k < |Product(shape)| ==> IsIndex(shape, Product(shape)[k])
  {
    forall k | 0 <= k < |Product(shape)|
      ensures IsIndex(shape, Product(shape)[k])
    {
      ProductMembers(shape, Product(shape)[k]);
    }
  }

  /** The k-th multi-index of Product(shape) lies inside the shape along axis d. */
  lemma ProductBound(shape: seq<nat>, k: nat, d: nat)
    requires k < |Product(shape)| && d < |shape|
    ensures |Product(shape)[k]| == |shape| && Product(shape)[k][d] < shape[d]
  {
    ProductMembers(shape, Product(shape)[k]);
  }

  /** The all-zero multi-index `(0,) * n`. */
  function Zeros(n: nat): (z: seq<nat>)
    ensures |z| == n && forall d :: 0 <= d < n ==> z[d] == 0
  {
    seq(n, d => 0)
  }

  /** The multi-index m times the unit vector along axis a: `m * eye(n)[a]`. */
  function Unit(n: nat, a: nat, m: nat): (u: seq<nat>)
    ensures |u| == n && forall d :: 0 <= d < n ==> u[d] == (if d == a then m else 0)
  {
    seq(n, d => if d == a then m else 0)
  }

  /** The multi-index with a 1 on axes a and b and 0 elsewhere (`mu_index` for the pair). */
  function Pair(n: nat, a: nat, b: nat): (u: seq<nat>)
    ensures |u| == n && forall d :: 0 <= d < n ==> u[d] == (if d == a || d == b then 1 else 0)
  {
    seq(n, d => if d == a || d == b then 1 else 0)
  }

  /** The total order `sum(powers)` of a multi-index. */
  function Total(p: seq<nat>): nat
    decreases |p|
  {
    if |p| == 0 then 0 else Total(p[..|p| - 1]) + p[|p| - 1]
  }

  /** A multi-index with a non-zero entry has positive total order, and the zero index has
      total order 0. */
  lemma {:induction false} TotalZero(p: seq<nat>)
    ensures Total(p) == 0 <==> forall d :: 0 <= d < |p| ==> p[d] == 0
    decreases |p|
  {
    if |p| > 0 {
      TotalZero(p[..|p| - 1]);
    }
  }

  /** The shape of an array of moments up to the given order: order + 1 along each of the
      ndim axes, and empty axes for a negative order (`arange(order + 1)` is then empty). */
  function MomentShape(ndim: nat, order: int): (s: seq<nat>)
    ensures |s| == ndim
    ensures forall d :: 0 <= d < ndim ==> s[d] == (if order >= 0 then order + 1 else 0)
  {
    seq(ndim, d => if order >= 0 then order + 1 else 0)
  }
}

=== FILE: histogram.dfy ===
/** `_validate_image_histogram`: a histogram given by the caller (counts, or counts with bin
    centres) is trimmed of its leading and trailing empty bins, counts and centres in lockstep;
    without one, the histogram of the image is used. */
module Histogram {
  import opened Errors
  import opened Sums

  /** The caller's `hist`: a counts array alone, or a (counts, bin_centers) pair. */
  datatype HistArg = CountsOnly(counts: seq<real>) | CountsAndCentres(counts: seq<real>, centres: seq<real>)

  /** The index of the first positive count, or |c| when there is none. */
  function FirstPositive(c: seq<real>): (k: nat)
    ensures k <= |c|
    ensures forall a :: 0 <= a < k ==> c[a] <= 0.0
    ensures k < |c| ==> c[k] > 0.0
  {
    if |c| == 0 then 0
    else if c[0] > 0.0 then 0
    else
      var k := 1 + FirstPositive(c[1..]);
      assert forall a :: 1 <= a < k ==> c[a] == c[1..][a - 1];
      k
  }

  /** `argmax(c > 0)`: the first index where the condition holds, 0 when it never does. */
  function ArgMaxPositive(c: seq<real>): nat {
    if FirstPositive(c) < |c| then FirstPositive(c) else 0
  }

  /** `c[::-1]`. */
  function Reverse(c: seq<real>): (r: seq<real>)
    ensures |r| == |c|
    ensures forall a :: 0 <= a < |c| ==> r[a] == c[|c| - 1 - a]
  {
    seq(|c|, a requires 0 <= a < |c| => c[|c| - 1 - a])
  }

  predicate HasPositive(c: seq<real>) {
    exists a :: 0 <= a < |c| && c[a] > 0.0
  }

  /** `start = argmax(cond)`, `end = cond.size - argmax(cond[::-1])`. */
  function TrimBounds(c: seq<real>): (b: (nat, nat)) {
    (ArgMaxPositive(c), |c| - ArgMaxPositive(Reverse(c)))
  }

  /** With a positive count, the bounds are the first positive count and one past the last,
      so no positive count lies outside them; without one, they span the whole histogram. */
  lemma TrimBoundsSpan(c: seq<real>)
    ensures TrimBounds(c).0 <= TrimBounds(c).1 <= |c|
    ensures HasPositive(c) ==>
      var (start, end) := TrimBounds(c);
      start < end && c[start] > 0.0 && c[end - 1] > 0.0
      && forall a :: 0 <= a < |c| && c[a] > 0.0 ==> start <= a < end
    ensures !HasPositive(c) ==> TrimBounds(c) == (0, |c|)
  {
    var r := Reverse(c);
    var f := FirstPositive(c);
    var g := FirstPositive(r);
    if HasPositive(c) {
      var a0 :| 0 <= a0 < |c| && c[a0] > 0.0;
      assert f < |c|;
      assert r[|c| - 1 - a0] > 0.0;
      assert g < |c|;
      assert c[|c| - 1 - g] == r[g];
      forall a | 0 <= a < |c| && c[a] > 0.0
        ensures f <= a < |c| - g
      {
        assert r[|c| - 1 - a] == c[a];
      }
    } else {
      assert f == |c|;
      assert forall a :: 0 <= a < |c| ==> r[a] == c[|c| - 1 - a] && r[a] <= 0.0;
    }
  }

  /** `counts[start:end]` with Python's clamping of out-of-range bounds (0 <= start here). */
  function PySlice(s: seq<real>, start: nat, end: nat): (r: seq<real>)
    ensures start <= end <= |s| ==> r == s[start..end]
  {
    var a := if start < |s| then start else |s|;
    var b := if end < |s| then end else |s|;
    if a <= b then s[a..b] else []
  }

  /** The trimming step applied to a (counts, centres) pair: only when the first or the last
      count is 0. Raises IndexError on an empty counts array, from `counts[0]`. */
  function Trim(counts: seq<real>, centres: seq<real>): (r: Result<(seq<real>, seq<real>)>)
    ensures r.Err? <==> |counts| == 0
    ensures r.Err? ==> r.error.IndexError?
    ensures r.Ok? && counts[0] != 0.0 && counts[|counts| - 1] != 0.0 ==> r.value == (counts, centres)
    ensures r.Ok? ==> |r.value.0| <= |counts|
  {
    if |counts| == 0 then Err(IndexError("index 0 is out of bounds"))
    else if counts[0] == 0.0 || counts[|counts| - 1] == 0.0 then
      var (start, end) := TrimBounds(counts);
      TrimBoundsSpan(counts);
      Ok((counts[start..end], PySlice(centres, start, end)))
    else Ok((counts, centres))
  }

  /** `_validate_image_histogram(image, hist)`: a missing image and histogram raise; a caller's
      histogram is trimmed (bin centres 0 .. n - 1 for a counts-only one); otherwise the image's
      histogram, `histogram(image)`, is returned as is. */
  function ValidateHistogram(image: Option<seq<real>>, hist: Option<HistArg>,
                             histogram: seq<real> -> (seq<real>, seq<real>))
    : (r: Result<(seq<real>, seq<real>)>)
    ensures image.None? && hist.None? ==> r.Err? && r.error.PlainException?
    ensures hist.Some? ==> (r.Err? <==> |hist.value.counts| == 0)
    ensures hist.Some? && r.Err? ==> r.error.IndexError?
    ensures hist.None? && image.Some? ==> r == Ok(histogram(image.value))
    ensures hist.Some? && hist.value.CountsOnly? ==>
      r == Trim(hist.value.counts, seq(|hist.value.counts|, a => a as real))
    ensures hist.Some? && hist.value.CountsAndCentres? ==>
      r == Trim(hist.value.counts, hist.value.centres)
  {
    if image.None? && hist.None? then Err(PlainException("Either image or hist must be provided."))
    else if hist.Some? then
      match hist.value
      case CountsOnly(counts) => Trim(counts, seq(|counts|, a => a as real))
      case CountsAndCentres(counts, centres) => Trim(counts, centres)
    else Ok(histogram(image.value))
  }

  /** Counts and centres of the same length are cut by the same slice, which starts at the
      first positive count and ends after the last one; no positive count is dropped. */
  lemma TrimLockstep(counts: seq<real>, centres: seq<real>)
    requires |counts| == |centres| && |counts| > 0 && HasPositive(counts)
    requires counts[0] == 0.0 || counts[|counts| - 1] == 0.0
    ensures var (start, end) := TrimBounds(counts);
      Trim(counts, centres) == Ok((counts[start..end], centres[start..end]))
      && counts[start] > 0.0 && counts[end - 1] > 0.0
      && forall a :: 0 <= a < |counts| && counts[a] > 0.0 ==>
           start <= a < end && counts[start..end][a - start] == counts[a]
           && centres[start..end][a - start] == centres[a]
  {
    TrimBoundsSpan(counts);
  }

  /** Where the kept bins start: the trim's start when the first or last count is 0, else 0. */
  function KeptStart(counts: seq<real>): nat
    requires |counts| > 0
  {
    if counts[0] == 0.0 || counts[|counts| - 1] == 0.0 then TrimBounds(counts).0 else 0
  }

  /** For a counts-only histogram, every kept count keeps its bin index as its centre. */
  lemma CountsOnlyCentres(counts: seq<real>)
    requires |counts| > 0
    ensures var r := ValidateHistogram(None, Some(CountsOnly(counts)), _ => ([], [])).value;
      var start := KeptStart(counts);
      |r.0| == |r.1| && start + |r.0| <= |counts|
      && forall a :: 0 <= a < |r.0| ==> r.0[a] == counts[start + a] && r.1[a] == (start + a) as real
  {
    TrimBoundsSpan(counts);
  }

  /** Trimming a non-negative histogram keeps its total count. */
  lemma TrimKeepsTotal(counts: seq<real>, centres: seq<real>)
    requires |counts| > 0 && forall a :: 0 <= a < |counts| ==> counts[a] >= 0.0
    ensures Sum(Trim(counts, centres).value.0) == Sum(counts)
  {
    TrimBoundsSpan(counts);
    if counts[0] == 0.0 || counts[|counts| - 1] == 0.0 {
      var (start, end) := TrimBounds(counts);
      assert Trim(counts, centres).value.0 == counts[start..end];
      forall a | 0 <= a < |counts| && !(start <= a < end)
        ensures counts[a] == 0.0
      {
        assert !(counts[a] > 0.0);
      }
      SumOfSupport(counts, start, end);
    }
  }

  /** Validation is idempotent: a validated (counts, centres) pair passes through unchanged. */
  lemma TrimIdempotent(counts: seq<real>, centres: seq<real>)
    requires Trim(counts, centres).Ok?
    ensures var r := Trim(counts, centres).value; Trim(r.0, r.1) == Ok(r)
  {
    if counts[0] == 0.0 || counts[|counts| - 1] == 0.0 {
      if HasPositive(counts) {
        TrimmedEndsPositive(counts, centres);
      } else {
        TrimAllZero(counts, centres);
      }
    }
  }

  /** Validating a histogram with a positive count leaves non-zero counts at both ends. */
  lemma TrimmedEndsPositive(counts: seq<real>, centres: seq<real>)
    requires |counts| > 0 && HasPositive(counts)
    ensures var r := Trim(counts, centres).value; |r.0| > 0 && r.0[0] != 0.0 && r.0[|r.0| - 1] != 0.0
  {
    TrimBoundsSpan(counts);
    if counts[0] == 0.0 || counts[|counts| - 1] == 0.0 {
      var (start, end) := TrimBounds(counts);
      var r := Trim(counts, centres).value;
      assert r.0 == counts[start..end];
      assert r.0[0] == counts[start] && r.0[|r.0| - 1] == counts[end - 1];
    }
  }

  /** An all-zero histogram is kept whole, with its centres cut to its length, and that pair
      trims to itself. */
  lemma TrimAllZero(counts: seq<real>, centres: seq<real>)
    requires |counts| > 0 && !HasPositive(counts)
    ensures var r := Trim(counts, centres).value; Trim(r.0, r.1) == Ok(r)
  {
    TrimBoundsSpan(counts);
    var r := Trim(counts, centres).value;
    if counts[0] == 0.0 || counts[|counts| - 1] == 0.0 {
      assert r.0 == counts;
      if |centres| <= |counts| {
        assert r.1 == centres;
      } else {
        assert r.1 == centres[..|counts|];
        assert PySlice(r.1, 0, |counts|) == r.1;
      }
    }
  }
}

=== FILE: image_moments.dfy ===
/** `moments_central`, `moments` and `centroid`: moments of an n-dimensional image, whose pixel
    values weight the pixel coordinates. Entry p of the central moments about c is the sum
    over the pixels x of `image[x] * prod_d (x_d - c_d) ** p_d`. */
module ImageMoments {
  import opened Errors
  import opened ExtReal
  import opened Sums
  import opened Grid
  import opened Monomials
  import opened CoordMoments

  /** The coordinates of a pixel as reals. */
  function PixelCoords(q: seq<nat>): (x: seq<real>)
    ensures |x| == |q| && forall d :: 0 <= d < |q| ==> x[d] == q[d] as real
  {
    seq(|q|, d requires 0 <= d < |q| => q[d] as real)
  }

  /** The pixel values in row-major order. */
  function Values(img: NdArray<real>): (w: seq<real>)
    ensures |w| == |Product(img.shape)|
    ensures forall k :: 0 <= k < |w| ==> w[k] == img.at(Product(img.shape)[k])
  {
    var px := Product(img.shape);
    seq(|px|, k requires 0 <= k < |px| => img.at(px[k]))
  }

  /** The total intensity of the image. */
  function Mass(img: NdArray<real>): real {
    Sum(Values(img))
  }

  /** One pixel's contribution to the moment about c with exponents p. */
  function Term(img: NdArray<real>, c: seq<real>, p: seq<nat>, q: seq<nat>): real
    requires |c| == |p| == |q|
  {
    img.at(q) * Monomial(Deltas(PixelCoords(q), c), p)
  }

  /** One pixel's contribution to the raw moment with exponents p. */
  function RawTerm(img: NdArray<real>, p: seq<nat>, q: seq<nat>): real
    requires |p| == |q|
  {
    img.at(q) * Monomial(PixelCoords(q), p)
  }

  /** The terms of the moment about c with exponents p, one per pixel in row-major order. */
  function MomentTerms(img: NdArray<real>, c: seq<real>, p: seq<nat>): (t: seq<real>)
    requires |c| == |img.shape| == |p|
    ensures |t| == |Product(img.shape)|
    ensures forall k :: 0 <= k < |t| ==>
      |Product(img.shape)[k]| == |c| && t[k] == Term(img, c, p, Product(img.shape)[k])
  {
    var px := Product(img.shape);
    ProductIndices(img.shape);
    seq(|px|, k requires 0 <= k < |px| => Term(img, c, p, px[k]))
  }

  /** The moment of the image about c with exponents p. */
  function ImageMoment(img: NdArray<real>, c: seq<real>, p: seq<nat>): real
    requires |c| == |img.shape| == |p|
  {
    Sum(MomentTerms(img, c, p))
  }

  /** The terms of the raw moment with exponents p. */
  function RawTerms(img: NdArray<real>, p: seq<nat>): (t: seq<real>)
    requires |p| == |img.shape|
    ensures |t| == |Product(img.shape)|
    ensures forall k :: 0 <= k < |t| ==>
      |Product(img.shape)[k]| == |p| && t[k] == RawTerm(img, p, Product(img.shape)[k])
  {
    var px := Product(img.shape);
    ProductIndices(img.shape);
    seq(|px|, k requires 0 <= k < |px| => RawTerm(img, p, px[k]))
  }

  /** The raw moment `sum_x image[x] * prod_d x_d ** p_d`, with no centre. */
  function RawMoment(img: NdArray<real>, p: seq<nat>): real
    requires |p| == |img.shape|
  {
    Sum(RawTerms(img, p))
  }

  /** The centre `(0,) * ndim` that `moments` and `centroid` pass. */
  function Origin(ndim: nat): (c: seq<real>)
    ensures |c| == ndim && forall d :: 0 <= d < ndim ==> c[d] == 0.0
  {
    seq(ndim, d => 0.0)
  }

  /** Entry (0, ..., 0) is the total intensity, whatever the centre. */
  lemma ZerothMomentIsMass(img: NdArray<real>, c: seq<real>)
    requires |c| == |img.shape|
    ensures ImageMoment(img, c, Zeros(|c|)) == Mass(img)
  {
    var t := MomentTerms(img, c, Zeros(|c|));
    var px := Product(img.shape);
    forall k | 0 <= k < |t|
      ensures t[k] == Values(img)[k]
    {
      MonomialOfZero(Deltas(PixelCoords(px[k]), c), Zeros(|c|));
      assert t[k] == img.at(px[k]) * 1.0;
    }
    assert t == Values(img);
  }

  /** About the origin the moments are the raw moments. */
  lemma MomentAtOriginIsRaw(img: NdArray<real>, p: seq<nat>)
    requires |p| == |img.shape|
    ensures ImageMoment(img, Origin(|p|), p) == RawMoment(img, p)
  {
    var px := Product(img.shape);
    var c := Origin(|p|);
    var t, r := MomentTerms(img, c, p), RawTerms(img, p);
    forall k | 0 <= k < |px|
      ensures t[k] == r[k]
    {
      assert Deltas(PixelCoords(px[k]), c) == PixelCoords(px[k]);
    }
    assert t == r;
  }

  /** `centroid(image)`: `M[e_d] / M[0]` for the order-1 moments M about the origin (see
      CentroidFromMoments), with IEEE division: an image of total intensity 0 gets NaN or
      infinite coordinates. */
  function Centroid(img: NdArray<real>): (r: seq<XReal>)
    ensures |r| == |img.shape| && forall d :: 0 <= d < |r| ==> r[d] == CentroidAxis(img, d)
    ensures forall d :: 0 <= d < |r| ==> (r[d].Fin? <==> Mass(img) != 0.0)
    ensures forall d :: 0 <= d < |r| && r[d].Fin? ==>
      r[d].v * Mass(img) == Sum(WeightedCoords(img, d))
  {
    seq(|img.shape|, d requires 0 <= d < |img.shape| => CentroidAxis(img, d))
  }

  /** The centroid's coordinate along axis a. */
  function CentroidAxis(img: NdArray<real>, a: nat): XReal
    requires a < |img.shape|
  {
    Div(Sum(WeightedCoords(img, a)), Mass(img))
  }

  /** The centroid is read off the order-1 moments: entry e_d over entry 0. */
  lemma CentroidFromMoments(img: NdArray<real>, d: nat)
    requires d < |img.shape|
    ensures var n, m := |img.shape|, Moments(img, 1);
      IsIndex(m.shape, Unit(n, d, 1)) && IsIndex(m.shape, Zeros(n)) &&
      Centroid(img)[d] == Div(m.at(Unit(n, d, 1)), m.at(Zeros(n)))
  {
    var n := |img.shape|;
    MomentAtOriginIsRaw(img, Unit(n, d, 1));
    MomentAtOriginIsRaw(img, Zeros(n));
    OriginFirstMoment(img, d);
    ZerothMomentIsMass(img, Origin(n));
  }

  /** Centroid's balance, v * m == t, with the centroid coordinate v, the total intensity m
      and the weighted coordinates' total t named by the caller. */
  lemma CentroidBalancesAt(img: NdArray<real>, a: nat, v: real, m: real, t: real)
    requires a < |img.shape| && Mass(img) != 0.0
    requires Centroid(img)[a] == Fin(v) && m == Mass(img) && t == Sum(WeightedCoords(img, a))
    ensures v * m == t
  {
    assert Centroid(img)[a] == Div(t, m);
    DivFinite(t, m, v);
  }

  /** The centre `moments_central` uses: the centroid by default; an array's first ndim
      entries (too short an array is an IndexError from `center[dim]`); a scalar cannot be
      indexed (TypeError) unless the image has no axes. */
  function ImageCentre(img: NdArray<real>, centre: CentreArg): (r: Result<seq<real>>)
    requires centre.DefaultCentre? ==> Mass(img) != 0.0
    ensures r.Ok? ==> |r.value| == |img.shape|
    ensures r.Err? <==>
      |img.shape| > 0 && (centre.ScalarCentre? || (centre.VectorCentre? && |centre.cs| < |img.shape|))
    ensures r.Err? ==> r.error.TypeError? || r.error.IndexError?
    ensures centre.VectorCentre? && r.Ok? ==> r.value == centre.cs[..|img.shape|]
    ensures centre.DefaultCentre? ==>
      forall d :: 0 <= d < |img.shape| ==> Centroid(img)[d] == Fin(r.value[d])
  {
    var n := |img.shape|;
    match centre
    case DefaultCentre =>
      Ok(seq(n, d requires 0 <= d < n => Centroid(img)[d].v))
    case ScalarCentre(_) =>
      if n == 0 then Ok([]) else Err(TypeError("'float' object is not subscriptable"))
    case VectorCentre(cs) =>
      if |cs| < n then Err(IndexError("tuple index out of range")) else Ok(cs[..n])
  }

  /** `moments_central(image, center, order)`: an (order + 1, ..., order + 1) array whose entry
      p is the moment of the image about the centre with exponents p. */
  function MomentsCentral(img: NdArray<real>, centre: CentreArg, order: int): (r: Result<NdArray<real>>)
    requires centre.DefaultCentre? ==> Mass(img) != 0.0
    ensures r.Ok? <==> ImageCentre(img, centre).Ok?
    ensures r.Err? ==> r.error == ImageCentre(img, centre).error
    ensures r.Ok? ==> r.value.shape == MomentShape(|img.shape|, order)
    ensures r.Ok? ==> forall p :: IsIndex(r.value.shape, p) ==>
      r.value.at(p) == ImageMoment(img, ImageCentre(img, centre).value, p)
  {
    var c :- ImageCentre(img, centre);
    Ok(NdArray(MomentShape(|c|, order), p => if |p| == |c| then ImageMoment(img, c, p) else 0.0))
  }

  /** `moments(image, order)`: the central moments about the origin, which are the raw
      moments. */
  function Moments(img: NdArray<real>, order: int): (r: NdArray<real>)
    ensures r.shape == MomentShape(|img.shape|, order)
    ensures forall p :: IsIndex(r.shape, p) ==> r.at(p) == RawMoment(img, p)
  {
    var n := |img.shape|;
    assert Origin(n)[..n] == Origin(n);
    var m := MomentsCentral(img, VectorCentre(Origin(n)), order).value;
    assert forall p :: IsIndex(m.shape, p) ==> m.at(p) == RawMoment(img, p) by {
      forall p | IsIndex(m.shape, p)
        ensures m.at(p) == RawMoment(img, p)
      {
        MomentAtOriginIsRaw(img, p);
      }
    }
    m
  }

  /** The central moments' entry (0, ..., 0) is the total intensity. */
  lemma ZerothCentralMomentIsMass(img: NdArray<real>, centre: CentreArg, order: int)
    requires centre.DefaultCentre? ==> Mass(img) != 0.0
    requires MomentsCentral(img, centre, order).Ok? && order >= 0
    ensures var m := MomentsCentral(img, centre, order).value;
      IsIndex(m.shape, Zeros(|m.shape|)) && m.at(Zeros(|m.shape|)) == Mass(img)
  {
    ZerothMomentIsMass(img, ImageCentre(img, centre).value);
  }

  /** One pixel's weighted coordinate along axis a. */
  function WeightedCoord(img: NdArray<real>, a: nat, q: seq<nat>): real
    requires a < |q|
  {
    img.at(q) * (q[a] as real)
  }

  /** The weighted coordinates along axis a, whose sum is `M[e_a]`. */
  function WeightedCoords(img: NdArray<real>, a: nat): (s: seq<real>)
    requires a < |img.shape|
    ensures |s| == |Product(img.shape)|
    ensures forall k :: 0 <= k < |s| ==>
      |Product(img.shape)[k]| == |img.shape| && s[k] == WeightedCoord(img, a, Product(img.shape)[k])
  {
    var px := Product(img.shape);
    ProductIndices(img.shape);
    seq(|px|, k requires 0 <= k < |px| => WeightedCoord(img, a, px[k]))
  }

  /** With exponent 1 on axis a alone, a pixel contributes its weighted coordinate minus
      ca = c[a] times its value. */
  lemma FirstMomentTerm(img: NdArray<real>, c: seq<real>, a: nat, q: seq<nat>, ca: real)
    requires |c| == |q| && a < |c| && ca == c[a]
    ensures Term(img, c, Unit(|c|, a, 1), q) == WeightedCoord(img, a, q) - ca * img.at(q)
  {
    var x := Deltas(PixelCoords(q), c);
    MonomialOfOneAxis(x, Unit(|c|, a, 1), a);
    assert Pow(x[a], 1) == x[a];
    assert x[a] == (q[a] as real) - ca;
  }

  /** FirstMomentTerm for the k-th pixel, with its term tk, weighted coordinate sk and value wk
      named by the caller. */
  lemma FirstMomentTermAt(img: NdArray<real>, c: seq<real>, a: nat, k: nat, ca: real, tk: real, sk: real, wk: real)
    requires |c| == |img.shape| && a < |c| && ca == c[a] && k < |Values(img)|
    requires tk == MomentTerms(img, c, Unit(|c|, a, 1))[k]
    requires sk == WeightedCoords(img, a)[k] && wk == Values(img)[k]
    ensures tk == sk - ca * wk
  {
    FirstMomentTerm(img, c, a, Product(img.shape)[k], ca);
  }

  /** Each pixel's first-moment term is its weighted coordinate minus ca = c[a] times its
      value. */
  lemma FirstMomentTerms(img: NdArray<real>, c: seq<real>, a: nat, ca: real)
    requires |c| == |img.shape| && a < |c| && ca == c[a]
    ensures AffineTerms(MomentTerms(img, c, Unit(|c|, a, 1)), WeightedCoords(img, a), Values(img), ca)
  {
    var t, s, w := MomentTerms(img, c, Unit(|c|, a, 1)), WeightedCoords(img, a), Values(img);
    FirstMomentTermsAt(img, c, a, ca, t, s, w);
  }

  /** FirstMomentTerms with the three sequences named by the caller. */
  lemma FirstMomentTermsAt(img: NdArray<real>, c: seq<real>, a: nat, ca: real, t: seq<real>, s: seq<real>, w: seq<real>)
    requires |c| == |img.shape| && a < |c| && ca == c[a]
    requires t == MomentTerms(img, c, Unit(|c|, a, 1)) && s == WeightedCoords(img, a) && w == Values(img)
    ensures AffineTerms(t, s, w, ca)
  {
    forall k | 0 <= k < |w|
      ensures t[k] == s[k] - ca * w[k]
    {
      FirstMomentTermAt(img, c, a, k, ca, t[k], s[k], w[k]);
    }
  }

  /** About the origin the first moment along axis a is the sum of the weighted coordinates. */
  lemma OriginFirstMoment(img: NdArray<real>, a: nat)
    requires a < |img.shape|
    ensures ImageMoment(img, Origin(|img.shape|), Unit(|img.shape|, a, 1)) == Sum(WeightedCoords(img, a))
  {
    var c := Origin(|img.shape|);
    var t, s := MomentTerms(img, c, Unit(|c|, a, 1)), WeightedCoords(img, a);
    FirstMomentTerms(img, c, a, 0.0);
    assert forall k :: 0 <= k < |t| ==> t[k] == s[k];
    assert t == s;
  }

  /** About the default centre (the centroid) every first-order moment is 0. */
  lemma FirstCentralMomentsVanish(img: NdArray<real>, order: int, a: nat)
    requires Mass(img) != 0.0 && order >= 1 && a < |img.shape|
    ensures var m := MomentsCentral(img, DefaultCentre, order).value;
      IsIndex(m.shape, Unit(|img.shape|, a, 1)) && m.at(Unit(|img.shape|, a, 1)) == 0.0
  {
    var c := ImageCentre(img, DefaultCentre).value;
    var ca, m, t := c[a], Mass(img), Sum(WeightedCoords(img, a));
    CentroidBalancesAt(img, a, ca, m, t);
    BalancedFirstMoment(img, c, a, ca, m, t);
  }

  /** About a centre c whose coordinate ca balances the image along axis a
      (ca * mass == sum of weighted coordinates), the first moment along a is 0. */
  lemma BalancedFirstMoment(img: NdArray<real>, c: seq<real>, a: nat, ca: real, m: real, t: real)
    requires |c| == |img.shape| && a < |c| && ca == c[a]
    requires ca * m == t && m == Mass(img) && t == Sum(WeightedCoords(img, a))
    ensures ImageMoment(img, c, Unit(|c|, a, 1)) == 0.0
  {
    var u, s, w := MomentTerms(img, c, Unit(|c|, a, 1)), WeightedCoords(img, a), Values(img);
    FirstMomentTerms(img, c, a, ca);
    AffineVanishes(s, w, ca, u, m, t);
  }

  /** For a non-negative image every second moment along one axis is non-negative. */
  lemma SecondMomentsNonNeg(img: NdArray<real>, c: seq<real>, a: nat)
    requires |c| == |img.shape| && a < |c|
    requires forall k :: 0 <= k < |Values(img)| ==> Values(img)[k] >= 0.0
    ensures ImageMoment(img, c, Unit(|c|, a, 2)) >= 0.0
  {
    var px := Product(img.shape);
    var e := Unit(|c|, a, 2);
    var t := MomentTerms(img, c, e);
    forall k | 0 <= k < |t|
      ensures t[k] >= 0.0
    {
      assert Values(img)[k] == img.at(px[k]);
      SecondMomentTerm(img, c, a, px[k]);
    }
    SumNonNeg(t);
  }

  lemma SecondMomentTerm(img: NdArray<real>, c: seq<real>, a: nat, q: seq<nat>)
    requires |c| == |q| && a < |c| && img.at(q) >= 0.0
    ensures Term(img, c, Unit(|c|, a, 2), q) >= 0.0
  {
    var x := Deltas(PixelCoords(q), c);
    MonomialOfOneAxis(x, Unit(|c|, a, 2), a);
    PowTwo(x[a]);
  }

  /** The raw first moment along axis a is the sum of the weighted coordinates. */
  lemma RawFirstMoment(img: NdArray<real>, a: nat)
    requires a < |img.shape|
    ensures RawMoment(img, Unit(|img.shape|, a, 1)) == Sum(WeightedCoords(img, a))
  {
    OriginFirstMoment(img, a);
    MomentAtOriginIsRaw(img, Unit(|img.shape|, a, 1));
  }

  /** In a non-negative image each pixel's weighted coordinate along axis a lies between 0 and
      top = shape[a] - 1 times its value. */
  lemma WeightedCoordBounds(img: NdArray<real>, a: nat, top: real)
    requires a < |img.shape| && top == (img.shape[a] as real) - 1.0
    requires forall k :: 0 <= k < |Values(img)| ==> Values(img)[k] >= 0.0
    ensures Dominated(Values(img), WeightedCoords(img, a), top)
  {
    forall k | 0 <= k < |Values(img)|
      ensures 0.0 <= WeightedCoords(img, a)[k] <= top * Values(img)[k]
    {
      PixelBoundAt(img, a, k, top, Values(img)[k], WeightedCoords(img, a)[k]);
    }
  }

  lemma PixelBoundAt(img: NdArray<real>, a: nat, k: nat, top: real, w: real, s: real)
    requires a < |img.shape| && k < |Values(img)| && Values(img)[k] >= 0.0
    requires top == (img.shape[a] as real) - 1.0 && w == Values(img)[k] && s == WeightedCoords(img, a)[k]
    ensures 0.0 <= s <= top * w
  {
    var q := Product(img.shape)[k];
    ProductBound(img.shape, k, a);
    CoordinateBounds(img.at(q), q[a] as real, top, s, w);
  }

  /** 0 <= x <= top and a non-negative weight w == w' give 0 <= w * x <= top * w'. */
  lemma CoordinateBounds(w: real, x: real, top: real, s: real, w': real)
    requires w >= 0.0 && 0.0 <= x <= top && s == w * x && w' == w
    ensures 0.0 <= s <= top * w'
  {
  }

  /** For a non-negative image of positive total intensity the centroid lies inside the image:
      0 <= centroid[a] <= shape[a] - 1. */
  lemma CentroidInsideImage(img: NdArray<real>, a: nat)
    requires a < |img.shape|
    requires forall k :: 0 <= k < |Values(img)| ==> Values(img)[k] >= 0.0
    requires Mass(img) != 0.0
    ensures Centroid(img)[a].Fin?
    ensures 0.0 <= Centroid(img)[a].v <= (img.shape[a] as real) - 1.0
  {
    MeanCoordinateBounds(img, a, Centroid(img)[a].v, (img.shape[a] as real) - 1.0);
  }

  /** CentroidInsideImage with the centroid coordinate v and the bound top named by the
      caller. */
  lemma MeanCoordinateBounds(img: NdArray<real>, a: nat, v: real, top: real)
    requires a < |img.shape|
    requires forall k :: 0 <= k < |Values(img)| ==> Values(img)[k] >= 0.0
    requires Mass(img) != 0.0 && Centroid(img)[a] == Fin(v) && top == (img.shape[a] as real) - 1.0
    ensures 0.0 <= v <= top
  {
    var m, t := Mass(img), Sum(WeightedCoords(img, a));
    WeightedTotalsBounded(img, a, top, m, t);
    CentroidBalancesAt(img, a, v, m, t);
    MeanBounds(v, t, m, top, m, t);
  }

  /** With non-negative values, the mass is non-negative and the weighted coordinate total
      along axis a lies between 0 and `(shape[a] - 1) * mass`. */
  lemma WeightedTotalsBounded(img: NdArray<real>, a: nat, top: real, m: real, t: real)
    requires a < |img.shape|
    requires forall k :: 0 <= k < |Values(img)| ==> Values(img)[k] >= 0.0
    requires top == (img.shape[a] as real) - 1.0 && m == Mass(img) && t == Sum(WeightedCoords(img, a))
    ensures 0.0 <= m && 0.0 <= t <= top * m
  {
    var w, s := Values(img), WeightedCoords(img, a);
    WeightedCoordBounds(img, a, top);
    WeightedTotalBounds(w, s, top, m, t);
  }
}

=== FILE: images.dfy ===
/** Images of one or two axes and the pixelwise operations the local thresholds use. */
module Images {

  /** An image of one or two axes; a plane holds its rows, each `cols` wide. */
  datatype Image<T> = Line(v: seq<T>) | Plane(rows: seq<seq<T>>, cols: nat)

  predicate WellFormed<T>(img: Image<T>) {
    img.Plane? ==> forall a :: 0 <= a < |img.rows| ==> |img.rows[a]| == img.cols
  }

  function Ndim<T>(img: Image<T>): nat {
    if img.Line? then 1 else 2
  }

  predicate IsEmpty<T>(img: Image<T>) {
    if img.Line? then |img.v| == 0 else |img.rows| == 0 || img.cols == 0
  }

  /** (i, j) is a pixel of img; a line has only j == 0. */
  predicate InBounds<T>(img: Image<T>, i: nat, j: nat) {
    if img.Line? then i < |img.v| && j == 0 else i < |img.rows| && j < img.cols
  }

  function At<T>(img: Image<T>, i: nat, j: nat): T
    requires WellFormed(img) && InBounds(img, i, j)
  {
    if img.Line? then img.v[i] else img.rows[i][j]
  }

  predicate SameShape<T, U>(a: Image<T>, b: Image<U>) {
    match a
    case Line(v) => b.Line? && |b.v| == |v|
    case Plane(rows, cols) => b.Plane? && |b.rows| == |rows| && b.cols == cols
  }

  /** Two well-formed images of the same shape that agree at every pixel are equal. */
  lemma ImageEquality<T>(a: Image<T>, b: Image<T>)
    requires WellFormed(a) && WellFormed(b) && SameShape(a, b)
    requires forall i, j :: InBounds(a, i, j) ==> At(a, i, j) == At(b, i, j)
    ensures a == b
  {
    if a.Line? {
      assert forall i :: 0 <= i < |a.v| ==> a.v[i] == At(a, i, 0);
      assert forall i :: 0 <= i < |b.v| ==> b.v[i] == At(b, i, 0);
    } else {
      forall i | 0 <= i < |a.rows|
        ensures a.rows[i] == b.rows[i]
      {
        forall j | 0 <= j < a.cols
          ensures a.rows[i][j] == b.rows[i][j]
        {
          assert At(a, i, j) == At(b, i, j);
        }
      }
    }
  }

  /** Pixelwise combination of two images of the same shape. */
  function Zip<T>(a: Image<real>, b: Image<real>, f: (real, real) -> T): (r: Image<T>)
    requires WellFormed(a) && WellFormed(b) && SameShape(a, b)
    ensures WellFormed(r) && SameShape(a, r)
    ensures forall i, j :: InBounds(a, i, j) ==> At(r, i, j) == f(At(a, i, j), At(b, i, j))
  {
    if a.Line? then
      Line(seq(|a.v|, i requires 0 <= i < |a.v| => f(a.v[i], b.v[i])))
    else
      Plane(seq(|a.rows|, i requires 0 <= i < |a.rows| =>
              seq(a.cols, j requires 0 <= j < a.cols => f(a.rows[i][j], b.rows[i][j]))), a.cols)
  }

  /** An image of the same shape as `shape` whose pixel (i, j) is g(i, j). */
  function Tabulate<U, T>(shape: Image<U>, g: (nat, nat) -> T): (r: Image<T>)
    requires WellFormed(shape)
    ensures WellFormed(r) && SameShape(shape, r)
    ensures forall i, j :: InBounds(shape, i, j) ==> At(r, i, j) == g(i, j)
  {
    if shape.Line? then
      Line(seq(|shape.v|, i requires 0 <= i < |shape.v| => g(i, 0)))
    else
      Plane(seq(|shape.rows|, i requires 0 <= i < |shape.rows| =>
              seq(shape.cols, j requires 0 <= j < shape.cols => g(i, j))), shape.cols)
  }
}

=== FILE: inertia.dfy ===
/** `inertia_tensor(image, mu)`: the ndim x ndim matrix of second-order central moments over the
    zeroth moment, with diagonal entry i the sum of the second moments of every axis except i. */
module Inertia {
  import opened Errors
  import opened ExtReal
  import opened Grid
  import opened Sums
  import opened CoordMoments
  import opened ImageMoments

  /** `mu[corners2]`: the second moments `mu[2 e_i]` along each axis. */
  function Corners(mu: NdArray<real>): (r: seq<real>)
    ensures |r| == |mu.shape|
    ensures forall i :: 0 <= i < |r| ==> r[i] == mu.at(Unit(|mu.shape|, i, 2))
  {
    seq(|mu.shape|, i requires 0 <= i < |mu.shape| => mu.at(Unit(|mu.shape|, i, 2)))
  }

  /** Entry (i, j) of the tensor, mu0 being `mu[(0,) * ndim]`. */
  function Entry(mu: NdArray<real>, i: nat, j: nat): XReal
    requires i < |mu.shape| && j < |mu.shape|
  {
    var n := |mu.shape|;
    var mu0 := mu.at(Zeros(n));
    if i == j then Div(Sum(Corners(mu)) - mu.at(Unit(n, i, 2)), mu0)
    else Div(-mu.at(Pair(n, i, j)), mu0)
  }

  /** Some axis of mu is too short to hold the second moments. */
  predicate HasShortAxis(shape: seq<nat>) {
    exists d :: 0 <= d < |shape| && shape[d] < 3
  }

  /** `inertia_tensor(image, mu)` for central moments mu of an image with `mu.ndim` axes:
      indexing `mu[2 e_i]` raises IndexError on an axis shorter than 3, and `np.diag` of the
      0-d value for a 0-d image raises ValueError. */
  function InertiaTensor(mu: NdArray<real>): (r: Result<seq<seq<XReal>>>)
    ensures r.Err? <==> |mu.shape| == 0 || HasShortAxis(mu.shape)
    ensures |mu.shape| == 0 ==> r.Err? && r.error.ValueError?
    ensures HasShortAxis(mu.shape) ==> r.Err? && r.error.IndexError?
    ensures r.Ok? ==> |r.value| == |mu.shape|
    ensures r.Ok? ==> forall i :: 0 <= i < |r.value| ==> |r.value[i]| == |mu.shape|
  {
    var n := |mu.shape|;
    if HasShortAxis(mu.shape) then Err(IndexError("index 2 is out of bounds"))
    else if n == 0 then Err(ValueError("Input must be 1- or 2-d."))
    else Ok(seq(n, i requires 0 <= i < n => seq(n, j requires 0 <= j < n => Entry(mu, i, j))))
  }

  /** The tensor is symmetric: `result[dims]` and `result.T[dims]` receive the same value. */
  lemma TensorSymmetric(mu: NdArray<real>, i: nat, j: nat)
    requires InertiaTensor(mu).Ok? && i < |mu.shape| && j < |mu.shape|
    ensures InertiaTensor(mu).value[i][j] == InertiaTensor(mu).value[j][i]
  {
    var n := |mu.shape|;
    assert Pair(n, i, j) == Pair(n, j, i);
  }

  /** With mu0 != 0 every entry is finite; the diagonal entry i times mu0 is the sum of the
      second moments of the other axes, and an off-diagonal entry times mu0 is minus the mixed
      moment. */
  lemma TensorEntries(mu: NdArray<real>, i: nat, j: nat)
    requires InertiaTensor(mu).Ok? && i < |mu.shape| && j < |mu.shape|
    requires mu.at(Zeros(|mu.shape|)) != 0.0
    ensures InertiaTensor(mu).value[i][j].Fin?
    ensures i == j ==>
      InertiaTensor(mu).value[i][i].v * mu.at(Zeros(|mu.shape|)) == Sum(Corners(mu)) - mu.at(Unit(|mu.shape|, i, 2))
    ensures i != j ==>
      InertiaTensor(mu).value[i][j].v * mu.at(Zeros(|mu.shape|)) == -mu.at(Pair(|mu.shape|, i, j))
  {
    assert InertiaTensor(mu).value[i][j] == Entry(mu, i, j);
  }

  /** The diagonal of a tensor. */
  function Diagonal(t: seq<seq<XReal>>): (r: seq<XReal>)
    requires forall i :: 0 <= i < |t| ==> |t[i]| == |t|
    ensures |r| == |t| && forall i :: 0 <= i < |t| ==> r[i] == t[i][i]
  {
    seq(|t|, i requires 0 <= i < |t| => t[i][i])
  }

  /** The finite values of a sequence of finite numbers. */
  function Finite(x: seq<XReal>): (r: seq<real>)
    requires forall i :: 0 <= i < |x| ==> x[i].Fin?
    ensures |r| == |x| && forall i :: 0 <= i < |x| ==> Fin(r[i]) == x[i]
  {
    seq(|x|, i requires 0 <= i < |x| => x[i].v)
  }

  /** Each second moment appears in the diagonal of every other axis, so with mu0 != 0 the
      trace times mu0 is `(ndim - 1)` times the sum of the second moments. */
  lemma TensorTrace(mu: NdArray<real>)
    requires InertiaTensor(mu).Ok? && mu.at(Zeros(|mu.shape|)) != 0.0
    ensures var t := InertiaTensor(mu).value;
      (forall i :: 0 <= i < |t| ==> t[i][i].Fin?)
      && Sum(Finite(Diagonal(t))) * mu.at(Zeros(|mu.shape|)) == (|mu.shape| as real - 1.0) * Sum(Corners(mu))
  {
    DiagonalFinite(mu);
    var t := InertiaTensor(mu).value;
    var d, mu0, c := Finite(Diagonal(t)), mu.at(Zeros(|mu.shape|)), Corners(mu);
    var total := Sum(c);
    DiagonalTerms(mu, d, mu0, c, total);
    TraceFromTerms(d, mu0, c, total);
  }

  /** With mu0 != 0 the diagonal is finite. */
  lemma DiagonalFinite(mu: NdArray<real>)
    requires InertiaTensor(mu).Ok? && mu.at(Zeros(|mu.shape|)) != 0.0
    ensures forall i :: 0 <= i < |mu.shape| ==> InertiaTensor(mu).value[i][i].Fin?
  {
    forall i | 0 <= i < |mu.shape|
      ensures InertiaTensor(mu).value[i][i].Fin?
    {
      TensorEntries(mu, i, i);
    }
  }

  /** u[k] == total - c[k] termwise. */
  predicate ConstMinus(total: real, c: seq<real>, u: seq<real>) {
    |u| == |c| && forall k :: 0 <= k < |u| ==> u[k] == total - c[k]
  }

  /** The diagonal d times mu0 is the total of the second moments minus the axis's own. */
  lemma DiagonalTerms(mu: NdArray<real>, d: seq<real>, mu0: real, c: seq<real>, total: real)
    requires InertiaTensor(mu).Ok? && mu0 == mu.at(Zeros(|mu.shape|)) && mu0 != 0.0
    requires forall i :: 0 <= i < |mu.shape| ==> InertiaTensor(mu).value[i][i].Fin?
    requires d == Finite(Diagonal(InertiaTensor(mu).value)) && c == Corners(mu) && total == Sum(c)
    ensures ConstMinus(total, c, Scaled(d, mu0))
  {
    forall i | 0 <= i < |c|
      ensures Scaled(d, mu0)[i] == total - c[i]
    {
      DiagonalAt(mu, i, d[i], mu0, c[i], total);
    }
  }

  lemma DiagonalAt(mu: NdArray<real>, i: nat, di: real, mu0: real, ci: real, total: real)
    requires InertiaTensor(mu).Ok? && i < |mu.shape| && mu0 == mu.at(Zeros(|mu.shape|)) && mu0 != 0.0
    requires InertiaTensor(mu).value[i][i] == Fin(di)
    requires ci == Corners(mu)[i] && total == Sum(Corners(mu))
    ensures mu0 * di == total - ci
  {
    TensorEntries(mu, i, i);
  }

  /** Terms `mu0 * d[k] == total - c[k]` with total the sum of c give
      `Sum(d) * mu0 == (|c| - 1) * total`. */
  lemma TraceFromTerms(d: seq<real>, mu0: real, c: seq<real>, total: real)
    requires ConstMinus(total, c, Scaled(d, mu0)) && total == Sum(c)
    ensures Sum(d) * mu0 == (|c| as real - 1.0) * total
  {
    SumConstMinus(total, c, Scaled(d, mu0));
    SumScaled(d, mu0);
  }

  /** In two dimensions the diagonal holds the moment of the other axis:
      `T = [[mu02, -mu11], [-mu11, mu20]] / mu0`. */
  lemma TwoDimensional(mu: NdArray<real>)
    requires InertiaTensor(mu).Ok? && |mu.shape| == 2
    ensures var t, mu0 := InertiaTensor(mu).value, mu.at([0, 0]);
      t[0][0] == Div(mu.at([0, 2]), mu0) && t[1][1] == Div(mu.at([2, 0]), mu0)
      && t[0][1] == Div(-mu.at([1, 1]), mu0) && t[1][0] == t[0][1]
  {
    var t := InertiaTensor(mu).value;
    assert Zeros(2) == [0, 0];
    assert Unit(2, 0, 2) == [2, 0] && Unit(2, 1, 2) == [0, 2];
    assert Pair(2, 0, 1) == [1, 1];
    var c := Corners(mu);
    assert Sum(c[..1]) == c[0] by {
      assert c[..1][..0] == [];
    }
    assert Sum(c) == Sum(c[..1]) + c[1];
    assert t[0][0] == Entry(mu, 0, 0) && t[1][1] == Entry(mu, 1, 1);
    TensorSymmetric(mu, 0, 1);
  }

  /** `inertia_tensor(image)` with the default moments `moments_central(image, order=2)`. */
  function ImageInertiaTensor(img: NdArray<real>): (r: Result<seq<seq<XReal>>>)
    requires Mass(img) != 0.0
    ensures r.Ok? <==> |img.shape| > 0
  {
    var mu := MomentsCentral(img, DefaultCentre, 2).value;
    assert !HasShortAxis(mu.shape);
    InertiaTensor(mu)
  }

  /** For a non-negative image of positive mass each diagonal entry of its inertia tensor is a
      finite non-negative number: a sum of non-negative second moments over the mass. */
  lemma DiagonalNonNeg(img: NdArray<real>, i: nat)
    requires forall k :: 0 <= k < |Values(img)| ==> Values(img)[k] >= 0.0
    requires Mass(img) > 0.0 && i < |img.shape|
    ensures ImageInertiaTensor(img).Ok?
    ensures ImageInertiaTensor(img).value[i][i].Fin? && ImageInertiaTensor(img).value[i][i].v >= 0.0
  {
    var mu := MomentsCentral(img, DefaultCentre, 2).value;
    ZerothCentralMomentIsMass(img, DefaultCentre, 2);
    CornersNonNeg(img);
    TensorDiagonalNonNeg(mu, i);
  }

  /** With mu0 > 0 and non-negative second moments, each diagonal entry is finite and
      non-negative. */
  lemma TensorDiagonalNonNeg(mu: NdArray<real>, i: nat)
    requires InertiaTensor(mu).Ok? && i < |mu.shape| && mu.at(Zeros(|mu.shape|)) > 0.0
    requires forall j :: 0 <= j < |Corners(mu)| ==> Corners(mu)[j] >= 0.0
    ensures InertiaTensor(mu).value[i][i].Fin? && InertiaTensor(mu).value[i][i].v >= 0.0
  {
    var c := Corners(mu);
    SumAtLeastTerm(c, i);
    TensorEntries(mu, i, i);
    var v, x, m := InertiaTensor(mu).value[i][i].v, Sum(c) - c[i], mu.at(Zeros(|mu.shape|));
    NonNegQuotient(v, x, m);
  }

  /** The second moments about the centroid of a non-negative image are non-negative. */
  lemma CornersNonNeg(img: NdArray<real>)
    requires forall k :: 0 <= k < |Values(img)| ==> Values(img)[k] >= 0.0
    requires Mass(img) != 0.0
    ensures var c := Corners(MomentsCentral(img, DefaultCentre, 2).value);
      forall j :: 0 <= j < |c| ==> c[j] >= 0.0
  {
    var mu := MomentsCentral(img, DefaultCentre, 2).value;
    var n := |img.shape|;
    var centre := ImageCentre(img, DefaultCentre).value;
    forall j | 0 <= j < n
      ensures mu.at(Unit(n, j, 2)) >= 0.0
    {
      assert IsIndex(mu.shape, Unit(n, j, 2));
      SecondMomentsNonNeg(img, centre, j);
    }
  }

  lemma NonNegQuotient(v: real, x: real, y: real)
    requires v * y == x && x >= 0.0 && y > 0.0
    ensures v >= 0.0
  {
  }
}

=== FILE: integral_1d.dfy ===
/** One-dimensional local window sums through an integral image, as `_mean_std` computes them:
    reflect-pad by (w // 2 + 1, w // 2), take inclusive prefix sums, and read every window out
    with the two signed corners of the sparse kernel. */
module Integral1D {
  import opened Sums
  import opened SparseKernel
  import opened ReflectPad

  /** The integral image of a 1-D array: the running total, inclusive of the current sample. */
  function IntegralImage1(p: seq<real>): (r: seq<real>)
    ensures |r| == |p|
    ensures forall i :: 0 <= i < |p| ==> r[i] == Sum(p[..i + 1])
    decreases |p|
  {
    if |p| == 0 then []
    else
      var n := |p| - 1;
      var prev := IntegralImage1(p[..n]);
      var r := prev + [(if n == 0 then 0.0 else prev[n - 1]) + p[n]];
      assert forall i | 0 <= i < n :: r[i] == Sum(p[..i + 1]) by {
        forall i | 0 <= i < n
          ensures r[i] == Sum(p[..i + 1])
        {
          assert p[..n][..i + 1] == p[..i + 1];
        }
      }
      assert p[..n + 1][..n] == p[..n];
      assert n > 0 ==> prev[n - 1] == Sum(p[..n]) by {
        if n > 0 {
          assert p[..n][..n] == p[..n];
        }
      }
      assert r[n] == Sum(p[..n + 1]);
      r
  }

  /** Every kernel offset is one coordinate in [0, span). */
  predicate FitsSpan1(kernel: seq<Corner>, span: nat) {
    forall c :: c in kernel ==> |c.offset| == 1 && 0 <= c.offset[0] < span
  }

  /** Sum over the kernel of sign * S[i + offset]. */
  function KernelSum1(s: seq<real>, kernel: seq<Corner>, span: nat, i: nat): real
    requires FitsSpan1(kernel, span) && i + span <= |s|
  {
    KernelSumFrom1(s, kernel, span, i, 0)
  }

  /** The kernel sum over the corners from index k on. */
  function KernelSumFrom1(s: seq<real>, kernel: seq<Corner>, span: nat, i: nat, k: nat): real
    requires FitsSpan1(kernel, span) && i + span <= |s|
    decreases |kernel| - k
  {
    if k >= |kernel| then 0.0
    else
      var c := kernel[k];
      (c.sign as real) * s[i + c.offset[0]] + KernelSumFrom1(s, kernel, span, i, k + 1)
  }

  /** Valid-mode sparse correlation: one output per placement of the span-wide kernel. */
  function CorrelateSparse1(s: seq<real>, kernel: seq<Corner>, span: nat): (r: seq<real>)
    requires FitsSpan1(kernel, span) && 0 < span <= |s| + 1
    ensures |r| == |s| - span + 1
  {
    seq(|s| - span + 1, i requires 0 <= i < |s| - span + 1 => KernelSum1(s, kernel, span, i))
  }

  /** Window sums of an already padded array p, read from its integral image with the kernel
      of the odd size w (kernel span w + 1). Entry i is the sum of p[i + 1 .. i + w + 1]. */
  function WindowSums1(p: seq<real>, w: nat): (r: seq<real>)
    requires w % 2 == 1 && w <= |p|
    ensures |r| == |p| - w
    ensures forall i :: 0 <= i < |r| ==> r[i] == Sum(p[i + 1 .. i + w + 1])
  {
    Kernel1D(w);
    var r := CorrelateSparse1(IntegralImage1(p), Kernel([w]), w + 1);
    assert forall i :: 0 <= i < |r| ==> r[i] == Sum(p[i + 1 .. i + w + 1]) by {
      forall i | 0 <= i < |r|
        ensures r[i] == Sum(p[i + 1 .. i + w + 1])
      {
        CornerSum1(p, w, i);
      }
    }
    r
  }

  /** The 1-D kernel at i over the integral image of p sums p[i + 1 .. i + w + 1]. */
  lemma CornerSum1(p: seq<real>, w: nat, i: nat)
    requires w % 2 == 1 && i + w < |p|
    ensures FitsSpan1(Kernel([w]), w + 1)
    ensures KernelSum1(IntegralImage1(p), Kernel([w]), w + 1, i) == Sum(p[i + 1 .. i + w + 1])
  {
    var s := IntegralImage1(p);
    Kernel1D(w);
    TwoCorners(s, w, i);
    InclusionExclusion1(p, w, i, s[i], s[i + w]);
  }

  /** The 1-D kernel applied at i is S[i + w] - S[i]. */
  lemma TwoCorners(s: seq<real>, w: nat, i: nat)
    requires i + w < |s|
    ensures FitsSpan1([Corner([0], -1), Corner([w], 1)], w + 1)
    ensures KernelSum1(s, [Corner([0], -1), Corner([w], 1)], w + 1, i) == s[i + w] - s[i]
  {
    var k := [Corner([0], -1), Corner([w], 1)];
    assert KernelSumFrom1(s, k, w + 1, i, 2) == 0.0;
    assert KernelSumFrom1(s, k, w + 1, i, 1) == s[i + w];
  }

  /** The 1-D inclusion-exclusion step: given the prefix sums x0 of p[..i + 1] and x1 of
      p[..i + w + 1], their difference is the sum of p[i + 1 .. i + w + 1]. */
  lemma InclusionExclusion1(p: seq<real>, w: nat, i: nat, x0: real, x1: real)
    requires i + w < |p| && x0 == Sum(p[..i + 1]) && x1 == Sum(p[..i + w + 1])
    ensures x1 - x0 == Sum(p[i + 1 .. i + w + 1])
  {
    PrefixDifference(p, i + 1, i + w + 1);
  }

  /** The brute-force window of odd size w centred on sample i of the reflect-extended image. */
  function Window1(img: seq<real>, i: int, w: nat): (r: seq<real>)
    requires |img| > 0
    ensures |r| == w
  {
    seq(w, d => Ext1(img, i - w / 2 + d))
  }

  /** The padded image seen through the output index i is exactly the window centred on i. */
  lemma PaddedWindow1(img: seq<real>, w: nat, i: nat)
    requires |img| > 0 && w % 2 == 1 && i < |img|
    ensures |Pad1(img, w)| == |img| + w
    ensures Pad1(img, w)[i + 1 .. i + w + 1] == Window1(img, i, w)
  {
    var p := Pad1(img, w);
    forall d | 0 <= d < w
      ensures p[i + 1 .. i + w + 1][d] == Window1(img, i, w)[d]
    {
    }
  }

  /** The 1-D window theorem: padding by (w // 2 + 1, w // 2), the inclusive integral image and
      the signed corner sum give, at every original sample i, the sum of the w-wide window of the
      reflect-extended image centred on i; the output has the image's length. */
  function LocalSums1(img: seq<real>, w: nat): (r: seq<real>)
    requires |img| > 0 && w % 2 == 1
    ensures |r| == |img|
    ensures forall i :: 0 <= i < |img| ==> r[i] == Sum(Window1(img, i, w))
  {
    var r := WindowSums1(Pad1(img, w), w);
    assert forall i :: 0 <= i < |img| ==> r[i] == Sum(Window1(img, i, w)) by {
      forall i | 0 <= i < |img|
        ensures r[i] == Sum(Window1(img, i, w))
      {
        PaddedWindow1(img, w, i);
      }
    }
    r
  }

  /** The same construction on the squared padded image gives the windowed sums of squares. */
  function LocalSquareSums1(img: seq<real>, w: nat): (r: seq<real>)
    requires |img| > 0 && w % 2 == 1
    ensures |r| == |img|
    ensures forall i :: 0 <= i < |img| ==> r[i] == Sum(Squares(Window1(img, i, w)))
  {
    var p := Pad1(img, w);
    var r := WindowSums1(Squares(p), w);
    assert forall i :: 0 <= i < |img| ==> r[i] == Sum(Squares(Window1(img, i, w))) by {
      forall i | 0 <= i < |img|
        ensures r[i] == Sum(Squares(Window1(img, i, w)))
      {
        PaddedWindow1(img, w, i);
        SquaresSlice(p, i + 1, i + w + 1);
      }
    }
    r
  }
}

=== FILE: integral_2d.dfy ===
/** Two-dimensional local window sums through an integral image: the same construction as in
    1-D with the four signed corners of the 2-D kernel. */
module Integral2D {
  import opened Sums
  import opened SparseKernel
  import opened ReflectPad
  import Integral1D

  /** Column c of the rows g. */
  function Column(g: seq<seq<real>>, c: nat): (r: seq<real>)
    requires forall a :: 0 <= a < |g| ==> c < |g[a]|
    ensures |r| == |g|
    ensures forall a :: 0 <= a < |g| ==> r[a] == g[a][c]
  {
    seq(|g|, a requires 0 <= a < |g| => g[a][c])
  }

  /** Running totals down the columns (cumulative sum along axis 0). */
  function ColumnTotals(g: seq<seq<real>>, cols: nat): (r: seq<seq<real>>)
    requires IsGrid(g, |g|, cols)
    ensures IsGrid(r, |g|, cols)
    decreases |g|
  {
    if |g| == 0 then []
    else
      var n := |g| - 1;
      var prev := ColumnTotals(g[..n], cols);
      prev + [seq(cols, b requires 0 <= b < cols => (if n == 0 then 0.0 else prev[n - 1][b]) + g[n][b])]
  }

  /** Entry (a, b) of the running totals is the sum of column b over rows 0 .. a. */
  lemma {:induction false} ColumnTotalsAt(g: seq<seq<real>>, cols: nat, a: nat, b: nat)
    requires IsGrid(g, |g|, cols) && a < |g| && b < cols
    ensures ColumnTotals(g, cols)[a][b] == Sum(Column(g[..a + 1], b))
    decreases |g|
  {
    var n := |g| - 1;
    var prev := ColumnTotals(g[..n], cols);
    if a < n {
      ColumnTotalsAt(g[..n], cols, a, b);
      assert g[..n][..a + 1] == g[..a + 1];
    } else {
      var col := Column(g[..n + 1], b);
      assert col[..n] == Column(g[..n], b);
      if n > 0 {
        ColumnTotalsAt(g[..n], cols, n - 1, b);
        assert g[..n][..n] == g[..n];
      }
    }
  }

  /** The integral image of a 2-D array: inclusive prefix sums along each row, then running
      totals down the columns. */
  function IntegralImage2(p: seq<seq<real>>, cols: nat): (r: seq<seq<real>>)
    requires IsGrid(p, |p|, cols)
    ensures IsGrid(r, |p|, cols)
  {
    var rowPrefix := seq(|p|, a requires 0 <= a < |p| => Integral1D.IntegralImage1(p[a]));
    ColumnTotals(rowPrefix, cols)
  }

  /** Per-row totals of the columns [c0, c1). */
  function Strip(p: seq<seq<real>>, cols: nat, c0: nat, c1: nat): (r: seq<real>)
    requires IsGrid(p, |p|, cols) && c0 <= c1 <= cols
    ensures |r| == |p|
    ensures forall a :: 0 <= a < |p| ==> r[a] == Sum(p[a][c0..c1])
  {
    seq(|p|, a requires 0 <= a < |p| => Sum(p[a][c0..c1]))
  }

  /** Entry (a, b) of the integral image is the sum of the block [0, a] x [0, b]. */
  lemma IntegralImage2At(p: seq<seq<real>>, cols: nat, a: nat, b: nat)
    requires IsGrid(p, |p|, cols) && a < |p| && b < cols
    ensures IntegralImage2(p, cols)[a][b] == Sum(Strip(p, cols, 0, b + 1)[..a + 1])
  {
    var rowPrefix := seq(|p|, a requires 0 <= a < |p| => Integral1D.IntegralImage1(p[a]));
    ColumnTotalsAt(rowPrefix, cols, a, b);
    var col := Column(rowPrefix[..a + 1], b);
    var strip := Strip(p, cols, 0, b + 1)[..a + 1];
    assert col == strip by {
      forall k | 0 <= k < a + 1
        ensures col[k] == strip[k]
      {
        assert p[k][..b + 1] == p[k][0..b + 1];
      }
    }
  }

  /** Every kernel offset is two coordinates with [0, span0) x [0, span1). */
  predicate FitsSpan2(kernel: seq<Corner>, span0: nat, span1: nat) {
    forall c :: c in kernel ==>
      |c.offset| == 2 && 0 <= c.offset[0] < span0 && 0 <= c.offset[1] < span1
  }

  /** Sum over the kernel of sign * S[i + offset0][j + offset1]. */
  function KernelSum2(s: seq<seq<real>>, cols: nat, kernel: seq<Corner>, span0: nat, span1: nat,
                      i: nat, j: nat): real
    requires IsGrid(s, |s|, cols) && FitsSpan2(kernel, span0, span1)
    requires i + span0 <= |s| && j + span1 <= cols
  {
    KernelSumFrom2(s, cols, kernel, span0, span1, i, j, 0)
  }

  /** The kernel sum over the corners from index k on. */
  function KernelSumFrom2(s: seq<seq<real>>, cols: nat, kernel: seq<Corner>, span0: nat, span1: nat,
                          i: nat, j: nat, k: nat): real
    requires IsGrid(s, |s|, cols) && FitsSpan2(kernel, span0, span1)
    requires i + span0 <= |s| && j + span1 <= cols
    decreases |kernel| - k
  {
    if k >= |kernel| then 0.0
    else
      var c := kernel[k];
      (c.sign as real) * s[i + c.offset[0]][j + c.offset[1]]
        + KernelSumFrom2(s, cols, kernel, span0, span1, i, j, k + 1)
  }

  /** Valid-mode sparse correlation in 2-D. */
  function CorrelateSparse2(s: seq<seq<real>>, cols: nat, kernel: seq<Corner>, span0: nat, span1: nat)
    : (r: seq<seq<real>>)
    requires IsGrid(s, |s|, cols) && FitsSpan2(kernel, span0, span1)
    requires 0 < span0 <= |s| + 1 && 0 < span1 <= cols + 1
    ensures IsGrid(r, |s| - span0 + 1, cols - span1 + 1)
  {
    seq(|s| - span0 + 1, i requires 0 <= i < |s| - span0 + 1 =>
      seq(cols - span1 + 1, j requires 0 <= j < cols - span1 + 1 =>
        KernelSum2(s, cols, kernel, span0, span1, i, j)))
  }

  /** The block p[i + 1 .. i + w0 + 1][j + 1 .. j + w1 + 1]. */
  function Block(p: seq<seq<real>>, cols: nat, i: nat, j: nat, w0: nat, w1: nat): (r: seq<seq<real>>)
    requires IsGrid(p, |p|, cols) && i + w0 < |p| && j + w1 < cols
    ensures IsGrid(r, w0, w1)
  {
    seq(w0, d requires 0 <= d < w0 => p[i + 1 + d][j + 1 .. j + w1 + 1])
  }

  /** Row by row, the difference of the two column prefixes is the block's row; summed over
      the rows, it is the block's total. */
  lemma StripDifference(p: seq<seq<real>>, cols: nat, w0: nat, w1: nat, i: nat, j: nat)
    requires IsGrid(p, |p|, cols) && i + w0 < |p| && j + w1 < cols
    ensures Sum(Strip(p, cols, 0, j + w1 + 1)[i + 1 .. i + w0 + 1])
          - Sum(Strip(p, cols, 0, j + 1)[i + 1 .. i + w0 + 1])
         == Sum(Flatten(Block(p, cols, i, j, w0, w1)))
  {
    var blk := Block(p, cols, i, j, w0, w1);
    var hiRows := Strip(p, cols, 0, j + w1 + 1)[i + 1 .. i + w0 + 1];
    var loRows := Strip(p, cols, 0, j + 1)[i + 1 .. i + w0 + 1];
    var mid := RowTotals(blk);
    forall d | 0 <= d < w0
      ensures mid[d] == hiRows[d] - loRows[d]
    {
      var row := p[i + 1 + d];
      PrefixDifference(row, j + 1, j + w1 + 1);
      assert row[..j + w1 + 1] == row[0..j + w1 + 1];
      assert row[..j + 1] == row[0..j + 1];
    }
    SumDifference(hiRows, loRows, mid);
    SumFlatten(blk);
  }

  /** s is an integral image of p: entry (a, b) sums the block [0, a] x [0, b]. */
  predicate IsIntegralOf(s: seq<seq<real>>, p: seq<seq<real>>, cols: nat)
    requires IsGrid(p, |p|, cols)
  {
    IsGrid(s, |p|, cols)
    && forall a, b :: 0 <= a < |p| && 0 <= b < cols ==> s[a][b] == Sum(Strip(p, cols, 0, b + 1)[..a + 1])
  }

  lemma IntegralImage2Is(p: seq<seq<real>>, cols: nat)
    requires IsGrid(p, |p|, cols)
    ensures IsIntegralOf(IntegralImage2(p, cols), p, cols)
  {
    forall a, b | 0 <= a < |p| && 0 <= b < cols
      ensures IntegralImage2(p, cols)[a][b] == Sum(Strip(p, cols, 0, b + 1)[..a + 1])
    {
      IntegralImage2At(p, cols, a, b);
    }
  }

  /** The 2-D inclusion-exclusion step: given the four corner prefix sums of p (the block
      [0, a] x [0, b] for a in {i, i + w0} and b in {j, j + w1}), their signed combination is the
      sum of the w0 x w1 block between them. */
  lemma InclusionExclusion2(p: seq<seq<real>>, cols: nat, w0: nat, w1: nat, i: nat, j: nat,
                            x00: real, x01: real, x10: real, x11: real)
    requires IsGrid(p, |p|, cols) && i + w0 < |p| && j + w1 < cols
    requires x00 == Sum(Strip(p, cols, 0, j + 1)[..i + 1])
    requires x01 == Sum(Strip(p, cols, 0, j + w1 + 1)[..i + 1])
    requires x10 == Sum(Strip(p, cols, 0, j + 1)[..i + w0 + 1])
    requires x11 == Sum(Strip(p, cols, 0, j + w1 + 1)[..i + w0 + 1])
    ensures x00 - x01 - x10 + x11 == Sum(Flatten(Block(p, cols, i, j, w0, w1)))
  {
    var lo, hi := Strip(p, cols, 0, j + 1), Strip(p, cols, 0, j + w1 + 1);
    CornerDifference(lo, hi, i, i + w0, x00, x01, x10, x11);
    StripDifference(p, cols, w0, w1, i, j);
    var blockTotal := Sum(Flatten(Block(p, cols, i, j, w0, w1)));
    assert Sum(hi[i + 1 .. i + w0 + 1]) - Sum(lo[i + 1 .. i + w0 + 1]) == blockTotal;
  }

  /** Four prefix sums of two columns lo, hi at rows a0 <= a1 combine into the difference of
      the two columns' sums over the rows a0 + 1 .. a1. */
  lemma CornerDifference(lo: seq<real>, hi: seq<real>, a0: nat, a1: nat,
                         x00: real, x01: real, x10: real, x11: real)
    requires |lo| == |hi| && a0 <= a1 < |lo|
    requires x00 == Sum(lo[..a0 + 1]) && x01 == Sum(hi[..a0 + 1])
    requires x10 == Sum(lo[..a1 + 1]) && x11 == Sum(hi[..a1 + 1])
    ensures x00 - x01 - x10 + x11 == Sum(hi[a0 + 1 .. a1 + 1]) - Sum(lo[a0 + 1 .. a1 + 1])
  {
    PrefixDifference(lo, a0 + 1, a1 + 1);
    PrefixDifference(hi, a0 + 1, a1 + 1);
  }

  /** The 2-D kernel at (i, j) over an integral image of p sums the w0 x w1 block below and
      to the right of (i, j). */
  lemma CornerSum2(s: seq<seq<real>>, p: seq<seq<real>>, cols: nat, w0: nat, w1: nat, i: nat, j: nat)
    requires IsGrid(p, |p|, cols) && IsIntegralOf(s, p, cols)
    requires w0 % 2 == 1 && w1 % 2 == 1 && i + w0 < |p| && j + w1 < cols
    ensures FitsSpan2(Kernel([w0, w1]), w0 + 1, w1 + 1)
    ensures KernelSum2(s, cols, Kernel([w0, w1]), w0 + 1, w1 + 1, i, j)
         == Sum(Flatten(Block(p, cols, i, j, w0, w1)))
  {
    Kernel2D(w0, w1);
    FourCorners(s, cols, w0, w1, i, j);
    InclusionExclusion2(p, cols, w0, w1, i, j, s[i][j], s[i][j + w1], s[i + w0][j], s[i + w0][j + w1]);
  }

  /** Window sums of an already padded 2-D array p with odd sizes w0, w1: entry (i, j) sums the
      block p[i + 1 .. i + w0 + 1][j + 1 .. j + w1 + 1]. */
  function WindowSums2(p: seq<seq<real>>, cols: nat, w0: nat, w1: nat): (r: seq<seq<real>>)
    requires IsGrid(p, |p|, cols) && w0 % 2 == 1 && w1 % 2 == 1 && w0 <= |p| && w1 <= cols
    ensures IsGrid(r, |p| - w0, cols - w1)
    ensures forall i, j :: 0 <= i < |p| - w0 && 0 <= j < cols - w1 ==>
      r[i][j] == Sum(Flatten(Block(p, cols, i, j, w0, w1)))
  {
    Kernel2D(w0, w1);
    var s := IntegralImage2(p, cols);
    IntegralImage2Is(p, cols);
    var r := CorrelateSparse2(s, cols, Kernel([w0, w1]), w0 + 1, w1 + 1);
    assert forall i, j :: 0 <= i < |p| - w0 && 0 <= j < cols - w1 ==>
      r[i][j] == Sum(Flatten(Block(p, cols, i, j, w0, w1))) by {
      forall i, j | 0 <= i < |p| - w0 && 0 <= j < cols - w1
        ensures r[i][j] == Sum(Flatten(Block(p, cols, i, j, w0, w1)))
      {
        CornerSum2(s, p, cols, w0, w1, i, j);
      }
    }
    r
  }

  /** The 2-D kernel applied at (i, j) is the four-corner combination. */
  lemma FourCorners(s: seq<seq<real>>, cols: nat, w0: nat, w1: nat, i: nat, j: nat)
    requires IsGrid(s, |s|, cols) && i + w0 < |s| && j + w1 < cols
    ensures var k := [Corner([0, 0], 1), Corner([0, w1], -1), Corner([w0, 0], -1), Corner([w0, w1], 1)];
      FitsSpan2(k, w0 + 1, w1 + 1)
      && KernelSum2(s, cols, k, w0 + 1, w1 + 1, i, j)
         == s[i][j] - s[i][j + w1] - s[i + w0][j] + s[i + w0][j + w1]
  {
    var k := [Corner([0, 0], 1), Corner([0, w1], -1), Corner([w0, 0], -1), Corner([w0, w1], 1)];
    var a, b := w0 + 1, w1 + 1;
    assert KernelSumFrom2(s, cols, k, a, b, i, j, 4) == 0.0;
    assert KernelSumFrom2(s, cols, k, a, b, i, j, 3) == s[i + w0][j + w1];
    assert KernelSumFrom2(s, cols, k, a, b, i, j, 2) == s[i + w0][j + w1] - s[i + w0][j];
    assert KernelSumFrom2(s, cols, k, a, b, i, j, 1) == s[i + w0][j + w1] - s[i + w0][j] - s[i][j + w1];
    assert KernelSumFrom2(s, cols, k, a, b, i, j, 0)
        == s[i + w0][j + w1] - s[i + w0][j] - s[i][j + w1] + s[i][j];
  }

  /** The brute-force w0 x w1 window of the reflect-extended image centred on pixel (i, j). */
  function Window2(img: seq<seq<real>>, cols: nat, i: int, j: int, w0: nat, w1: nat)
    : (r: seq<seq<real>>)
    requires |img| > 0 && cols > 0 && IsGrid(img, |img|, cols)
    ensures IsGrid(r, w0, w1)
  {
    seq(w0, d => seq(w1, e => Ext2(img, cols, i - w0 / 2 + d, j - w1 / 2 + e)))
  }

  lemma PaddedWindow2(img: seq<seq<real>>, cols: nat, w0: nat, w1: nat, i: nat, j: nat)
    requires |img| > 0 && cols > 0 && IsGrid(img, |img|, cols)
    requires w0 % 2 == 1 && w1 % 2 == 1 && i < |img| && j < cols
    ensures IsGrid(Pad2(img, cols, w0, w1), |img| + w0, cols + w1)
    ensures Block(Pad2(img, cols, w0, w1), cols + w1, i, j, w0, w1) == Window2(img, cols, i, j, w0, w1)
  {
    var p := Pad2(img, cols, w0, w1);
    var blk := Block(p, cols + w1, i, j, w0, w1);
    var win := Window2(img, cols, i, j, w0, w1);
    forall d | 0 <= d < w0
      ensures blk[d] == win[d]
    {
      forall e | 0 <= e < w1
        ensures blk[d][e] == win[d][e]
      {
      }
    }
  }

  /** The 2-D window theorem: at every original pixel (i, j) the signed corner sum over the
      integral image of the padded image is the sum of the w0 x w1 window of the
      reflect-extended image centred on (i, j); the output has the image's shape. */
  function LocalSums2(img: seq<seq<real>>, cols: nat, w0: nat, w1: nat): (r: seq<seq<real>>)
    requires |img| > 0 && cols > 0 && IsGrid(img, |img|, cols)
    requires w0 % 2 == 1 && w1 % 2 == 1
    ensures IsGrid(r, |img|, cols)
    ensures forall i, j :: 0 <= i < |img| && 0 <= j < cols ==>
      r[i][j] == Sum(Flatten(Window2(img, cols, i, j, w0, w1)))
  {
    var p := Pad2(img, cols, w0, w1);
    var r := WindowSums2(p, cols + w1, w0, w1);
    assert forall i, j :: 0 <= i < |img| && 0 <= j < cols ==>
      r[i][j] == Sum(Flatten(Window2(img, cols, i, j, w0, w1))) by {
      forall i, j | 0 <= i < |img| && 0 <= j < cols
        ensures r[i][j] == Sum(Flatten(Window2(img, cols, i, j, w0, w1)))
      {
        PaddedWindow2(img, cols, w0, w1, i, j);
      }
    }
    r
  }

  function SquareGrid(g: seq<seq<real>>): (r: seq<seq<real>>)
    ensures |r| == |g|
    ensures forall a :: 0 <= a < |g| ==> r[a] == Squares(g[a])
  {
    seq(|g|, a requires 0 <= a < |g| => Squares(g[a]))
  }

  /** A block of the squared padded image flattens to the squares of the window. */
  lemma SquaredBlock(img: seq<seq<real>>, cols: nat, w0: nat, w1: nat, i: nat, j: nat)
    requires |img| > 0 && cols > 0 && IsGrid(img, |img|, cols)
    requires w0 % 2 == 1 && w1 % 2 == 1 && i < |img| && j < cols
    ensures var p := Pad2(img, cols, w0, w1);
      IsGrid(SquareGrid(p), |p|, cols + w1)
      && Flatten(Block(SquareGrid(p), cols + w1, i, j, w0, w1))
         == Squares(Flatten(Window2(img, cols, i, j, w0, w1)))
  {
    var p := Pad2(img, cols, w0, w1);
    var q := SquareGrid(p);
    PaddedWindow2(img, cols, w0, w1, i, j);
    var blkSq := Block(q, cols + w1, i, j, w0, w1);
    var win := Window2(img, cols, i, j, w0, w1);
    forall d | 0 <= d < w0
      ensures blkSq[d] == Squares(win[d])
    {
      SquaresSlice(p[i + 1 + d], j + 1, j + w1 + 1);
    }
    FlattenSquares(win, blkSq);
  }

  /** The same construction on the squared padded image gives windowed sums of squares. */
  function LocalSquareSums2(img: seq<seq<real>>, cols: nat, w0: nat, w1: nat): (r: seq<seq<real>>)
    requires |img| > 0 && cols > 0 && IsGrid(img, |img|, cols)
    requires w0 % 2 == 1 && w1 % 2 == 1
    ensures IsGrid(r, |img|, cols)
    ensures forall i, j :: 0 <= i < |img| && 0 <= j < cols ==>
      r[i][j] == Sum(Squares(Flatten(Window2(img, cols, i, j, w0, w1))))
  {
    var p := Pad2(img, cols, w0, w1);
    var q := SquareGrid(p);
    assert IsGrid(q, |p|, cols + w1);
    var r := WindowSums2(q, cols + w1, w0, w1);
    assert forall i, j :: 0 <= i < |img| && 0 <= j < cols ==>
      r[i][j] == Sum(Squares(Flatten(Window2(img, cols, i, j, w0, w1)))) by {
      forall i, j | 0 <= i < |img| && 0 <= j < cols
        ensures r[i][j] == Sum(Squares(Flatten(Window2(img, cols, i, j, w0, w1))))
      {
        SquaredBlock(img, cols, w0, w1, i, j);
      }
    }
    r
  }
}

=== FILE: li.dfy ===
/** `threshold_li`: Li's iterative minimum cross-entropy threshold. The model covers the
    dispatch on degenerate inputs (NaN, constant and infinite values), the shift to a zero
    minimum, the tolerance default, the validation of the initial guess, the foreground /
    background split and the loop's exit condition. The logarithm is a parameter, and the
    loop carries a fuel bound since the source has no iteration cap. */
module Li {
  import opened Errors
  import opened ExtReal
  import opened Sums

  /** Whether the image holds integers (`dtype.kind in 'iu'`) or floating-point values. */
  datatype Kind = IntegerKind | FloatKind

  /** `initial_guess`: absent, a callable applied to the shifted values, a number in the
      image's own units, or anything else. */
  datatype Guess = NoGuess | GuessFunction(f: seq<real> -> real) | GuessValue(g: real) | GuessOther

  /** `100 * np.finfo(float).eps`, with eps = 2^-52. */
  const EPS: real := 100.0 / 4503599627370496.0

  function Abs(x: real): real {
    if x < 0.0 then -x else x
  }

  /** `image[~isnan(image)]`. */
  function RemoveNaN(xs: seq<XReal>): (r: seq<XReal>)
    ensures |r| <= |xs|
    ensures forall x :: x in r <==> x in xs && x != NaN
    ensures (forall a :: 0 <= a < |xs| ==> xs[a] == NaN) <==> r == []
    decreases |xs|
  {
    if |xs| == 0 then []
    else
      var init := RemoveNaN(xs[..|xs| - 1]);
      assert xs == xs[..|xs| - 1] + [xs[|xs| - 1]];
      if xs[|xs| - 1] == NaN then init else init + [xs[|xs| - 1]]
  }

  /** `image[isfinite(image)]`, as reals. */
  function FiniteValues(xs: seq<XReal>): (r: seq<real>)
    ensures |r| <= |xs|
    ensures forall v :: v in r <==> Fin(v) in xs
    ensures (forall a :: 0 <= a < |xs| ==> !xs[a].Fin?) <==> r == []
    decreases |xs|
  {
    if |xs| == 0 then []
    else
      var init := FiniteValues(xs[..|xs| - 1]);
      assert xs == xs[..|xs| - 1] + [xs[|xs| - 1]];
      if xs[|xs| - 1].Fin? then init + [xs[|xs| - 1].v] else init
  }

  /** RemoveNaN keeps every non-NaN value exactly as often as it occurs. */
  lemma {:induction false} RemoveNaNCounts(xs: seq<XReal>)
    ensures multiset(RemoveNaN(xs)) == multiset(xs)[NaN := 0]
    decreases |xs|
  {
    if |xs| > 0 {
      var init := xs[..|xs| - 1];
      RemoveNaNCounts(init);
      assert xs == init + [xs[|xs| - 1]];
    }
  }

  /** FiniteValues keeps every finite value exactly as often as it occurs. */
  lemma {:induction false} FiniteValuesCounts(xs: seq<XReal>)
    ensures multiset(AsExtended(FiniteValues(xs))) == FinitePart(multiset(xs))
    decreases |xs|
  {
    if |xs| > 0 {
      var init := xs[..|xs| - 1];
      var last := xs[|xs| - 1];
      FiniteValuesCounts(init);
      assert xs == init + [last];
      FinitePartAdd(multiset(init), last);
      if last.Fin? {
        var r := FiniteValues(init);
        assert AsExtended(r + [last.v]) == AsExtended(r) + [last];
      }
    }
  }

  /** The finite values of a multiset of extended reals: m without NaN and the infinities. */
  function FinitePart(m: multiset<XReal>): multiset<XReal> {
    m[NaN := 0][PosInf := 0][NegInf := 0]
  }

  /** Adding one value adds it to the finite part exactly when it is finite. */
  lemma FinitePartAdd(m: multiset<XReal>, x: XReal)
    ensures FinitePart(m + multiset{x}) == FinitePart(m) + if x.Fin? then multiset{x} else multiset{}
  {
    var l := FinitePart(m + multiset{x});
    var r := FinitePart(m) + if x.Fin? then multiset{x} else multiset{};
    forall y
      ensures l[y] == r[y]
    {
    }
  }

  /** Finite reals seen as extended reals. */
  function AsExtended(v: seq<real>): (r: seq<XReal>)
    ensures |r| == |v| && forall a :: 0 <= a < |v| ==> r[a] == Fin(v[a])
  {
    seq(|v|, a requires 0 <= a < |v| => Fin(v[a]))
  }

  /** `all(image == image[0])`. */
  predicate AllSame(xs: seq<XReal>)
    requires |xs| > 0
  {
    forall a :: 0 <= a < |xs| ==> xs[a] == xs[0]
  }

  function Min(s: seq<real>): (m: real)
    requires |s| > 0
    ensures m in s && forall a :: 0 <= a < |s| ==> m <= s[a]
    decreases |s|
  {
    if |s| == 1 then s[0]
    else
      var m := Min(s[..|s| - 1]);
      assert s == s[..|s| - 1] + [s[|s| - 1]];
      if s[|s| - 1] < m then s[|s| - 1] else m
  }

  function Max(s: seq<real>): (m: real)
    requires |s| > 0
    ensures m in s && forall a :: 0 <= a < |s| ==> s[a] <= m
    decreases |s|
  {
    if |s| == 1 then s[0]
    else
      var m := Max(s[..|s| - 1]);
      assert s == s[..|s| - 1] + [s[|s| - 1]];
      if s[|s| - 1] > m then s[|s| - 1] else m
  }

  /** `image - image_min`. */
  function Shifted(s: seq<real>, m: real): (r: seq<real>)
    ensures |r| == |s| && forall a :: 0 <= a < |s| ==> r[a] + m == s[a]
  {
    seq(|s|, a requires 0 <= a < |s| => s[a] - m)
  }

  function MinOpt(x: Option<real>, y: Option<real>): Option<real> {
    if x.None? then y
    else if y.None? then x
    else if x.value <= y.value then x else y
  }

  /** The smallest distance from x to a value of t other than x. */
  function GapTo(x: real, t: seq<real>): Option<real>
    decreases |t|
  {
    if |t| == 0 then None
    else
      var rest := GapTo(x, t[1..]);
      if t[0] == x then rest else MinOpt(Some(Abs(t[0] - x)), rest)
  }

  /** The smallest distance between two distinct values of s, `min(diff(unique(s)))`; None
      when s holds fewer than two distinct values. */
  function MinGap(s: seq<real>): Option<real>
    decreases |s|
  {
    if |s| == 0 then None else MinOpt(GapTo(s[0], s[1..]), MinGap(s[1..]))
  }

  /** GapTo is the least positive distance from x to the other values of t. */
  lemma {:induction false} GapToIsLeast(x: real, t: seq<real>)
    ensures GapTo(x, t).None? <==> forall a :: 0 <= a < |t| ==> t[a] == x
    ensures GapTo(x, t).Some? ==>
      && GapTo(x, t).value > 0.0
      && (forall a :: 0 <= a < |t| && t[a] != x ==> GapTo(x, t).value <= Abs(t[a] - x))
      && exists a :: 0 <= a < |t| && t[a] != x && GapTo(x, t).value == Abs(t[a] - x)
    decreases |t|
  {
    if |t| > 0 {
      GapToIsLeast(x, t[1..]);
      assert forall a :: 1 <= a < |t| ==> t[a] == t[1..][a - 1];
      var rest := GapTo(x, t[1..]);
      if rest.Some? {
        var b :| 0 <= b < |t[1..]| && t[1..][b] != x && rest.value == Abs(t[1..][b] - x);
        assert t[b + 1] == t[1..][b];
      }
    }
  }

  predicate AllEqual(s: seq<real>) {
    forall a, b :: 0 <= a < |s| && 0 <= b < |s| ==> s[a] == s[b]
  }

  /** MinGap is None exactly when s has no two distinct values. */
  lemma {:induction false} MinGapNone(s: seq<real>)
    ensures MinGap(s).None? <==> AllEqual(s)
    decreases |s|
  {
    if |s| > 0 {
      var t := s[1..];
      GapToIsLeast(s[0], t);
      MinGapNone(t);
      assert forall a :: 1 <= a < |s| ==> s[a] == t[a - 1];
      if GapTo(s[0], t).None? {
        forall a, b | 0 <= a < |s| && 0 <= b < |s|
          ensures s[a] == s[b]
        {
          if a > 0 { assert s[a] == t[a - 1] == s[0]; }
          if b > 0 { assert s[b] == t[b - 1] == s[0]; }
        }
      } else {
        var b :| 0 <= b < |t| && t[b] != s[0] && GapTo(s[0], t).value == Abs(t[b] - s[0]);
        assert s[b + 1] == t[b];
      }
    }
  }

  /** MinGap is a positive lower bound on the distance between distinct values. */
  lemma {:induction false} MinGapIsLowerBound(s: seq<real>)
    ensures MinGap(s).Some? ==>
      && MinGap(s).value > 0.0
      && forall a, b :: 0 <= a < |s| && 0 <= b < |s| && s[a] != s[b] ==> MinGap(s).value <= Abs(s[a] - s[b])
    decreases |s|
  {
    if |s| > 0 {
      var t := s[1..];
      GapToIsLeast(s[0], t);
      MinGapIsLowerBound(t);
      MinGapNone(t);
      forall a, b | 0 <= a < |s| && 0 <= b < |s| && s[a] != s[b] && MinGap(s).Some?
        ensures MinGap(s).value <= Abs(s[a] - s[b])
      {
        if a == 0 {
          assert s[b] == t[b - 1];
          assert Abs(s[a] - s[b]) == Abs(t[b - 1] - s[0]);
        } else if b == 0 {
          assert s[a] == t[a - 1];
          assert Abs(s[a] - s[b]) == Abs(t[a - 1] - s[0]);
        } else {
          assert s[a] == t[a - 1] && s[b] == t[b - 1];
          assert !AllEqual(t);
        }
      }
    }
  }

  /** MinGap is the distance between some two distinct values. */
  lemma {:induction false} MinGapAttained(s: seq<real>)
    ensures MinGap(s).Some? ==>
      exists a, b :: 0 <= a < |s| && 0 <= b < |s| && s[a] != s[b] && MinGap(s).value == Abs(s[a] - s[b])
    decreases |s|
  {
    if |s| > 0 {
      var t := s[1..];
      GapToIsLeast(s[0], t);
      MinGapAttained(t);
      if MinGap(s).Some? {
        if MinGap(s) == GapTo(s[0], t) {
          var b :| 0 <= b < |t| && t[b] != s[0] && GapTo(s[0], t).value == Abs(t[b] - s[0]);
          assert s[b + 1] == t[b] && Abs(s[b + 1] - s[0]) == Abs(t[b] - s[0]);
        } else {
          var a, b :| 0 <= a < |t| && 0 <= b < |t| && t[a] != t[b] && MinGap(t).value == Abs(t[a] - t[b]);
          assert s[a + 1] == t[a] && s[b + 1] == t[b];
        }
      }
    }
  }

  /** The tolerance used when the caller gives none (or 0): 0.5 for integer images, half the
      smallest gap between distinct values for floating-point ones, where an image with a
      single distinct finite value makes the minimum over an empty array raise ValueError. */
  function DefaultTolerance(kind: Kind, vals: seq<real>): Result<real> {
    if kind == IntegerKind then Ok(0.5)
    else
      var gap := MinGap(vals);
      if gap.None? then Err(ValueError("zero-size array to reduction operation minimum which has no identity"))
      else Ok(gap.value / 2.0)
  }

  /** `tolerance or default`: a missing or zero tolerance falls back to the default. */
  function Tolerance(kind: Kind, tolerance: Option<real>, vals: seq<real>): Result<real> {
    if tolerance.Some? && tolerance.value != 0.0 then Ok(tolerance.value)
    else DefaultTolerance(kind, vals)
  }

  /** The default tolerance is 0.5 for integer images. For floating-point images it is
      positive and at most half of every gap between distinct values, with equality for the
      smallest gap. */
  lemma DefaultToleranceBounds(kind: Kind, vals: seq<real>)
    ensures kind == IntegerKind ==> DefaultTolerance(kind, vals) == Ok(0.5)
    ensures DefaultTolerance(kind, vals).Ok? ==> DefaultTolerance(kind, vals).value > 0.0
    ensures kind == FloatKind ==>
      (DefaultTolerance(kind, vals).Ok? <==> !AllEqual(vals))
    ensures kind == FloatKind && DefaultTolerance(kind, vals).Ok? ==>
      forall a, b :: 0 <= a < |vals| && 0 <= b < |vals| && vals[a] != vals[b] ==>
        2.0 * DefaultTolerance(kind, vals).value <= Abs(vals[a] - vals[b])
    ensures kind == FloatKind && DefaultTolerance(kind, vals).Ok? ==>
      exists a, b :: 0 <= a < |vals| && 0 <= b < |vals| && vals[a] != vals[b] &&
        2.0 * DefaultTolerance(kind, vals).value == Abs(vals[a] - vals[b])
  {
    MinGapNone(vals);
    MinGapIsLowerBound(vals);
    MinGapAttained(vals);
  }

  /** The first threshold estimate, in shifted units: the mean, the callable's value, or the
      caller's number moved into shifted units, which must lie strictly inside (0, max). */
  function InitialGuess(guess: Guess, vals: seq<real>, shift: real): Result<real>
    requires |vals| > 0
  {
    match guess
    case NoGuess => Ok(Mean(vals))
    case GuessFunction(f) => Ok(f(vals))
    case GuessValue(g) =>
      var t := g - shift;
      if 0.0 < t < Max(vals) then Ok(t)
      else Err(ValueError("The initial guess for threshold_li must be within the range of the image."))
    case GuessOther => Err(TypeError("Incorrect type for `initial_guess`"))
  }

  /** A numeric guess is accepted exactly when it lies strictly between the smallest and the
      largest finite value of the image. */
  lemma GuessInsideRange(fin: seq<real>, g: real)
    requires |fin| > 0
    ensures var vals := Shifted(fin, Min(fin));
      InitialGuess(GuessValue(g), vals, Min(fin)).Ok? <==> Min(fin) < g < Max(fin)
  {
    MaxOfShifted(fin, Min(fin));
  }

  lemma MaxOfShifted(s: seq<real>, m: real)
    requires |s| > 0
    ensures Max(Shifted(s, m)) == Max(s) - m
  {
    var t := Shifted(s, m);
    var k :| 0 <= k < |s| && s[k] == Max(s);
    assert t[k] == Max(s) - m;
    var j :| 0 <= j < |t| && t[j] == Max(t);
    assert t[j] + m == s[j];
  }

  /** Where Li's method starts: an early answer, or the shifted finite values, the shift, the
      tolerance and the first estimate. */
  datatype Start = Early(value: XReal) | Iterate(vals: seq<real>, shift: real, tol: real, t0: real)

  /** Everything `threshold_li` does before its loop. */
  function LiSetup(image: seq<XReal>, kind: Kind, tolerance: Option<real>, guess: Guess)
    : (r: Result<Start>)
    ensures r.Err? ==> r.error.ValueError? || r.error.TypeError?
    ensures r.Ok? && r.value.Iterate? ==>
      var fin := FiniteValues(RemoveNaN(image));
      |fin| > 0 && r.value.shift == Min(fin) && r.value.vals == Shifted(fin, Min(fin))
  {
    SetupWithoutNaN(RemoveNaN(image), kind, tolerance, guess)
  }

  /** The dispatch on the NaN-free values xs: none left, all equal, or no finite one left. */
  function SetupWithoutNaN(xs: seq<XReal>, kind: Kind, tolerance: Option<real>, guess: Guess)
    : (r: Result<Start>)
    ensures r.Err? ==> r.error.ValueError? || r.error.TypeError?
    ensures r.Ok? && r.value.Iterate? ==>
      var fin := FiniteValues(xs);
      |fin| > 0 && r.value.shift == Min(fin) && r.value.vals == Shifted(fin, Min(fin))
  {
    if |xs| == 0 then Ok(Early(NaN))
    else if AllSame(xs) then Ok(Early(xs[0]))
    else
      var fin := FiniteValues(xs);
      if |fin| == 0 then Ok(Early(Fin(0.0)))
      else StartIteration(fin, kind, tolerance, guess)
  }

  /** The shift to a zero minimum, the tolerance and the first estimate, from the finite
      values fin. */
  function StartIteration(fin: seq<real>, kind: Kind, tolerance: Option<real>, guess: Guess)
    : (r: Result<Start>)
    requires |fin| > 0
    ensures r.Err? ==> r.error.ValueError? || r.error.TypeError?
    ensures r.Ok? ==> r.value.Iterate? && r.value.shift == Min(fin) && r.value.vals == Shifted(fin, Min(fin))
  {
    var mn := Min(fin);
    var vals := Shifted(fin, mn);
    StartWith(vals, mn, Tolerance(kind, tolerance, vals), guess)
  }

  /** The start from the shifted values vals and the shift mn, once the tolerance is settled
      (or has raised): the first estimate, which may raise in turn. */
  function StartWith(vals: seq<real>, mn: real, tolerance: Result<real>, guess: Guess): (r: Result<Start>)
    requires |vals| > 0
    ensures r.Err? ==> r.error.ValueError? || r.error.TypeError? || tolerance.Err?
    ensures r.Ok? ==> r.value.Iterate? && r.value.shift == mn && r.value.vals == vals
  {
    var tol :- tolerance;
    var t0 :- InitialGuess(guess, vals, mn);
    Ok(Iterate(vals, mn, tol, t0))
  }

  /** Removing NaNs first is idempotent, so NaNs never change the result. */
  lemma {:induction false} RemoveNaNIdempotent(xs: seq<XReal>)
    ensures RemoveNaN(RemoveNaN(xs)) == RemoveNaN(xs)
    decreases |xs|
  {
    if |xs| > 0 {
      var init := xs[..|xs| - 1];
      RemoveNaNIdempotent(init);
      var r := RemoveNaN(init);
      if xs[|xs| - 1] != NaN {
        var r' := r + [xs[|xs| - 1]];
        assert r'[..|r'| - 1] == r;
      }
    }
  }

  lemma NaNsIgnored(image: seq<XReal>, kind: Kind, tolerance: Option<real>, guess: Guess)
    ensures LiSetup(image, kind, tolerance, guess) == LiSetup(RemoveNaN(image), kind, tolerance, guess)
  {
    RemoveNaNIdempotent(image);
  }

  /** An image of NaNs only has threshold NaN; an image whose non-NaN values all equal v,
      even an infinite v, has threshold v. */
  lemma DegenerateImages(image: seq<XReal>, kind: Kind, tolerance: Option<real>, guess: Guess, v: XReal)
    ensures (forall a :: 0 <= a < |image| ==> image[a] == NaN) ==>
      LiSetup(image, kind, tolerance, guess) == Ok(Early(NaN))
    ensures v != NaN && v in image && (forall a :: 0 <= a < |image| ==> image[a] == NaN || image[a] == v) ==>
      LiSetup(image, kind, tolerance, guess) == Ok(Early(v))
  {
    var xs := RemoveNaN(image);
    if v != NaN && v in image && (forall a :: 0 <= a < |image| ==> image[a] == NaN || image[a] == v) {
      assert v in xs;
      assert forall a :: 0 <= a < |xs| ==> xs[a] in image && xs[a] == v;
    }
  }

  /** When no finite value remains yet the values are not all equal, both infinities occur,
      and the threshold is 0. */
  lemma OnlyInfinities(image: seq<XReal>, kind: Kind, tolerance: Option<real>, guess: Guess)
    requires |RemoveNaN(image)| > 0 && !AllSame(RemoveNaN(image))
    requires |FiniteValues(RemoveNaN(image))| == 0
    ensures PosInf in image && NegInf in image
    ensures LiSetup(image, kind, tolerance, guess) == Ok(Early(Fin(0.0)))
  {
    var xs := RemoveNaN(image);
    var a :| 0 <= a < |xs| && xs[a] != xs[0];
    assert xs[0] in image && xs[a] in image;
    assert xs[0] in xs && xs[a] in xs;
    assert !xs[0].Fin? && !xs[a].Fin?;
  }

  /** After the shift the values are non-negative and the smallest is 0. */
  lemma ShiftedToZero(fin: seq<real>)
    requires |fin| > 0
    ensures forall a :: 0 <= a < |fin| ==> Shifted(fin, Min(fin))[a] >= 0.0
    ensures 0.0 in Shifted(fin, Min(fin))
  {
    var k :| 0 <= k < |fin| && fin[k] == Min(fin);
    assert Shifted(fin, Min(fin))[k] == 0.0;
  }

  /** With the default guess or a numeric one the first estimate is non-negative, so with a
      positive tolerance the start value t_curr = -2 * tol is farther than tol from it and the
      loop body runs at least once. */
  lemma FirstUpdateHappens(image: seq<XReal>, kind: Kind, tolerance: Option<real>, guess: Guess)
    requires LiSetup(image, kind, tolerance, guess).Ok? && LiSetup(image, kind, tolerance, guess).value.Iterate?
    requires guess.NoGuess? || guess.GuessValue?
    ensures var st := LiSetup(image, kind, tolerance, guess).value;
      st.t0 >= 0.0 && (st.tol > 0.0 ==> Abs(st.t0 - (-2.0 * st.tol)) > st.tol)
  {
    var fin := FiniteValues(RemoveNaN(image));
    FirstEstimateNonNeg(fin, kind, tolerance, guess);
  }

  /** What the setup iterates with: the caller's tolerance unless it is missing or 0, then
      the default; the mean, the callable's value or the caller's number in shifted units as
      the first estimate. */
  lemma SetupChoices(image: seq<XReal>, kind: Kind, tolerance: Option<real>, guess: Guess)
    ensures var r := LiSetup(image, kind, tolerance, guess);
      r.Ok? && r.value.Iterate? ==>
        && (tolerance.Some? && tolerance.value != 0.0 ==> r.value.tol == tolerance.value)
        && ((tolerance.None? || tolerance == Some(0.0)) ==>
              Ok(r.value.tol) == DefaultTolerance(kind, r.value.vals))
        && (guess.NoGuess? ==> r.value.t0 == Mean(r.value.vals))
        && (guess.GuessFunction? ==> r.value.t0 == guess.f(r.value.vals))
        && (guess.GuessValue? ==> r.value.t0 == guess.g - r.value.shift)
  {
    var xs := RemoveNaN(image);
    if |xs| > 0 && !AllSame(xs) && |FiniteValues(xs)| > 0 {
      var fin := FiniteValues(xs);
      var vals := Shifted(fin, Min(fin));
      assert LiSetup(image, kind, tolerance, guess) == StartWith(vals, Min(fin), Tolerance(kind, tolerance, vals), guess);
      StartWithChoices(vals, Min(fin), Tolerance(kind, tolerance, vals), guess);
    }
  }

  /** SetupChoices for StartWith: the settled tolerance is kept, and the first estimate is
      chosen by the kind of guess. */
  lemma StartWithChoices(vals: seq<real>, mn: real, tolerance: Result<real>, guess: Guess)
    requires |vals| > 0
    ensures var r := StartWith(vals, mn, tolerance, guess);
      r.Ok? ==>
        && tolerance == Ok(r.value.tol)
        && (guess.NoGuess? ==> r.value.t0 == Mean(vals))
        && (guess.GuessFunction? ==> r.value.t0 == guess.f(vals))
        && (guess.GuessValue? ==> r.value.t0 == guess.g - mn)
  {
  }

  /** Once the tolerance is settled, a numeric guess outside (min, max) of the finite values
      raises ValueError and a guess of any other type TypeError. */
  lemma GuessErrors(image: seq<XReal>, kind: Kind, tolerance: Option<real>, guess: Guess)
    requires var xs := RemoveNaN(image);
      |xs| > 0 && !AllSame(xs) && |FiniteValues(xs)| > 0
    requires var fin := FiniteValues(RemoveNaN(image));
      Tolerance(kind, tolerance, Shifted(fin, Min(fin))).Ok?
    ensures var fin := FiniteValues(RemoveNaN(image));
      guess.GuessValue? && !(Min(fin) < guess.g < Max(fin)) ==>
        LiSetup(image, kind, tolerance, guess).Err? && LiSetup(image, kind, tolerance, guess).error.ValueError?
    ensures guess.GuessOther? ==>
      LiSetup(image, kind, tolerance, guess).Err? && LiSetup(image, kind, tolerance, guess).error.TypeError?
  {
    var fin := FiniteValues(RemoveNaN(image));
    var vals := Shifted(fin, Min(fin));
    assert LiSetup(image, kind, tolerance, guess) == StartWith(vals, Min(fin), Tolerance(kind, tolerance, vals), guess);
    MaxOfShifted(fin, Min(fin));
    StartWithGuessErrors(vals, Min(fin), Tolerance(kind, tolerance, vals), guess);
  }

  /** GuessErrors for StartWith, in shifted units: the guess must lie strictly inside
      (0, max of vals). */
  lemma StartWithGuessErrors(vals: seq<real>, mn: real, tolerance: Result<real>, guess: Guess)
    requires |vals| > 0 && tolerance.Ok?
    ensures guess.GuessValue? && !(0.0 < guess.g - mn < Max(vals)) ==>
      StartWith(vals, mn, tolerance, guess).Err? && StartWith(vals, mn, tolerance, guess).error.ValueError?
    ensures guess.GuessOther? ==>
      StartWith(vals, mn, tolerance, guess).Err? && StartWith(vals, mn, tolerance, guess).error.TypeError?
  {
  }

  lemma FirstEstimateNonNeg(fin: seq<real>, kind: Kind, tolerance: Option<real>, guess: Guess)
    requires |fin| > 0 && StartIteration(fin, kind, tolerance, guess).Ok?
    requires guess.NoGuess? || guess.GuessValue?
    ensures StartIteration(fin, kind, tolerance, guess).value.t0 >= 0.0
  {
    var vals := Shifted(fin, Min(fin));
    ShiftedToZero(fin);
    if guess.NoGuess? {
      SumNonNeg(vals);
    }
  }

  /** `image > t_curr`. */
  function Above(vals: seq<real>, t: real): (r: seq<real>)
    ensures forall a :: 0 <= a < |r| ==> r[a] > t
    decreases |vals|
  {
    if |vals| == 0 then []
    else
      var init := Above(vals[..|vals| - 1], t);
      if vals[|vals| - 1] > t then init + [vals[|vals| - 1]] else init
  }

  /** `image[~foreground]`: the values not above t_curr. */
  function NotAbove(vals: seq<real>, t: real): (r: seq<real>)
    ensures forall a :: 0 <= a < |r| ==> r[a] <= t
    decreases |vals|
  {
    if |vals| == 0 then []
    else
      var init := NotAbove(vals[..|vals| - 1], t);
      if vals[|vals| - 1] > t then init else init + [vals[|vals| - 1]]
  }

  /** Foreground and background split the values: every value lands in exactly one of them. */
  lemma {:induction false} SplitIsPartition(vals: seq<real>, t: real)
    ensures multiset(Above(vals, t)) + multiset(NotAbove(vals, t)) == multiset(vals)
    decreases |vals|
  {
    if |vals| > 0 {
      var init := vals[..|vals| - 1];
      SplitIsPartition(init, t);
      assert vals == init + [vals[|vals| - 1]];
    }
  }

  /** One step of Li's method, (mean_back - mean_fore) / (log(mean_back + eps) -
      log(mean_fore + eps)). The integer branch averages the histogram's bin centres weighted
      by their counts, which is the mean of the values on each side. An empty side has mean NaN
      in the floating-point branch, which makes the step NaN; in the integer branch its weights
      sum to zero and `np.average` raises ZeroDivisionError. A zero denominator is Python's
      ZeroDivisionError on floats. */
  function LiUpdate(kind: Kind, vals: seq<real>, t: real, log: real -> real): (r: Result<XReal>)
    ensures r.Ok? ==> r.value == NaN || r.value.Fin?
    ensures r.Err? ==> r.error.ZeroDivisionError?
    ensures r == Ok(NaN) <==> kind == FloatKind && (|Above(vals, t)| == 0 || |NotAbove(vals, t)| == 0)
    ensures kind == IntegerKind && (|Above(vals, t)| == 0 || |NotAbove(vals, t)| == 0) ==> r.Err?
  {
    var fore, back := Above(vals, t), NotAbove(vals, t);
    if |fore| == 0 || |back| == 0 then
      if kind == FloatKind then Ok(NaN)
      else Err(ZeroDivisionError("Weights sum to zero, can't be normalized"))
    else
      var mf, mb := Mean(fore), Mean(back);
      var den := log(mb + EPS) - log(mf + EPS);
      if den == 0.0 then Err(ZeroDivisionError("float division by zero"))
      else Ok(Fin((mb - mf) / den))
  }

  /** The loop keeps going while the estimate moved by more than tol; `abs(nan - t) > tol`
      is false, so a NaN estimate stops it. */
  predicate Continues(tCurr: real, tNext: XReal, tol: real) {
    tNext.Fin? && Abs(tNext.v - tCurr) > tol
  }

  /** The value t_curr held when the estimate trace[k] was checked: -2 * tol first, then the
      previous estimate. */
  function PrevEstimate(trace: seq<XReal>, tol: real, k: nat): real
    requires k < |trace| && forall a :: 0 <= a < k ==> trace[a].Fin?
  {
    if k == 0 then -2.0 * tol else trace[k - 1].v
  }

  /** trace is a run of Li's method from t0: each estimate but the last kept the loop going
      and the next one is its update. */
  predicate IsLiTrace(kind: Kind, vals: seq<real>, tol: real, log: real -> real, t0: real, trace: seq<XReal>) {
    |trace| > 0 && trace[0] == Fin(t0)
    && (forall k :: 0 <= k < |trace| - 1 ==> trace[k].Fin?)
    && forall k :: 0 <= k < |trace| - 1 ==>
         Continues(PrevEstimate(trace, tol, k), trace[k], tol)
         && LiUpdate(kind, vals, trace[k].v, log) == Ok(trace[k + 1])
  }

  /** A trace whose last estimate keeps the loop going grows by that estimate's update. */
  lemma TraceExtends(kind: Kind, vals: seq<real>, tol: real, log: real -> real, t0: real, trace: seq<XReal>, next: XReal)
    requires IsLiTrace(kind, vals, tol, log, t0, trace)
    requires Continues(PrevEstimate(trace, tol, |trace| - 1), trace[|trace| - 1], tol)
    requires LiUpdate(kind, vals, trace[|trace| - 1].v, log) == Ok(next)
    ensures IsLiTrace(kind, vals, tol, log, t0, trace + [next])
    ensures PrevEstimate(trace + [next], tol, |trace|) == trace[|trace| - 1].v
  {
    var t := trace + [next];
    forall k | 0 <= k < |t| - 1
      ensures t[k].Fin? && Continues(PrevEstimate(t, tol, k), t[k], tol)
      ensures LiUpdate(kind, vals, t[k].v, log) == Ok(t[k + 1])
    {
      assert t[k] == trace[k];
      if k > 0 { assert t[k - 1] == trace[k - 1]; }
    }
  }

  /** How the loop ended. */
  datatype Outcome = Converged(threshold: XReal) | Raised(error: Error) | OutOfFuel

  /** How a run with estimates trace (a Li trace) ends, after at most `fuel` updates. It
      converges when the last estimate moved by at most tol (or is NaN), and the threshold is
      that estimate plus the shift. It raises when the last estimate keeps the loop going but
      its update fails. It runs out of fuel when the loop would go on after `fuel` updates. */
  predicate LiRunEnds(kind: Kind, vals: seq<real>, shift: real, tol: real, log: real -> real,
                      fuel: nat, trace: seq<XReal>, outcome: Outcome)
    requires |trace| > 0 && forall k :: 0 <= k < |trace| - 1 ==> trace[k].Fin?
  {
    && |trace| <= fuel + 1
    && (outcome.Converged? ==>
          outcome.threshold == Shift(shift, trace[|trace| - 1])
          && !Continues(PrevEstimate(trace, tol, |trace| - 1), trace[|trace| - 1], tol))
    && (outcome.Raised? ==>
          |trace| <= fuel
          && Continues(PrevEstimate(trace, tol, |trace| - 1), trace[|trace| - 1], tol)
          && LiUpdate(kind, vals, trace[|trace| - 1].v, log) == Err(outcome.error))
    && (outcome.OutOfFuel? ==>
          |trace| == fuel + 1
          && Continues(PrevEstimate(trace, tol, |trace| - 1), trace[|trace| - 1], tol))
  }

  /** The loop of `threshold_li` from the estimate t0, for at most `fuel` updates. trace holds
      the estimates in shifted units, one per `iter_callback` call. */
  method LiLoop(kind: Kind, vals: seq<real>, shift: real, tol: real, t0: real, log: real -> real, fuel: nat)
    returns (outcome: Outcome, trace: seq<XReal>)
    ensures IsLiTrace(kind, vals, tol, log, t0, trace)
    ensures LiRunEnds(kind, vals, shift, tol, log, fuel, trace, outcome)
  {
    var tCurr := -2.0 * tol;
    var tNext := Fin(t0);
    trace := [tNext];
    var steps := 0;
    while Continues(tCurr, tNext, tol)
      invariant steps <= fuel && |trace| == steps + 1
      invariant IsLiTrace(kind, vals, tol, log, t0, trace)
      invariant tNext == trace[|trace| - 1]
      invariant tCurr == PrevEstimate(trace, tol, |trace| - 1)
      decreases fuel - steps
    {
      if steps == fuel {
        return OutOfFuel, trace;
      }
      var step := LiUpdate(kind, vals, tNext.v, log);
      if step.Err? {
        return Raised(step.error), trace;
      }
      TraceExtends(kind, vals, tol, log, t0, trace, step.value);
      tCurr := tNext.v;
      tNext := step.value;
      trace := trace + [tNext];
      steps := steps + 1;
    }
    outcome := Converged(Shift(shift, tNext));
  }

  /** `threshold_li(image, tolerance=..., initial_guess=...)`, with `iter_callback`'s arguments
      (the estimates in the image's units) as the second result. */
  method ThresholdLi(image: seq<XReal>, kind: Kind, tolerance: Option<real>, guess: Guess,
                     log: real -> real, fuel: nat)
    returns (outcome: Outcome, callbacks: seq<XReal>)
    ensures LiSetup(image, kind, tolerance, guess).Err? ==>
      outcome == Raised(LiSetup(image, kind, tolerance, guess).error) && callbacks == []
    ensures LiSetup(image, kind, tolerance, guess).Ok? && LiSetup(image, kind, tolerance, guess).value.Early? ==>
      outcome == Converged(LiSetup(image, kind, tolerance, guess).value.value) && callbacks == []
    ensures LiSetup(image, kind, tolerance, guess).Ok? && LiSetup(image, kind, tolerance, guess).value.Iterate? ==>
      var st := LiSetup(image, kind, tolerance, guess).value;
      exists trace :: IsLiTrace(kind, st.vals, st.tol, log, st.t0, trace)
        && LiRunEnds(kind, st.vals, st.shift, st.tol, log, fuel, trace, outcome)
        && |callbacks| == |trace|
        && (forall k :: 0 <= k < |trace| ==> callbacks[k] == Shift(st.shift, trace[k]))
        && (outcome.Converged? ==> outcome.threshold == callbacks[|callbacks| - 1])
  {
    var setup := LiSetup(image, kind, tolerance, guess);
    if setup.Err? {
      return Raised(setup.error), [];
    }
    var st := setup.value;
    if st.Early? {
      return Converged(st.value), [];
    }
    var trace;
    outcome, trace := LiLoop(kind, st.vals, st.shift, st.tol, st.t0, log, fuel);
    callbacks := seq(|trace|, k requires 0 <= k < |trace| => Shift(st.shift, trace[k]));
    assert IsLiTrace(kind, st.vals, st.tol, log, st.t0, trace)
      && LiRunEnds(kind, st.vals, st.shift, st.tol, log, fuel, trace, outcome);
  }

  /** A floating-point image whose non-NaN values differ but whose finite values are all equal
      (one finite value beside infinities) gets no default tolerance: the smallest gap is a
      minimum over an empty `diff`, which raises ValueError before the guess is looked at. */
  lemma SingleFiniteValueRaises(image: seq<XReal>, tolerance: Option<real>, guess: Guess)
    requires |RemoveNaN(image)| > 0 && !AllSame(RemoveNaN(image))
    requires |FiniteValues(RemoveNaN(image))| > 0 && AllEqual(FiniteValues(RemoveNaN(image)))
    requires tolerance.None? || tolerance == Some(0.0)
    ensures LiSetup(image, FloatKind, tolerance, guess).Err?
    ensures LiSetup(image, FloatKind, tolerance, guess).error.ValueError?
  {
    StartIterationRaises(FiniteValues(RemoveNaN(image)), tolerance, guess);
  }

  /** Shifting keeps a constant sequence constant. */
  lemma AllEqualShifted(s: seq<real>, m: real)
    requires AllEqual(s)
    ensures AllEqual(Shifted(s, m))
  {
    var t := Shifted(s, m);
    forall a, b | 0 <= a < |t| && 0 <= b < |t|
      ensures t[a] == t[b]
    {
      assert s[a] == s[b];
    }
  }

  /** Constant finite values of a floating-point image leave no gap to take the default
      tolerance from. */
  lemma StartIterationRaises(fin: seq<real>, tolerance: Option<real>, guess: Guess)
    requires |fin| > 0 && AllEqual(fin)
    requires tolerance.None? || tolerance == Some(0.0)
    ensures StartIteration(fin, FloatKind, tolerance, guess).Err?
    ensures StartIteration(fin, FloatKind, tolerance, guess).error.ValueError?
  {
    var vals := Shifted(fin, Min(fin));
    AllEqualShifted(fin, Min(fin));
    MinGapNone(vals);
    assert MinGap(vals).None?;
    assert Tolerance(FloatKind, tolerance, vals).Err?;
  }
}

=== FILE: local_stats.dfy ===
/** Local mean and standard deviation over odd windows (`_mean_std`) and the Niblack and Sauvola
    thresholds computed from them, for images of one and two axes. The window sums come from the
    integral-image construction of Integral1D / Integral2D; the contracts state the results in
    terms of the brute-force reflect-extended window around every pixel. */
module LocalStats {
  import opened Errors
  import opened Images
  import opened ExtReal
  import opened Sums
  import opened ReflectPad
  import opened Integral1D
  import opened Integral2D

  /** A window size as the caller gives it: one int for every axis, or one per axis. */
  datatype WindowSize = Scalar(w: int) | PerAxis(ws: seq<int>)

  /** The sizes `_validate_window_size` accepts: odd and positive. */
  predicate ValidSize(w: int) {
    w > 0 && w % 2 == 1
  }

  predicate OddSizes(ws: seq<nat>) {
    forall d :: 0 <= d < |ws| ==> ws[d] % 2 == 1
  }

  /** The per-axis sizes: a scalar is repeated once per axis, `(w,) * image.ndim`. */
  function Broadcast(ndim: nat, size: WindowSize): seq<int> {
    if size.Scalar? then seq(ndim, _ => size.w) else size.ws
  }

  predicate AllValid(ws: seq<int>) {
    forall d :: 0 <= d < |ws| ==> ValidSize(ws[d])
  }

  /** The validated window sizes, or ValueError for an even or non-positive size or a sequence
      whose length is not the number of axes. */
  function WindowSizes(ndim: nat, size: WindowSize): (r: Result<seq<nat>>)
    ensures r.Ok? <==> |Broadcast(ndim, size)| == ndim && AllValid(Broadcast(ndim, size))
    ensures r.Err? ==> r.error.ValueError?
    ensures r.Ok? ==> r.value == Broadcast(ndim, size) && OddSizes(r.value)
  {
    var ws := Broadcast(ndim, size);
    if |ws| != ndim then Err(ValueError("window size needs one entry per axis"))
    else if !AllValid(ws) then Err(ValueError("window size for all axes must be odd and >= 1"))
    else
      var r := seq(ndim, d requires 0 <= d < ndim => ws[d] as nat);
      assert r == ws;
      Ok(r)
  }

  /** The number of pixels in a window, `prod(w)`. */
  function WindowVolume(ws: seq<nat>): nat
    decreases |ws|
  {
    if |ws| == 0 then 1 else ws[0] * WindowVolume(ws[1..])
  }

  /** The reflect-extended window of sizes ws centred on pixel (i, j), flattened row-major. */
  function Neighbourhood(img: Image<real>, ws: seq<nat>, i: nat, j: nat): (r: seq<real>)
    requires WellFormed(img) && !IsEmpty(img) && |ws| == Ndim(img) && OddSizes(ws)
    ensures |r| == WindowVolume(ws) && |r| > 0
  {
    if img.Line? then
      assert ws[0] > 0 && ws[1..] == [];
      Window1(img.v, i, ws[0])
    else
      var win := Window2(img.rows, img.cols, i, j, ws[0], ws[1]);
      FlattenLength(win, ws[1]);
      assert ws[1..][1..] == [];
      assert WindowVolume(ws[1..]) == ws[1] * WindowVolume(ws[1..][1..]) == ws[1];
      assert ws[0] * ws[1] == PlaneWindowSize(ws[0], ws[1]).Floor;
      Flatten(win)
  }

  /** The exact mean of the window of sizes ws around pixel (i, j). */
  function LocalMean(img: Image<real>, ws: seq<nat>, i: nat, j: nat): real
    requires WellFormed(img) && !IsEmpty(img) && |ws| == Ndim(img) && OddSizes(ws)
  {
    Mean(Neighbourhood(img, ws, i, j))
  }

  /** sqrt of the exact population variance of the window of sizes ws around pixel (i, j). */
  function LocalStd(img: Image<real>, ws: seq<nat>, sqrt: real -> real, i: nat, j: nat): real
    requires WellFormed(img) && !IsEmpty(img) && |ws| == Ndim(img) && OddSizes(ws)
  {
    sqrt(Variance(Neighbourhood(img, ws, i, j)))
  }

  /** The local mean from a window sum, `m /= total_window_size`. */
  function MeanFrom(total: real, n: real): real
    requires n > 0.0
  {
    total / n
  }

  /** The variance estimate from a window sum and a window sum of squares: `g2 - m * m` with
      g2 the mean of squares and m the mean. */
  function VarianceFrom(total: real, totalSq: real, n: real): real
    requires n > 0.0
  {
    totalSq / n - MeanFrom(total, n) * MeanFrom(total, n)
  }

  /** The local std, `sqrt(clip(g2 - m * m, 0, None))`. */
  function StdFrom(total: real, totalSq: real, n: real, sqrt: real -> real): real
    requires n > 0.0
  {
    sqrt(ClipLow(VarianceFrom(total, totalSq, n)))
  }

  /** From a window's sum and sum of squares: the sum over the window size is its mean, and
      the clipped difference of mean square and squared mean is its exact variance, so the clip
      never fires in exact arithmetic. */
  lemma PixelStats(win: seq<real>, total: real, totalSq: real, n: real, sqrt: real -> real)
    requires |win| > 0 && total == Sum(win) && totalSq == Sum(Squares(win)) && n == |win| as real
    ensures MeanFrom(total, n) == Mean(win)
    ensures StdFrom(total, totalSq, n, sqrt) == sqrt(Variance(win))
  {
    assert MeanFrom(total, n) == Mean(win);
    assert Mean(Squares(win)) == totalSq / n;
    assert VarianceFrom(total, totalSq, n) == Variance(win);
    VarianceNonNeg(win);
    assert ClipLow(VarianceFrom(total, totalSq, n)) == Variance(win);
  }

  /** At pixel i of a line, the integral-image window sums give the local mean and std. */
  lemma LineStats(v: seq<real>, w: nat, sqrt: real -> real, i: nat)
    requires |v| > 0 && w % 2 == 1 && i < |v|
    ensures MeanFrom(LocalSums1(v, w)[i], w as real) == LocalMean(Line(v), [w], i, 0)
    ensures StdFrom(LocalSums1(v, w)[i], LocalSquareSums1(v, w)[i], w as real, sqrt)
              == LocalStd(Line(v), [w], sqrt, i, 0)
  {
    var win := Window1(v, i, w);
    assert Neighbourhood(Line(v), [w], i, 0) == win;
    PixelStats(win, LocalSums1(v, w)[i], LocalSquareSums1(v, w)[i], w as real, sqrt);
  }

  lemma LineStatsAll(v: seq<real>, w: nat, sqrt: real -> real)
    requires |v| > 0 && w % 2 == 1
    ensures forall i :: 0 <= i < |v| ==>
      MeanFrom(LocalSums1(v, w)[i], w as real) == LocalMean(Line(v), [w], i, 0)
      && StdFrom(LocalSums1(v, w)[i], LocalSquareSums1(v, w)[i], w as real, sqrt)
           == LocalStd(Line(v), [w], sqrt, i, 0)
  {
    forall i | 0 <= i < |v|
      ensures MeanFrom(LocalSums1(v, w)[i], w as real) == LocalMean(Line(v), [w], i, 0)
      ensures StdFrom(LocalSums1(v, w)[i], LocalSquareSums1(v, w)[i], w as real, sqrt)
                == LocalStd(Line(v), [w], sqrt, i, 0)
    {
      LineStats(v, w, sqrt, i);
    }
  }

  /** `_mean_std` on a line: window sums and window sums of squares from the integral images,
      divided by the window size; std is the square root of the clipped variance. */
  function MeanStd1(v: seq<real>, w: nat, sqrt: real -> real): (r: (seq<real>, seq<real>))
    requires |v| > 0 && w % 2 == 1
    ensures |r.0| == |v| && |r.1| == |v|
    ensures forall i :: 0 <= i < |v| ==>
      r.0[i] == LocalMean(Line(v), [w], i, 0) && r.1[i] == LocalStd(Line(v), [w], sqrt, i, 0)
  {
    var sums := LocalSums1(v, w);
    var sq := LocalSquareSums1(v, w);
    var n := w as real;
    var m := seq(|v|, i requires 0 <= i < |v| => MeanFrom(sums[i], n));
    var s := seq(|v|, i requires 0 <= i < |v| => StdFrom(sums[i], sq[i], n, sqrt));
    LineStatsAll(v, w, sqrt);
    (m, s)
  }

  /** The number of pixels in a w0 x w1 window, as the divisor of the window sums. */
  function PlaneWindowSize(w0: nat, w1: nat): (n: real)
    requires w0 % 2 == 1 && w1 % 2 == 1
    ensures n == (w0 * w1) as real && n > 0.0
  {
    assert w0 * w1 >= w1 by { assert w0 >= 1; }
    (w0 * w1) as real
  }

  /** At pixel (i, j) of a plane, the integral-image window sums give the local mean and std. */
  lemma PlaneStats(g: seq<seq<real>>, cols: nat, w0: nat, w1: nat, sqrt: real -> real, i: nat, j: nat)
    requires |g| > 0 && cols > 0 && IsGrid(g, |g|, cols) && w0 % 2 == 1 && w1 % 2 == 1
    requires i < |g| && j < cols
    ensures MeanFrom(LocalSums2(g, cols, w0, w1)[i][j], PlaneWindowSize(w0, w1))
              == LocalMean(Plane(g, cols), [w0, w1], i, j)
    ensures StdFrom(LocalSums2(g, cols, w0, w1)[i][j], LocalSquareSums2(g, cols, w0, w1)[i][j],
                    PlaneWindowSize(w0, w1), sqrt)
              == LocalStd(Plane(g, cols), [w0, w1], sqrt, i, j)
  {
    var grid := Window2(g, cols, i, j, w0, w1);
    var win := Flatten(grid);
    assert Neighbourhood(Plane(g, cols), [w0, w1], i, j) == win;
    FlattenLength(grid, w1);
    PixelStats(win, LocalSums2(g, cols, w0, w1)[i][j], LocalSquareSums2(g, cols, w0, w1)[i][j],
               PlaneWindowSize(w0, w1), sqrt);
  }

  lemma PlaneStatsAll(g: seq<seq<real>>, cols: nat, w0: nat, w1: nat, sqrt: real -> real)
    requires |g| > 0 && cols > 0 && IsGrid(g, |g|, cols) && w0 % 2 == 1 && w1 % 2 == 1
    ensures forall i, j :: 0 <= i < |g| && 0 <= j < cols ==>
      MeanFrom(LocalSums2(g, cols, w0, w1)[i][j], PlaneWindowSize(w0, w1))
        == LocalMean(Plane(g, cols), [w0, w1], i, j)
      && StdFrom(LocalSums2(g, cols, w0, w1)[i][j], LocalSquareSums2(g, cols, w0, w1)[i][j],
                 PlaneWindowSize(w0, w1), sqrt)
           == LocalStd(Plane(g, cols), [w0, w1], sqrt, i, j)
  {
    forall i, j | 0 <= i < |g| && 0 <= j < cols
      ensures MeanFrom(LocalSums2(g, cols, w0, w1)[i][j], PlaneWindowSize(w0, w1))
                == LocalMean(Plane(g, cols), [w0, w1], i, j)
      ensures StdFrom(LocalSums2(g, cols, w0, w1)[i][j], LocalSquareSums2(g, cols, w0, w1)[i][j],
                      PlaneWindowSize(w0, w1), sqrt)
                == LocalStd(Plane(g, cols), [w0, w1], sqrt, i, j)
    {
      PlaneStats(g, cols, w0, w1, sqrt, i, j);
    }
  }

  /** `_mean_std` on a plane. */
  function MeanStd2(g: seq<seq<real>>, cols: nat, w0: nat, w1: nat, sqrt: real -> real)
    : (r: (seq<seq<real>>, seq<seq<real>>))
    requires |g| > 0 && cols > 0 && IsGrid(g, |g|, cols) && w0 % 2 == 1 && w1 % 2 == 1
    ensures IsGrid(r.0, |g|, cols) && IsGrid(r.1, |g|, cols)
    ensures forall i, j :: 0 <= i < |g| && 0 <= j < cols ==>
      r.0[i][j] == LocalMean(Plane(g, cols), [w0, w1], i, j)
      && r.1[i][j] == LocalStd(Plane(g, cols), [w0, w1], sqrt, i, j)
  {
    var sums := LocalSums2(g, cols, w0, w1);
    var sq := LocalSquareSums2(g, cols, w0, w1);
    var n := PlaneWindowSize(w0, w1);
    var m := seq(|g|, i requires 0 <= i < |g| =>
               seq(cols, j requires 0 <= j < cols => MeanFrom(sums[i][j], n)));
    var s := seq(|g|, i requires 0 <= i < |g| =>
               seq(cols, j requires 0 <= j < cols => StdFrom(sums[i][j], sq[i][j], n, sqrt)));
    PlaneStatsAll(g, cols, w0, w1, sqrt);
    (m, s)
  }

  /** The local mean and standard deviation images. */
  datatype Stats = Stats(mean: Image<real>, std: Image<real>)

  /** st holds, at every pixel of img, the exact mean of the window of sizes ws around it and
      sqrt of that window's exact (population) variance. */
  ghost predicate IsLocalStats(img: Image<real>, ws: seq<nat>, sqrt: real -> real, st: Stats)
    requires WellFormed(img) && !IsEmpty(img) && |ws| == Ndim(img) && OddSizes(ws)
  {
    WellFormed(st.mean) && WellFormed(st.std) && SameShape(img, st.mean) && SameShape(img, st.std)
    && forall i, j :: InBounds(img, i, j) ==>
         At(st.mean, i, j) == LocalMean(img, ws, i, j) && At(st.std, i, j) == LocalStd(img, ws, sqrt, i, j)
  }

  /** `_mean_std(image, w)`: ValueError for a bad window size or an empty image (reflect padding
      cannot extend an empty axis); otherwise the local statistics. */
  function MeanStd(img: Image<real>, size: WindowSize, sqrt: real -> real): (r: Result<Stats>)
    requires WellFormed(img)
    ensures r.Ok? <==> WindowSizes(Ndim(img), size).Ok? && !IsEmpty(img)
    ensures r.Err? ==> r.error.ValueError?
    ensures r.Ok? ==> IsLocalStats(img, WindowSizes(Ndim(img), size).value, sqrt, r.value)
  {
    var ws :- WindowSizes(Ndim(img), size);
    if IsEmpty(img) then Err(ValueError("cannot reflect-pad an empty axis"))
    else if img.Line? then
      var ms := MeanStd1(img.v, ws[0], sqrt);
      assert [ws[0]] == ws;
      Ok(Stats(Line(ms.0), Line(ms.1)))
    else
      var ms := MeanStd2(img.rows, img.cols, ws[0], ws[1], sqrt);
      assert [ws[0], ws[1]] == ws;
      Ok(Stats(Plane(ms.0, img.cols), Plane(ms.1, img.cols)))
  }

  /** With a square root that is non-negative on non-negative arguments, the local standard
      deviation is never negative. */
  lemma StdNonNegative(img: Image<real>, size: WindowSize, sqrt: real -> real, i: nat, j: nat)
    requires WellFormed(img) && WindowSizes(Ndim(img), size).Ok? && InBounds(img, i, j)
    requires forall x :: x >= 0.0 ==> sqrt(x) >= 0.0
    ensures InBounds(MeanStd(img, size, sqrt).value.std, i, j)
    ensures At(MeanStd(img, size, sqrt).value.std, i, j) >= 0.0
  {
    var ws := WindowSizes(Ndim(img), size).value;
    VarianceNonNeg(Neighbourhood(img, ws, i, j));
  }

  /** The Niblack formula at one pixel. */
  function NiblackPixel(m: real, s: real, k: real): real {
    m - k * s
  }

  /** `threshold_niblack`: m - k * s at every pixel. */
  function Niblack(img: Image<real>, size: WindowSize, k: real, sqrt: real -> real): (r: Result<Image<real>>)
    requires WellFormed(img)
    ensures r.Ok? <==> MeanStd(img, size, sqrt).Ok?
    ensures r.Err? ==> r == Err(MeanStd(img, size, sqrt).error)
    ensures r.Ok? ==> WellFormed(r.value) && SameShape(img, r.value)
    ensures r.Ok? ==> var ws := WindowSizes(Ndim(img), size).value;
      forall i, j :: InBounds(img, i, j) ==>
        At(r.value, i, j) == NiblackPixel(LocalMean(img, ws, i, j), LocalStd(img, ws, sqrt, i, j), k)
  {
    var st :- MeanStd(img, size, sqrt);
    Ok(Zip(st.mean, st.std, (m: real, s: real) => NiblackPixel(m, s, k)))
  }

  /** With k = 0 the Niblack threshold is the local mean image. */
  lemma NiblackZeroK(img: Image<real>, size: WindowSize, sqrt: real -> real)
    requires WellFormed(img) && MeanStd(img, size, sqrt).Ok?
    ensures Niblack(img, size, 0.0, sqrt) == Ok(MeanStd(img, size, sqrt).value.mean)
  {
    var mean := MeanStd(img, size, sqrt).value.mean;
    var t := Niblack(img, size, 0.0, sqrt).value;
    forall i, j | InBounds(t, i, j)
      ensures At(t, i, j) == At(mean, i, j)
    {
      assert InBounds(img, i, j);
    }
    ImageEquality(t, mean);
  }

  /** The element types `dtype_limits` knows about. */
  datatype DType =
    | Bool | UInt8 | UInt16 | UInt32 | UInt64 | Int8 | Int16 | Int32 | Int64
    | Float16 | Float32 | Float64

  /** `dtype_limits(image, clip_negative=False)`: the full integer range, [-1, 1] for floats and
      [False, True] for booleans. */
  function DTypeLimits(t: DType): (r: (real, real))
    ensures r.0 < r.1
  {
    match t
    case Bool => (0.0, 1.0)
    case UInt8 => (0.0, 255.0)
    case UInt16 => (0.0, 65535.0)
    case UInt32 => (0.0, 4294967295.0)
    case UInt64 => (0.0, 18446744073709551615.0)
    case Int8 => (-128.0, 127.0)
    case Int16 => (-32768.0, 32767.0)
    case Int32 => (-2147483648.0, 2147483647.0)
    case Int64 => (-9223372036854775808.0, 9223372036854775807.0)
    case Float16 => (-1.0, 1.0)
    case Float32 => (-1.0, 1.0)
    case Float64 => (-1.0, 1.0)
  }

  /** Sauvola's dynamic range R: the caller's r, or half the dtype's range. */
  function SauvolaRange(r: Option<real>, t: DType): (range: real)
    ensures r.None? ==> range > 0.0
  {
    if r.Some? then r.value
    else
      var lim := DTypeLimits(t);
      0.5 * (lim.1 - lim.0)
  }

  /** Sauvola's threshold in exact arithmetic, m * (1 + k * ((s / R) - 1)). */
  function SauvolaFormula(m: real, s: real, k: real, range: real): real
    requires range != 0.0
  {
    m * (1.0 + k * (s / range - 1.0))
  }

  /** m * (1 + k * ((s / range) - 1)) in IEEE arithmetic: finite whenever range != 0, and
      +-inf or NaN (from s / 0) otherwise. */
  function SauvolaPixel(m: real, s: real, k: real, range: real): (r: XReal)
    ensures range != 0.0 ==> r == Fin(SauvolaFormula(m, s, k, range))
    ensures range == 0.0 && s == 0.0 ==> r == NaN
  {
    Scale(m, Shift(1.0, Scale(k, Shift(-1.0, Div(s, range)))))
  }

  /** `threshold_sauvola`: the Sauvola formula at every pixel. */
  function Sauvola(img: Image<real>, size: WindowSize, k: real, r: Option<real>, t: DType,
                   sqrt: real -> real): (res: Result<Image<XReal>>)
    requires WellFormed(img)
    ensures res.Ok? <==> MeanStd(img, size, sqrt).Ok?
    ensures res.Err? ==> res == Err(MeanStd(img, size, sqrt).error)
    ensures res.Ok? ==> WellFormed(res.value) && SameShape(img, res.value)
    ensures res.Ok? ==> var ws := WindowSizes(Ndim(img), size).value;
      forall i, j :: InBounds(img, i, j) ==>
        At(res.value, i, j)
          == SauvolaPixel(LocalMean(img, ws, i, j), LocalStd(img, ws, sqrt, i, j), k, SauvolaRange(r, t))
  {
    var range := SauvolaRange(r, t);
    var st :- MeanStd(img, size, sqrt);
    Ok(Zip(st.mean, st.std, (m: real, s: real) => SauvolaPixel(m, s, k, range)))
  }

  /** Without an explicit r every Sauvola threshold is finite and follows the real formula. */
  lemma SauvolaDefaultRangeFinite(img: Image<real>, size: WindowSize, k: real, t: DType,
                                  sqrt: real -> real, i: nat, j: nat)
    requires WellFormed(img) && WindowSizes(Ndim(img), size).Ok? && InBounds(img, i, j)
    ensures InBounds(Sauvola(img, size, k, None, t, sqrt).value, i, j)
    ensures var st := MeanStd(img, size, sqrt).value;
      At(Sauvola(img, size, k, None, t, sqrt).value, i, j)
        == Fin(SauvolaFormula(At(st.mean, i, j), At(st.std, i, j), k, SauvolaRange(None, t)))
  {
    var st := MeanStd(img, size, sqrt).value;
    var range := SauvolaRange(None, t);
    var res := Sauvola(img, size, k, None, t, sqrt).value;
    assert res == Zip(st.mean, st.std, (m: real, s: real) => SauvolaPixel(m, s, k, range));
    assert InBounds(st.mean, i, j);
    assert At(res, i, j) == SauvolaPixel(At(st.mean, i, j), At(st.std, i, j), k, range);
    assert range > 0.0;
  }

  /** With k = 0, or where the local std equals R, the Sauvola threshold is the local mean. */
  lemma SauvolaIsMean(m: real, s: real, k: real, range: real)
    requires range != 0.0 && (k == 0.0 || s == range)
    ensures SauvolaPixel(m, s, k, range) == Fin(m)
  {
    if k != 0.0 {
      assert s / range == 1.0;
    }
  }
}

=== FILE: local_threshold.dfy ===
/** `threshold_local`: block-size validation, the choice of neighbourhood filter and the offset
    subtracted from the filtered image. The filters themselves (Gaussian, uniform, median) are
    parameters: the model fixes which filter is asked for and with which arguments. */
module LocalThreshold {
  import opened Errors
  import opened Images
  import opened LocalStats

  /** The per-axis block sizes: a scalar is repeated once per axis; a sequence whose length is
      not the number of axes, or that holds an even size, is a ValueError. Unlike the window
      sizes of the local statistics, negative odd sizes are let through. */
  function BlockSizes(ndim: nat, size: WindowSize): (r: Result<seq<int>>)
    ensures r.Ok? <==> |Broadcast(ndim, size)| == ndim
                        && forall d :: 0 <= d < ndim ==> Broadcast(ndim, size)[d] % 2 != 0
    ensures r.Err? ==> r.error.ValueError?
    ensures r.Ok? ==> r.value == Broadcast(ndim, size)
  {
    var bs := Broadcast(ndim, size);
    if |bs| != ndim then Err(ValueError("len(block_size) must equal image.ndim."))
    else if exists d :: 0 <= d < |bs| && bs[d] % 2 == 0 then
      Err(ValueError("block_size must be odd!"))
    else Ok(bs)
  }

  /** Every window size the local statistics accept is a block size `threshold_local` accepts,
      with the same per-axis values. */
  lemma WindowSizesAreBlockSizes(ndim: nat, size: WindowSize)
    requires WindowSizes(ndim, size).Ok?
    ensures BlockSizes(ndim, size).Ok?
    ensures BlockSizes(ndim, size).value == WindowSizes(ndim, size).value
  {
    var bs := Broadcast(ndim, size);
    forall d | 0 <= d < ndim
      ensures bs[d] % 2 != 0
    {
      assert ValidSize(bs[d]);
    }
  }

  /** The converse fails: a negative odd block size passes `threshold_local`'s check but not
      the local statistics' one. */
  lemma NegativeBlockSizeAccepted()
    ensures BlockSizes(1, Scalar(-3)).Ok? && WindowSizes(1, Scalar(-3)).Err?
  {
    assert Broadcast(1, Scalar(-3))[0] == -3;
    assert !ValidSize(-3);
  }

  /** The Gaussian widths: one per axis, or one for all axes. */
  datatype Sigma = SigmaAll(s: real) | SigmaPerAxis(ss: seq<real>)

  /** The neighbourhood filter `threshold_local` runs, with its arguments. */
  datatype Filter =
    | GaussianFilter(sigma: Sigma)
    | UniformFilter(size: seq<int>)
    | MedianFilter(size: seq<int>)

  /** The default Gaussian width for block size b, (b - 1) / 6. */
  function DefaultSigma(b: int): real {
    (b - 1) as real / 6.0
  }

  /** Three default widths make up the block's radius: the 3-sigma radius of the default
      Gaussian is exactly b // 2, so the block reaches three widths either side of its centre.
      How much of the Gaussian's mass lies within that radius is not modelled. */
  lemma DefaultSigmaCoversBlock(b: int)
    requires b % 2 == 1
    ensures 3.0 * DefaultSigma(b) == (b / 2) as real
  {
    assert b == 2 * (b / 2) + 1;
  }

  /** The filter for the method called `name` and `param`, after block-size validation:
      'generic' is a NotImplementedError, 'gaussian' uses `param` as sigma or the default
      (b - 1) / 6 per axis, 'mean' and 'median' use the block sizes, and any other name is a
      ValueError. */
  function LocalFilter(ndim: nat, size: WindowSize, name: string, param: Option<Sigma>)
    : (r: Result<Filter>)
    ensures BlockSizes(ndim, size).Err? ==> r == Err(BlockSizes(ndim, size).error)
    ensures BlockSizes(ndim, size).Ok? ==>
      (r.Ok? <==> name in ["gaussian", "mean", "median"])
      && (name == "generic" ==> r.Err? && r.error.NotImplementedError?)
      && (name !in ["generic", "gaussian", "mean", "median"] ==> r.Err? && r.error.ValueError?)
    ensures r.Ok? && name == "gaussian" && param.Some? ==> r.value == GaussianFilter(param.value)
    ensures r.Ok? && name == "gaussian" && param.None? ==>
      r.value.GaussianFilter? && r.value.sigma.SigmaPerAxis?
      && |r.value.sigma.ss| == ndim
      && forall d :: 0 <= d < ndim ==> r.value.sigma.ss[d] == DefaultSigma(Broadcast(ndim, size)[d])
    ensures r.Ok? && name == "mean" ==> r.value == UniformFilter(Broadcast(ndim, size))
    ensures r.Ok? && name == "median" ==> r.value == MedianFilter(Broadcast(ndim, size))
  {
    var bs :- BlockSizes(ndim, size);
    if name == "generic" then Err(NotImplementedError("TODO: implement generic_filter"))
    else if name == "gaussian" then
      if param.None? then Ok(GaussianFilter(SigmaPerAxis(seq(|bs|, d requires 0 <= d < |bs| => DefaultSigma(bs[d])))))
      else Ok(GaussianFilter(param.value))
    else if name == "mean" then Ok(UniformFilter(bs))
    else if name == "median" then Ok(MedianFilter(bs))
    else Err(ValueError("Invalid method specified."))
  }

  /** `threshold_local(image, block_size, name, offset, param=param)`: the chosen filter's
      output at every pixel, minus offset. `filtered(f, i, j)` is filter f's value at pixel
      (i, j) of the image. */
  function ThresholdLocal(img: Image<real>, size: WindowSize, name: string, offset: real,
                          param: Option<Sigma>, filtered: (Filter, nat, nat) -> real)
    : (r: Result<Image<real>>)
    requires WellFormed(img)
    ensures r.Ok? <==> LocalFilter(Ndim(img), size, name, param).Ok?
    ensures r.Err? ==> r.error == LocalFilter(Ndim(img), size, name, param).error
    ensures r.Ok? ==> WellFormed(r.value) && SameShape(img, r.value)
    ensures r.Ok? ==> forall i, j :: InBounds(img, i, j) ==>
      At(r.value, i, j) + offset == filtered(LocalFilter(Ndim(img), size, name, param).value, i, j)
  {
    var f :- LocalFilter(Ndim(img), size, name, param);
    Ok(Tabulate(img, (i, j) => filtered(f, i, j) - offset))
  }

  /** With zero offset the threshold image is the filtered image itself; raising the offset
      lowers every threshold by the same amount. */
  lemma OffsetShiftsThreshold(img: Image<real>, size: WindowSize, name: string, offset: real,
                              param: Option<Sigma>, filtered: (Filter, nat, nat) -> real, i: nat, j: nat)
    requires WellFormed(img) && InBounds(img, i, j)
    requires ThresholdLocal(img, size, name, offset, param, filtered).Ok?
    ensures ThresholdLocal(img, size, name, 0.0, param, filtered).Ok?
    ensures At(ThresholdLocal(img, size, name, offset, param, filtered).value, i, j)
         == At(ThresholdLocal(img, size, name, 0.0, param, filtered).value, i, j) - offset
  {
    var f := LocalFilter(Ndim(img), size, name, param).value;
    assert At(ThresholdLocal(img, size, name, 0.0, param, filtered).value, i, j) == filtered(f, i, j);
  }
}

=== FILE: monomials.dfy ===
/** The per-point factor of a moment: the product over axes of the coordinate offsets raised
    to the multi-index's exponents, `prod_d (x_d - c_d) ** p_d`. */
module Monomials {

  /** x raised to a whole power; `x ** 0` is 1 for every x. */
  function Pow(x: real, n: nat): real
    decreases n
  {
    if n == 0 then 1.0 else Pow(x, n - 1) * x
  }

  /** An even power is non-negative. */
  lemma PowTwo(x: real)
    ensures Pow(x, 2) == x * x && Pow(x, 2) >= 0.0
  {
    assert Pow(x, 1) == x;
  }

  /** `prod_d xs[d] ** p[d]`. */
  function Monomial(xs: seq<real>, p: seq<nat>): real
    requires |xs| == |p|
    decreases |p|
  {
    if |p| == 0 then 1.0
    else Monomial(xs[..|p| - 1], p[..|p| - 1]) * Pow(xs[|p| - 1], p[|p| - 1])
  }

  /** The offsets `x - c` of a point from a centre. */
  function Deltas(x: seq<real>, c: seq<real>): (r: seq<real>)
    requires |x| == |c|
    ensures |r| == |x| && forall d :: 0 <= d < |x| ==> r[d] == x[d] - c[d]
  {
    seq(|x|, d requires 0 <= d < |x| => x[d] - c[d])
  }

  /** The exponent vector that is zero everywhere gives the empty product 1. */
  lemma {:induction false} MonomialOfZero(xs: seq<real>, p: seq<nat>)
    requires |xs| == |p| && forall d :: 0 <= d < |p| ==> p[d] == 0
    ensures Monomial(xs, p) == 1.0
    decreases |p|
  {
    if |p| > 0 {
      MonomialOfZero(xs[..|p| - 1], p[..|p| - 1]);
    }
  }

  /** An exponent vector that is zero off axis a picks out the power of that axis alone. */
  lemma {:induction false} MonomialOfOneAxis(xs: seq<real>, p: seq<nat>, a: nat)
    requires |xs| == |p| && a < |p|
    requires forall d :: 0 <= d < |p| && d != a ==> p[d] == 0
    ensures Monomial(xs, p) == Pow(xs[a], p[a])
    decreases |p|
  {
    var n := |p| - 1;
    if a == n {
      MonomialOfZero(xs[..n], p[..n]);
    } else {
      MonomialOfOneAxis(xs[..n], p[..n], a);
    }
  }

  /** Two exponent vectors with a 1 on axes a and b (a != b) give the product of the two
      offsets. */
  lemma {:induction false} MonomialOfPair(xs: seq<real>, p: seq<nat>, a: nat, b: nat)
    requires |xs| == |p| && a < b < |p|
    requires p[a] == 1 && p[b] == 1
    requires forall d :: 0 <= d < |p| && d != a && d != b ==> p[d] == 0
    ensures Monomial(xs, p) == xs[a] * xs[b]
    decreases |p|
  {
    var n := |p| - 1;
    if b == n {
      MonomialOfOneAxis(xs[..n], p[..n], a);
      assert Pow(xs[n], 1) == xs[n];
      assert Pow(xs[a], 1) == xs[a];
    } else {
      MonomialOfPair(xs[..n], p[..n], a, b);
    }
  }
}

=== FILE: normalized_moments.dfy ===
/** `moments_normalized(mu, order)`: central moments made scale invariant by a power of the
    zeroth moment, `nu[p] = mu[p] / mu0 ** (sum(p) / ndim + 1)` for total order at least 2,
    NaN for the lower orders and 0 for exponents beyond the requested order. */
module NormalizedMoments {
  import opened Errors
  import opened ExtReal
  import opened Grid

  /** Some axis of mu has at most `order` entries (`any(s <= order for s in mu.shape)`). */
  predicate TooSmall(shape: seq<nat>, order: int) {
    exists d :: 0 <= d < |shape| && shape[d] <= order
  }

  /** Some axis of mu is empty, so `mu.ravel()[0]` does not exist. */
  predicate HasEmptyAxis(shape: seq<nat>) {
    exists d :: 0 <= d < |shape| && shape[d] == 0
  }

  /** p is one of the exponent tuples `itertools.product(range(order + 1), repeat=ndim)`
      visits. */
  predicate InRange(ndim: nat, order: int, p: seq<nat>) {
    |p| == ndim && forall d :: 0 <= d < ndim ==> p[d] <= order
  }

  /** The exponent `sum(p) / ndim + 1` of mu0 for the entry p. */
  function Exponent(p: seq<nat>): real
    requires |p| > 0
  {
    Total(p) as real / |p| as real + 1.0
  }

  /** Entry p of nu; `pow(x, e)` is the floating-point power `x ** e`. */
  function Entry(mu: NdArray<real>, order: int, pow: (real, real) -> XReal, p: seq<nat>): XReal {
    if !InRange(|mu.shape|, order, p) then Fin(0.0)
    else if Total(p) < 2 then NaN
    else
      TotalZero(p);
      DivBy(mu.at(p), pow(mu.at(Zeros(|p|)), Exponent(p)))
  }

  /** `moments_normalized(mu, order)`: a ValueError when an axis has at most `order` entries,
      an IndexError when (with a negative order) an axis is empty, else nu of mu's shape. */
  function Normalized(mu: NdArray<real>, order: int, pow: (real, real) -> XReal): (r: Result<NdArray<XReal>>)
    ensures r.Err? <==> TooSmall(mu.shape, order) || HasEmptyAxis(mu.shape)
    ensures TooSmall(mu.shape, order) ==> r.Err? && r.error.ValueError?
    ensures !TooSmall(mu.shape, order) && HasEmptyAxis(mu.shape) ==> r.Err? && r.error.IndexError?
    ensures r.Ok? ==> r.value.shape == mu.shape
  {
    if TooSmall(mu.shape, order) then Err(ValueError("Shape of image moments must be >= `order`"))
    else if HasEmptyAxis(mu.shape) then Err(IndexError("index 0 is out of bounds"))
    else Ok(NdArray(mu.shape, p => Entry(mu, order, pow, p)))
  }

  /** With a non-negative order, only the size check can fail: an array whose axes all have
      more than `order` entries is normalized. */
  lemma NormalizedAccepts(mu: NdArray<real>, order: int, pow: (real, real) -> XReal)
    requires order >= 0
    ensures Normalized(mu, order, pow).Ok? <==> forall d :: 0 <= d < |mu.shape| ==> mu.shape[d] > order
  {
  }

  /** Every exponent tuple of total order below 2 (the zeroth and first moments) is NaN. */
  lemma LowOrdersAreNaN(mu: NdArray<real>, order: int, pow: (real, real) -> XReal, p: seq<nat>)
    requires Normalized(mu, order, pow).Ok? && InRange(|mu.shape|, order, p) && Total(p) < 2
    ensures IsIndex(mu.shape, p) && Normalized(mu, order, pow).value.at(p) == NaN
  {
    InRangeIsIndex(mu.shape, order, p);
  }

  /** An exponent tuple with an entry beyond `order` keeps the 0 of `zeros_like(mu)`. */
  lemma BeyondOrderIsZero(mu: NdArray<real>, order: int, pow: (real, real) -> XReal, p: seq<nat>, d: nat)
    requires Normalized(mu, order, pow).Ok? && |p| == |mu.shape| && d < |p| && p[d] > order
    ensures Normalized(mu, order, pow).value.at(p) == Fin(0.0)
  {
  }

  /** Normalization inverts: where `mu0 ** e` is a finite non-zero y, nu[p] is finite and
      `nu[p] * y == mu[p]`. */
  lemma Denormalize(mu: NdArray<real>, order: int, pow: (real, real) -> XReal, p: seq<nat>, y: real)
    requires Normalized(mu, order, pow).Ok? && InRange(|mu.shape|, order, p) && Total(p) >= 2
    requires |p| > 0 && pow(mu.at(Zeros(|p|)), Exponent(p)) == Fin(y) && y != 0.0
    ensures Normalized(mu, order, pow).value.at(p).Fin?
    ensures Normalized(mu, order, pow).value.at(p).v * y == mu.at(p)
  {
    var q := Normalized(mu, order, pow).value.at(p);
    assert q == Div(mu.at(p), y);
  }

  /** A zero power of mu0 turns nu[p] into an infinity, or NaN for mu[p] == 0 (IEEE division by
      zero), instead of raising. */
  lemma ZeroPowerDivides(mu: NdArray<real>, order: int, pow: (real, real) -> XReal, p: seq<nat>)
    requires Normalized(mu, order, pow).Ok? && InRange(|mu.shape|, order, p) && Total(p) >= 2
    requires |p| > 0 && pow(mu.at(Zeros(|p|)), Exponent(p)) == Fin(0.0)
    ensures Normalized(mu, order, pow).value.at(p) == NaN <==> mu.at(p) == 0.0
    ensures !Normalized(mu, order, pow).value.at(p).Fin?
  {
  }

  /** When every power of mu0 is finite and non-zero, the NaN entries of an in-range tuple are
      exactly those of total order below 2. */
  lemma NaNMask(mu: NdArray<real>, order: int, pow: (real, real) -> XReal, p: seq<nat>)
    requires Normalized(mu, order, pow).Ok? && InRange(|mu.shape|, order, p)
    requires forall e :: pow(mu.at(Zeros(|p|)), e).Fin? && pow(mu.at(Zeros(|p|)), e).v != 0.0
    ensures Normalized(mu, order, pow).value.at(p) == NaN <==> Total(p) < 2
  {
    if Total(p) >= 2 {
      TotalZero(p);
      var y := pow(mu.at(Zeros(|p|)), Exponent(p)).v;
      Denormalize(mu, order, pow, p, y);
    }
  }

  /** The tuples the loop visits are valid indices of mu, since every axis is longer than
      `order`. */
  lemma InRangeIsIndex(shape: seq<nat>, order: int, p: seq<nat>)
    requires !TooSmall(shape, order) && InRange(|shape|, order, p)
    ensures IsIndex(shape, p)
  {
    forall d | 0 <= d < |p|
      ensures p[d] < shape[d]
    {
      assert !(shape[d] <= order);
    }
  }
}

=== FILE: reflect_pad.dfy ===
/** Reflect padding ('reflect' mode of `pad`): the image is mirrored about its first and last
    samples without repeating them, periodically with period 2(n - 1). `_mean_std` pads every axis
    by (w // 2 + 1, w // 2). */
module ReflectPad {

  /** The source index that padded position x (counted from the first original sample) reads. */
  function Reflect(x: int, n: nat): (r: nat)
    requires n > 0
    ensures r < n
  {
    if n == 1 then 0
    else
      var m := x % (2 * (n - 1));
      if m < n then m else 2 * (n - 1) - m
  }

  lemma MulAtLeast(k: int, p: int)
    requires k >= 1 && p > 0
    ensures k * p >= p
  {
    var j := k - 1;
    assert j * p >= 0;
    assert k * p == j * p + p;
  }

  /** Euclidean division is determined by any decomposition x == q * p + m with 0 <= m < p. */
  lemma DivModUnique(x: int, p: int, q: int, m: int)
    requires p > 0 && 0 <= m < p && x == q * p + m
    ensures x % p == m && x / p == q
  {
    var q', m' := x / p, x % p;
    assert x == q' * p + m';
    var k := q - q';
    assert k * p == q * p - q' * p;
    assert k * p == m' - m;
    if k > 0 {
      MulAtLeast(k, p);
    } else if k < 0 {
      MulAtLeast(-k, p);
    }
  }

  /** Inside the image, reflection is the identity. */
  lemma ReflectInside(x: int, n: nat)
    requires 0 <= x < n
    ensures Reflect(x, n) == x
  {
    if n > 1 {
      DivModUnique(x, 2 * (n - 1), 0, x);
    }
  }

  /** Mirroring about the first sample: position -x reads the same sample as x. */
  lemma ReflectAboutFirst(x: int, n: nat)
    requires n > 0
    ensures Reflect(-x, n) == Reflect(x, n)
  {
    if n > 1 {
      var p := 2 * (n - 1);
      var q, m := x / p, x % p;
      assert x == q * p + m;
      if m == 0 {
        assert -x == (-q) * p + 0;
        DivModUnique(-x, p, -q, 0);
      } else {
        assert -x == (-q - 1) * p + (p - m);
        DivModUnique(-x, p, -q - 1, p - m);
      }
    }
  }

  /** Mirroring about the last sample: position 2(n - 1) - x reads the same sample as x. */
  lemma ReflectAboutLast(x: int, n: nat)
    requires n > 0
    ensures Reflect(2 * (n - 1) - x, n) == Reflect(x, n)
  {
    if n > 1 {
      var p := 2 * (n - 1);
      var q, m := (-x) / p, (-x) % p;
      assert -x == q * p + m;
      assert p - x == (q + 1) * p + m;
      DivModUnique(p - x, p, q + 1, m);
      ReflectAboutFirst(x, n);
    }
  }

  /** The reflect-extended 1-D image: sample at any integer position. */
  function Ext1(img: seq<real>, x: int): real
    requires |img| > 0
  {
    img[Reflect(x, |img|)]
  }

  /** Left pad width w // 2 + 1, right pad width w // 2. */
  function LeftPad(w: nat): nat {
    w / 2 + 1
  }

  /** The padded 1-D image; for odd w its length is |img| + w. */
  function Pad1(img: seq<real>, w: nat): (r: seq<real>)
    requires |img| > 0
    ensures |r| == |img| + LeftPad(w) + w / 2
  {
    seq(|img| + LeftPad(w) + w / 2, j => Ext1(img, j - LeftPad(w)))
  }

  /** The original image sits in the padded one shifted by the left pad, and the padded
      image is the reflect extension everywhere. */
  lemma Pad1Centre(img: seq<real>, w: nat, k: nat)
    requires 0 < |img| && k < |img|
    ensures Pad1(img, w)[k + LeftPad(w)] == img[k]
  {
    ReflectInside(k, |img|);
    assert Ext1(img, k) == img[k];
    var j := k + LeftPad(w);
    assert Pad1(img, w)[j] == Ext1(img, j - LeftPad(w));
  }

  predicate IsGrid(g: seq<seq<real>>, rows: nat, cols: nat) {
    |g| == rows && forall a :: 0 <= a < rows ==> |g[a]| == cols
  }

  /** The reflect-extended 2-D image: both axes mirrored independently. */
  function Ext2(img: seq<seq<real>>, cols: nat, x: int, y: int): real
    requires |img| > 0 && cols > 0 && IsGrid(img, |img|, cols)
  {
    img[Reflect(x, |img|)][Reflect(y, cols)]
  }

  /** The padded 2-D image: (w0 // 2 + 1, w0 // 2) rows and (w1 // 2 + 1, w1 // 2) columns. */
  function Pad2(img: seq<seq<real>>, cols: nat, w0: nat, w1: nat): (r: seq<seq<real>>)
    requires |img| > 0 && cols > 0 && IsGrid(img, |img|, cols)
    ensures IsGrid(r, |img| + LeftPad(w0) + w0 / 2, cols + LeftPad(w1) + w1 / 2)
  {
    seq(|img| + LeftPad(w0) + w0 / 2, a =>
      seq(cols + LeftPad(w1) + w1 / 2, b => Ext2(img, cols, a - LeftPad(w0), b - LeftPad(w1))))
  }

  lemma Pad2Centre(img: seq<seq<real>>, cols: nat, w0: nat, w1: nat, a: nat, b: nat)
    requires |img| > 0 && cols > 0 && IsGrid(img, |img|, cols)
    requires a < |img| && b < cols
    ensures Pad2(img, cols, w0, w1)[a + LeftPad(w0)][b + LeftPad(w1)] == img[a][b]
  {
    ReflectInside(a, |img|);
    ReflectInside(b, cols);
    var i, j := a + LeftPad(w0), b + LeftPad(w1);
    assert Pad2(img, cols, w0, w1)[i][j] == Ext2(img, cols, i - LeftPad(w0), j - LeftPad(w1));
  }
}

=== FILE: sparse_kernel.dfy ===
/** The sparse inclusion-exclusion kernel that `_mean_std` builds for an N-dimensional window:
    the 2^ndim corners of the window box (each coordinate 0 or w_d, enumerated like
    `itertools.product`) and a sign per corner given by a parity rule. */
module SparseKernel {
  import Grid

  datatype Corner = Corner(offset: seq<int>, sign: int)

  function Pow2(n: nat): (r: nat)
    ensures r >= 1
  {
    if n == 0 then 1 else 2 * Pow2(n - 1)
  }

  function SumInts(s: seq<int>): int
    decreases |s|
  {
    if |s| == 0 then 0 else s[0] + SumInts(s[1..])
  }

  predicate AllOdd(w: seq<int>) {
    forall d :: 0 <= d < |w| ==> w[d] % 2 == 1
  }

  /** c is a corner of the box [0, w_0] x ... x [0, w_{n-1}]. */
  predicate IsCorner(c: seq<int>, w: seq<int>) {
    |c| == |w| && forall d :: 0 <= d < |w| ==> c[d] == 0 || c[d] == w[d]
  }

  /** Number of coordinates of c on the far side of the box. */
  function FarCount(c: seq<int>): nat
    decreases |c|
  {
    if |c| == 0 then 0 else (if c[0] != 0 then 1 else 0) + FarCount(c[1..])
  }

  /** Puts x in front of every entry of rest. */
  function Prefixed(x: int, rest: seq<seq<int>>): (r: seq<seq<int>>)
    ensures |r| == |rest|
    ensures forall k :: 0 <= k < |rest| ==> r[k] == [x] + rest[k]
  {
    seq(|rest|, k requires 0 <= k < |rest| => [x] + rest[k])
  }

  /** All corners, in `itertools.product(*[(0, w_d) for each d])` order: the first axis varies
      slowest and takes 0 before w_0. */
  function CornerOffsets(w: seq<int>): (r: seq<seq<int>>)
    ensures |r| >= 1
    decreases |w|
  {
    if |w| == 0 then [[]]
    else
      var rest := CornerOffsets(w[1..]);
      Prefixed(0, rest) + Prefixed(w[0], rest)
  }

  /** Entry k of the enumeration: the half it lies in fixes the first coordinate. */
  lemma CornerOffsetsAt(w: seq<int>, k: nat)
    requires |w| > 0 && k < |CornerOffsets(w)|
    ensures var n := |CornerOffsets(w[1..])|;
      && |CornerOffsets(w)| == 2 * n
      && (k < n ==> CornerOffsets(w)[k] == [0] + CornerOffsets(w[1..])[k])
      && (k >= n ==> CornerOffsets(w)[k] == [w[0]] + CornerOffsets(w[1..])[k - n])
  {
  }

  /** The source's sign rule: (-1) ** (ndim % 2 != sum(corner) % 2). */
  function ParitySign(ndim: nat, c: seq<int>): int {
    if ndim % 2 != SumInts(c) % 2 then -1 else 1
  }

  /** The kernel: every corner paired with its parity sign. */
  function Kernel(w: seq<int>): (r: seq<Corner>)
    ensures |r| == |CornerOffsets(w)|
    ensures forall k :: 0 <= k < |r| ==> r[k].offset == CornerOffsets(w)[k]
  {
    var offs := CornerOffsets(w);
    seq(|offs|, k requires 0 <= k < |offs| => Corner(offs[k], ParitySign(|w|, offs[k])))
  }

  /** The sign inclusion-exclusion needs at a corner: (-1)^(number of near coordinates). */
  function InclusionExclusionSign(ndim: nat, far: nat): int
    requires far <= ndim
  {
    if (ndim - far) % 2 == 0 then 1 else -1
  }

  /** There are exactly 2^ndim corner offsets, and each one is a corner of the box. */
  lemma {:induction false} CornerOffsetsShape(w: seq<int>)
    ensures |CornerOffsets(w)| == Pow2(|w|)
    ensures forall k :: 0 <= k < |CornerOffsets(w)| ==> IsCorner(CornerOffsets(w)[k], w)
    decreases |w|
  {
    if |w| > 0 {
      CornerOffsetsShape(w[1..]);
      var rest := CornerOffsets(w[1..]);
      var r := CornerOffsets(w);
      forall k | 0 <= k < |r|
        ensures IsCorner(r[k], w)
      {
        CornerOffsetsAt(w, k);
        var q := if k < |rest| then rest[k] else rest[k - |rest|];
        assert IsCorner(q, w[1..]);
        assert r[k][1..] == q;
      }
    }
  }

  /** Every corner of the box is enumerated. */
  lemma {:induction false} CornerOffsetsComplete(w: seq<int>, c: seq<int>)
    requires IsCorner(c, w)
    ensures c in CornerOffsets(w)
    decreases |w|
  {
    if |w| > 0 {
      var rest := CornerOffsets(w[1..]);
      assert IsCorner(c[1..], w[1..]);
      CornerOffsetsComplete(w[1..], c[1..]);
      var k :| 0 <= k < |rest| && rest[k] == c[1..];
      assert c == [c[0]] + c[1..];
      if c[0] == 0 {
        CornerOffsetsAt(w, k);
        assert CornerOffsets(w)[k] == c;
      } else {
        CornerOffsetsAt(w, |rest| + k);
        assert CornerOffsets(w)[|rest| + k] == c;
      }
    }
  }

  /** No corner is enumerated twice when every size is non-zero. */
  lemma {:induction false} CornerOffsetsDistinct(w: seq<int>)
    requires forall d :: 0 <= d < |w| ==> w[d] != 0
    ensures forall i, j :: 0 <= i < j < |CornerOffsets(w)| ==> CornerOffsets(w)[i] != CornerOffsets(w)[j]
    decreases |w|
  {
    if |w| > 0 {
      CornerOffsetsDistinct(w[1..]);
      var rest := CornerOffsets(w[1..]);
      var r := CornerOffsets(w);
      forall i, j | 0 <= i < j < |r|
        ensures r[i] != r[j]
      {
        var n := |rest|;
        CornerOffsetsAt(w, i);
        CornerOffsetsAt(w, j);
        if i < n && j < n {
          assert r[i][1..] == rest[i] && r[j][1..] == rest[j];
        } else if i >= n && j >= n {
          assert r[i][1..] == rest[i - n] && r[j][1..] == rest[j - n];
        } else {
          assert r[i][0] == 0 && r[j][0] == w[0];
        }
      }
    }
  }

  /** The first corner is the origin (which `_correlate_sparse` expects first) and the last
      corner is the far corner w. */
  lemma CornerOffsetsEnds(w: seq<int>)
    ensures CornerOffsets(w)[0] == Grid.Zeros(|w|)
    ensures CornerOffsets(w)[|CornerOffsets(w)| - 1] == w
  {
    CornerOffsetsFirst(w);
    CornerOffsetsLast(w);
  }

  lemma {:induction false} CornerOffsetsFirst(w: seq<int>)
    ensures CornerOffsets(w)[0] == Grid.Zeros(|w|)
    decreases |w|
  {
    if |w| > 0 {
      CornerOffsetsFirst(w[1..]);
      CornerOffsetsAt(w, 0);
      assert [0] + Grid.Zeros(|w| - 1) == Grid.Zeros(|w|);
    }
  }

  lemma {:induction false} CornerOffsetsLast(w: seq<int>)
    ensures CornerOffsets(w)[|CornerOffsets(w)| - 1] == w
    decreases |w|
  {
    if |w| > 0 {
      CornerOffsetsLast(w[1..]);
      CornerOffsetsAt(w, |CornerOffsets(w)| - 1);
      assert [w[0]] + w[1..] == w;
    }
  }

  /** For a corner of a box with odd sides, the coordinate sum has the parity of its far count. */
  lemma {:induction false} CornerSumParity(c: seq<int>, w: seq<int>)
    requires IsCorner(c, w) && AllOdd(w)
    ensures SumInts(c) % 2 == FarCount(c) % 2
    ensures FarCount(c) <= |c|
    decreases |c|
  {
    if |c| > 0 {
      assert IsCorner(c[1..], w[1..]);
      CornerSumParity(c[1..], w[1..]);
    }
  }

  /** With odd sides the parity rule is exactly the inclusion-exclusion sign: +1 precisely when
      the far count has the parity of ndim. */
  lemma ParitySignIsInclusionExclusion(c: seq<int>, w: seq<int>)
    requires IsCorner(c, w) && AllOdd(w)
    ensures FarCount(c) <= |w|
    ensures ParitySign(|w|, c) == InclusionExclusionSign(|w|, FarCount(c))
    ensures ParitySign(|w|, c) == 1 <==> FarCount(c) % 2 == |w| % 2
  {
    CornerSumParity(c, w);
  }

  lemma {:induction false} FarCountOfWindow(w: seq<int>)
    requires forall d :: 0 <= d < |w| ==> w[d] != 0
    ensures FarCount(w) == |w|
    decreases |w|
  {
    if |w| > 0 {
      FarCountOfWindow(w[1..]);
    }
  }

  /** The all-far corner always carries sign +1; the origin carries (-1)^ndim. */
  lemma KernelEndSigns(w: seq<int>)
    requires AllOdd(w)
    ensures Kernel(w)[|Kernel(w)| - 1] == Corner(w, 1)
    ensures Kernel(w)[0] == Corner(Grid.Zeros(|w|), if |w| % 2 == 0 then 1 else -1)
  {
    CornerOffsetsEnds(w);
    CornerOffsetsShape(w);
    assert IsCorner(w, w);
    FarCountOfWindow(w);
    ParitySignIsInclusionExclusion(w, w);
    assert IsCorner(Grid.Zeros(|w|), w);
    assert FarCount(Grid.Zeros(|w|)) == 0 by { ZerosFarCount(|w|); }
    ParitySignIsInclusionExclusion(Grid.Zeros(|w|), w);
  }

  lemma {:induction false} ZerosFarCount(n: nat)
    ensures FarCount(Grid.Zeros(n)) == 0
    decreases n
  {
    if n > 0 {
      assert Grid.Zeros(n)[1..] == Grid.Zeros(n - 1);
      ZerosFarCount(n - 1);
    }
  }

  lemma CornerOffsetsOne(w: int)
    ensures CornerOffsets([w]) == [[0], [w]]
  {
    assert [w][1..] == [];
    var rest := CornerOffsets([w][1..]);
    assert rest == [[]];
    assert [0] + rest[0] == [0] && [w] + rest[0] == [w];
    assert Prefixed(0, rest) == [[0]];
    assert Prefixed(w, rest) == [[w]];
  }

  lemma CornerOffsetsTwo(w0: int, w1: int)
    ensures CornerOffsets([w0, w1]) == [[0, 0], [0, w1], [w0, 0], [w0, w1]]
  {
    assert [w0, w1][1..] == [w1];
    CornerOffsetsOne(w1);
    var rest := CornerOffsets([w1]);
    assert [0] + rest[0] == [0, 0] && [0] + rest[1] == [0, w1];
    assert [w0] + rest[0] == [w0, 0] && [w0] + rest[1] == [w0, w1];
    assert Prefixed(0, rest) == [[0, 0], [0, w1]];
    assert Prefixed(w0, rest) == [[w0, 0], [w0, w1]];
  }

  /** In 1-D the kernel is S[i + w] - S[i]. */
  lemma Kernel1D(w: int)
    requires w % 2 == 1
    ensures Kernel([w]) == [Corner([0], -1), Corner([w], 1)]
  {
    CornerOffsetsOne(w);
    assert SumInts([0]) == 0;
    assert SumInts([w]) == w;
  }

  /** In 2-D the kernel is S[i][j] - S[i][j + w1] - S[i + w0][j] + S[i + w0][j + w1]. */
  lemma Kernel2D(w0: int, w1: int)
    requires w0 % 2 == 1 && w1 % 2 == 1
    ensures Kernel([w0, w1])
         == [Corner([0, 0], 1), Corner([0, w1], -1), Corner([w0, 0], -1), Corner([w0, w1], 1)]
  {
    CornerOffsetsTwo(w0, w1);
    assert [0, 0][1..] == [0] && [0, w1][1..] == [w1] && [w0, 0][1..] == [0] && [w0, w1][1..] == [w1];
    assert SumInts([0]) == 0 && SumInts([w1]) == w1;
    assert SumInts([0, 0]) == 0;
    assert SumInts([0, w1]) == w1;
    assert SumInts([w0, 0]) == w0;
    assert SumInts([w0, w1]) == w0 + w1;
  }

  /** The parity rule depends on odd sizes: with the even size 2 both 1-D corners get sign -1,
      so the kernel would not compute a window sum. */
  lemma EvenWindowBreaksParity()
    ensures Kernel([2]) == [Corner([0], -1), Corner([2], -1)]
  {
    CornerOffsetsOne(2);
    assert SumInts([0]) == 0;
    assert SumInts([2]) == 2;
  }
}

=== FILE: sums.dfy ===
/** Finite sums of reals and the exact mean / variance of a list of samples. */
module Sums {

  /** Sum of the elements, accumulated from the left. */
  function Sum(s: seq<real>): real
    decreases |s|
  {
    if |s| == 0 then 0.0 else Sum(s[..|s| - 1]) + s[|s| - 1]
  }

  lemma {:induction false} SumAppend(a: seq<real>, b: seq<real>)
    ensures Sum(a + b) == Sum(a) + Sum(b)
    decreases |b|
  {
    if |b| == 0 {
      assert a + b == a;
    } else {
      var b' := b[..|b| - 1];
      assert (a + b)[..|a + b| - 1] == a + b';
      SumAppend(a, b');
    }
  }

  /** Splitting a list at any point splits its sum. */
  lemma SumSplit(s: seq<real>, i: nat)
    requires i <= |s|
    ensures Sum(s[..i]) + Sum(s[i..]) == Sum(s)
  {
    assert s[..i] + s[i..] == s;
    SumAppend(s[..i], s[i..]);
  }

  /** Difference of two prefix sums is the sum of the slice between them. */
  lemma PrefixDifference(x: seq<real>, lo: nat, hi: nat)
    requires lo <= hi <= |x|
    ensures Sum(x[..hi]) - Sum(x[..lo]) == Sum(x[lo..hi])
  {
    SumSplit(x[..hi], lo);
    assert x[..hi][..lo] == x[..lo];
    assert x[..hi][lo..] == x[lo..hi];
  }

  /** The sum of pointwise differences is the difference of the sums. */
  lemma {:induction false} SumDifference(x: seq<real>, y: seq<real>, z: seq<real>)
    requires |x| == |y| == |z|
    requires forall k :: 0 <= k < |z| ==> z[k] == x[k] - y[k]
    ensures Sum(z) == Sum(x) - Sum(y)
    decreases |z|
  {
    if |z| > 0 {
      var n := |z| - 1;
      SumDifference(x[..n], y[..n], z[..n]);
    }
  }

  function Squares(s: seq<real>): (r: seq<real>)
    ensures |r| == |s|
    ensures forall k :: 0 <= k < |s| ==> r[k] == s[k] * s[k]
  {
    seq(|s|, k requires 0 <= k < |s| => s[k] * s[k])
  }

  lemma SquaresPrefix(s: seq<real>, n: nat)
    requires n <= |s|
    ensures Squares(s)[..n] == Squares(s[..n])
  {
    assert forall k :: 0 <= k < n ==> Squares(s)[..n][k] == Squares(s[..n])[k];
  }

  lemma SquaresSlice(s: seq<real>, a: nat, b: nat)
    requires a <= b <= |s|
    ensures Squares(s)[a..b] == Squares(s[a..b])
  {
    assert forall k :: 0 <= k < b - a ==> Squares(s)[a..b][k] == Squares(s[a..b])[k];
  }

  function Mean(s: seq<real>): real
    requires |s| > 0
  {
    Sum(s) / (|s| as real)
  }

  /** Exact population variance, written the way the local statistics compute it:
      mean of squares minus square of the mean (the mean squared deviation, by
      VarianceIsMeanSquaredDeviation). */
  function Variance(s: seq<real>): real
    requires |s| > 0
  {
    Mean(Squares(s)) - Mean(s) * Mean(s)
  }

  /** The squared deviations (x - y)^2 of the samples from y. */
  function SquaredDeviations(s: seq<real>, y: real): (r: seq<real>)
    ensures |r| == |s|
  {
    seq(|s|, k requires 0 <= k < |s| => (s[k] - y) * (s[k] - y))
  }

  /** The sum of squared deviations from y of n samples whose squares sum to q and whose
      values sum to t. */
  function ExpandedDeviations(q: real, t: real, n: real, y: real): real {
    q - 2.0 * y * t + n * y * y
  }

  /** The sum of squared deviations from y, expanded into the sums of squares and of
      samples. */
  lemma {:induction false} SumSquaredDeviations(s: seq<real>, y: real)
    ensures Sum(SquaredDeviations(s, y)) == ExpandedDeviations(Sum(Squares(s)), Sum(s), |s| as real, y)
    decreases |s|
  {
    if |s| > 0 {
      SumSquaredDeviations(s[..|s| - 1], y);
      SumSquaredDeviationsStep(s, y);
    } else {
      assert Squares(s) == [] && SquaredDeviations(s, y) == [];
    }
  }

  /** The expansion survives one more sample. */
  lemma SumSquaredDeviationsStep(s: seq<real>, y: real)
    requires |s| > 0
    requires var p := s[..|s| - 1];
      Sum(SquaredDeviations(p, y)) == ExpandedDeviations(Sum(Squares(p)), Sum(p), |p| as real, y)
    ensures Sum(SquaredDeviations(s, y)) == ExpandedDeviations(Sum(Squares(s)), Sum(s), |s| as real, y)
  {
    var n := |s| - 1;
    var p := s[..n];
    SumSquaredDeviationsSnoc(s, y);
    SquaresPrefix(s, n);
    DeviationStep(Sum(SquaredDeviations(s, y)), Sum(SquaredDeviations(p, y)), Sum(Squares(s)), Sum(Squares(p)),
                  Sum(s), Sum(p), |s| as real, |p| as real, s[n], y);
  }

  /** Summing the squared deviations of one more sample. */
  lemma SumSquaredDeviationsSnoc(s: seq<real>, y: real)
    requires |s| > 0
    ensures var n := |s| - 1;
      Sum(SquaredDeviations(s, y)) == Sum(SquaredDeviations(s[..n], y)) + (s[n] - y) * (s[n] - y)
  {
    var n := |s| - 1;
    var d := SquaredDeviations(s, y);
    assert d[..n] == SquaredDeviations(s[..n], y) by {
      assert forall k :: 0 <= k < n ==> d[..n][k] == SquaredDeviations(s[..n], y)[k];
    }
  }

  /** The algebra of one more sample x: e, q, t and n are the sum of squared deviations, the
      sum of squares, the sum and the count with x, and the primed ones those without it. */
  lemma DeviationStep(e: real, e': real, q: real, q': real, t: real, t': real,
                      n: real, n': real, x: real, y: real)
    requires e' == ExpandedDeviations(q', t', n', y)
    requires e == e' + (x - y) * (x - y)
    requires q == q' + x * x && t == t' + x && n == n' + 1.0
    ensures e == ExpandedDeviations(q, t, n, y)
  {
  }

  /** The variance is the mean squared deviation from the mean, the textbook definition:
      `Variance`'s shortcut formula computes exactly that. */
  lemma VarianceIsMeanSquaredDeviation(s: seq<real>)
    requires |s| > 0
    ensures Variance(s) == Mean(SquaredDeviations(s, Mean(s)))
  {
    var m := Mean(s);
    var d := SquaredDeviations(s, m);
    assert |d| == |Squares(s)| == |s|;
    assert Variance(s) == Mean(Squares(s)) - m * m;
    SumSquaredDeviations(s, m);
    MeanDeviationAlgebra(Variance(s), Mean(Squares(s)), Mean(d), Sum(d), |s| as real, Sum(Squares(s)), Sum(s), m);
  }

  /** The mean squared deviation md from the mean m = t / n is the variance v = ms - m^2,
      where ms = q / n is the mean square and e the sum of the squared deviations. */
  lemma MeanDeviationAlgebra(v: real, ms: real, md: real, e: real, n: real, q: real, t: real, m: real)
    requires n > 0.0 && m == t / n && e == ExpandedDeviations(q, t, n, m)
    requires md == e / n && ms == q / n && v == ms - m * m
    ensures v == md
  {
    assert t == m * n;
    assert q - 2.0 * m * t + n * m * m == q - n * (m * m);
  }

  /** Sum over the samples of (x - y)^2, expanded: never negative. */
  lemma {:induction false} SquaredDeviationNonNeg(s: seq<real>, y: real)
    ensures Sum(Squares(s)) - 2.0 * y * Sum(s) + (|s| as real) * y * y >= 0.0
    decreases |s|
  {
    if |s| > 0 {
      var n := |s| - 1;
      var x := s[n];
      SquaresPrefix(s, n);
      SquaredDeviationNonNeg(s[..n], y);
      assert Sum(Squares(s)) == Sum(Squares(s[..n])) + x * x;
      assert (x - y) * (x - y) >= 0.0;
    }
  }

  /** The algebra of one more sample x in the bound n * q >= t * t, where q is the sum of
      squares and t the sum of the first n samples. */
  lemma BoundStep(n: real, q: real, t: real, x: real, n': real, q': real, t': real)
    requires n * q >= t * t && q - 2.0 * x * t + n * x * x >= 0.0
    requires n' == n + 1.0 && q' == q + x * x && t' == t + x
    ensures n' * q' >= t' * t'
  {
    calc {
      n' * q' - t' * t';
      (n + 1.0) * (q + x * x) - (t + x) * (t + x);
      (n * q - t * t) + (q - 2.0 * x * t + n * x * x);
    }
  }

  /** n * sum(x^2) >= (sum x)^2 for n samples. */
  lemma {:induction false} SumSquaresBound(s: seq<real>)
    ensures (|s| as real) * Sum(Squares(s)) >= Sum(s) * Sum(s)
    decreases |s|
  {
    if |s| > 0 {
      var pre := s[..|s| - 1];
      var x := s[|s| - 1];
      SumSquaresBound(pre);
      SquaredDeviationNonNeg(pre, x);
      SumSquaresSnoc(s);
      assert Sum(s) == Sum(pre) + x;
      BoundStep(|pre| as real, Sum(Squares(pre)), Sum(pre), x, |s| as real, Sum(Squares(s)), Sum(s));
    } else {
      assert Squares(s) == [];
    }
  }

  /** Summing the squares of one more sample. */
  lemma SumSquaresSnoc(s: seq<real>)
    requires |s| > 0
    ensures Sum(Squares(s)) == Sum(Squares(s[..|s| - 1])) + s[|s| - 1] * s[|s| - 1]
  {
    SquaresPrefix(s, |s| - 1);
  }

  /** q / n - (t / n)^2 is never negative once n * q >= t * t. */
  lemma VarianceAlgebra(n: real, q: real, t: real)
    requires n > 0.0 && n * q >= t * t
    ensures q / n - (t / n) * (t / n) >= 0.0
  {
    var m := t / n;
    var v := q - m * m * n;
    assert t == m * n;
    assert n * v == n * q - t * t;
    assert v >= 0.0;
    assert q / n - m * m == v / n;
  }

  /** The exact variance is never negative: clipping it at zero changes nothing. */
  lemma VarianceNonNeg(s: seq<real>)
    requires |s| > 0
    ensures Variance(s) >= 0.0
  {
    SumSquaresBound(s);
    VarianceAlgebra(|s| as real, Sum(Squares(s)), Sum(s));
  }

  /** Row-major flattening of a list of rows. */
  function Flatten(g: seq<seq<real>>): (r: seq<real>)
    decreases |g|
  {
    if |g| == 0 then [] else Flatten(g[..|g| - 1]) + g[|g| - 1]
  }

  /** Per-row totals of a list of rows. */
  function RowTotals(g: seq<seq<real>>): (r: seq<real>)
    ensures |r| == |g|
    ensures forall a :: 0 <= a < |g| ==> r[a] == Sum(g[a])
  {
    seq(|g|, a requires 0 <= a < |g| => Sum(g[a]))
  }

  /** Summing a flattened grid is summing its row totals. */
  lemma {:induction false} SumFlatten(g: seq<seq<real>>)
    ensures Sum(Flatten(g)) == Sum(RowTotals(g))
    decreases |g|
  {
    if |g| > 0 {
      var n := |g| - 1;
      SumFlatten(g[..n]);
      SumAppend(Flatten(g[..n]), g[n]);
      assert RowTotals(g)[..n] == RowTotals(g[..n]);
    }
  }

  lemma {:induction false} FlattenSquares(g: seq<seq<real>>, h: seq<seq<real>>)
    requires |h| == |g|
    requires forall a :: 0 <= a < |g| ==> h[a] == Squares(g[a])
    ensures Flatten(h) == Squares(Flatten(g))
    decreases |g|
  {
    if |g| > 0 {
      var n := |g| - 1;
      FlattenSquares(g[..n], h[..n]);
      var a, b := Flatten(g[..n]), g[n];
      assert forall k :: 0 <= k < |a + b| ==> Squares(a + b)[k] == (Squares(a) + Squares(b))[k];
      assert Squares(a + b) == Squares(a) + Squares(b);
    }
  }

  lemma {:induction false} FlattenLength(g: seq<seq<real>>, c: nat)
    requires forall a :: 0 <= a < |g| ==> |g[a]| == c
    ensures |Flatten(g)| == |g| * c
    decreases |g|
  {
    if |g| > 0 {
      FlattenLength(g[..|g| - 1], c);
    }
  }

  /** A sequence of zeros sums to zero. */
  lemma {:induction false} ZeroSum(s: seq<real>)
    requires forall a :: 0 <= a < |s| ==> s[a] == 0.0
    ensures Sum(s) == 0.0
    decreases |s|
  {
    if |s| > 0 {
      ZeroSum(s[..|s| - 1]);
    }
  }

  /** When every element outside [lo, hi) is zero, the slice carries the whole sum. */
  lemma SumOfSupport(s: seq<real>, lo: nat, hi: nat)
    requires lo <= hi <= |s|
    requires forall a :: 0 <= a < |s| && !(lo <= a < hi) ==> s[a] == 0.0
    ensures Sum(s[lo..hi]) == Sum(s)
  {
    var pre, mid, post := s[..lo], s[lo..hi], s[hi..];
    assert s == pre + mid + post;
    SumAppend(pre + mid, post);
    SumAppend(pre, mid);
    assert forall a :: 0 <= a < |pre| ==> pre[a] == s[a];
    ZeroSum(pre);
    assert forall a :: 0 <= a < |post| ==> post[a] == s[hi + a];
    ZeroSum(post);
  }

  /** A sum of non-negative terms is non-negative. */
  lemma {:induction false} SumNonNeg(s: seq<real>)
    requires forall a :: 0 <= a < |s| ==> s[a] >= 0.0
    ensures Sum(s) >= 0.0
    decreases |s|
  {
    if |s| > 0 {
      SumNonNeg(s[..|s| - 1]);
    }
  }

  /** A sum of non-negative terms is at least each of its terms. */
  lemma {:induction false} SumAtLeastTerm(s: seq<real>, i: nat)
    requires i < |s| && forall a :: 0 <= a < |s| ==> s[a] >= 0.0
    ensures Sum(s) >= s[i]
    decreases |s|
  {
    var n := |s| - 1;
    if i == n {
      SumNonNeg(s[..n]);
    } else {
      SumAtLeastTerm(s[..n], i);
    }
  }

  /** Terms `total - c[k]` sum to `|c| * total - Sum(c)`. */
  lemma {:induction false} SumConstMinus(total: real, c: seq<real>, u: seq<real>)
    requires |u| == |c| && forall k :: 0 <= k < |u| ==> u[k] == total - c[k]
    ensures Sum(u) == (|c| as real) * total - Sum(c)
    decreases |u|
  {
    if |u| > 0 {
      var n := |u| - 1;
      SumConstMinus(total, c[..n], u[..n]);
    }
  }

  /** Clipping below at zero, `clip(x, 0, None)`. */
  function ClipLow(x: real): (r: real)
    ensures r >= 0.0 && (x >= 0.0 ==> r == x) && (x < 0.0 ==> r == 0.0)
  {
    if x < 0.0 then 0.0 else x
  }

  /** Subtracting c times a second sequence termwise subtracts c times its sum. */
  lemma {:induction false} SumAffine(s: seq<real>, t: seq<real>, c: real, u: seq<real>)
    requires |s| == |t| == |u|
    requires forall k :: 0 <= k < |u| ==> u[k] == s[k] - c * t[k]
    ensures Sum(u) == Sum(s) - c * Sum(t)
    decreases |u|
  {
    if |u| > 0 {
      var n := |u| - 1;
      SumAffine(s[..n], t[..n], c, u[..n]);
    }
  }

  /** n ones sum to n. */
  lemma {:induction false} SumOnes(t: seq<real>)
    requires forall k :: 0 <= k < |t| ==> t[k] == 1.0
    ensures Sum(t) == |t| as real
    decreases |t|
  {
    if |t| > 0 {
      SumOnes(t[..|t| - 1]);
    }
  }

  /** Adding t to every sample adds t to the mean. */
  lemma MeanShift(s: seq<real>, u: seq<real>, t: real)
    requires |s| == |u| > 0
    requires forall k :: 0 <= k < |u| ==> u[k] == s[k] + t
    ensures Mean(u) == Mean(s) + t
  {
    var ones := seq(|s|, k => 1.0);
    SumAffine(s, ones, -t, u);
    SumOnes(ones);
    var n := |s| as real;
    assert Sum(u) == Sum(s) + t * n;
    DivShift(Sum(s), t, n);
  }

  lemma DivShift(a: real, t: real, n: real)
    requires n > 0.0
    ensures (a + t * n) / n == a / n + t
  {
  }

  /** Deviations from the mean sum to zero. */
  lemma DeviationsSumToZero(s: seq<real>, u: seq<real>)
    requires |s| == |u| > 0
    requires forall k :: 0 <= k < |u| ==> u[k] == s[k] - Mean(s)
    ensures Sum(u) == 0.0
  {
    MeanShift(s, u, -Mean(s));
    assert Sum(u) / (|u| as real) == 0.0;
  }

  /** Scaling every term by a scales the sum by a. */
  lemma {:induction false} SumScale(s: seq<real>, a: real, u: seq<real>)
    requires |s| == |u|
    requires forall k :: 0 <= k < |u| ==> u[k] == a * s[k]
    ensures Sum(u) == a * Sum(s)
    decreases |u|
  {
    if |u| > 0 {
      var n := |u| - 1;
      SumScale(s[..n], a, u[..n]);
      assert Sum(u) == a * Sum(s[..n]) + a * s[n];
    }
  }

  /** Termwise bounds 0 <= s[k] <= b[k] bound the sums the same way. */
  lemma SumBetween(s: seq<real>, b: seq<real>)
    requires |s| == |b|
    requires forall k :: 0 <= k < |s| ==> 0.0 <= s[k] <= b[k]
    ensures 0.0 <= Sum(s) <= Sum(b)
  {
    var gap := seq(|s|, k requires 0 <= k < |s| => b[k] - s[k]);
    SumNonNeg(s);
    SumNonNeg(gap);
    SumDifference(b, s, gap);
  }

  /** Every term multiplied by a. */
  function Scaled(s: seq<real>, a: real): (r: seq<real>)
    ensures |r| == |s| && forall k :: 0 <= k < |s| ==> r[k] == a * s[k]
  {
    seq(|s|, k requires 0 <= k < |s| => a * s[k])
  }

  /** Scaling every term by a scales the sum by a. */
  lemma SumScaled(s: seq<real>, a: real)
    ensures Sum(Scaled(s, a)) == a * Sum(s)
  {
    SumScale(s, a, Scaled(s, a));
  }

  /** Non-negative weights w, and terms s between 0 and top times their weight. */
  predicate Dominated(w: seq<real>, s: seq<real>, top: real) {
    |w| == |s| && forall k :: 0 <= k < |w| ==> w[k] >= 0.0 && 0.0 <= s[k] <= top * w[k]
  }

  /** Non-negative weights w and terms 0 <= s[k] <= top * w[k] give totals m and t in the
      same relation. */
  lemma WeightedTotalBounds(w: seq<real>, s: seq<real>, top: real, m: real, t: real)
    requires Dominated(w, s, top)
    requires m == Sum(w) && t == Sum(s)
    ensures 0.0 <= m && 0.0 <= t <= top * m
  {
    SumNonNeg(w);
    SumBetween(s, Scaled(w, top));
    SumScaled(w, top);
  }

  /** A weighted mean of values in [0, top] lies in [0, top]: with non-negative weights w of
      non-zero total y, terms 0 <= s[k] <= top * w[k] of total x, and the mean v given
      multiplicatively as v * y == x. */
  lemma WeightedMeanBounds(w: seq<real>, s: seq<real>, top: real, v: real, x: real, y: real)
    requires Dominated(w, s, top)
    requires y == Sum(w) && y != 0.0 && x == Sum(s) && v * y == x
    ensures 0.0 <= v <= top
  {
    WeightedTotalBounds(w, s, top, y, x);
    MeanBounds(v, x, y, top, y, x);
  }

  /** The mean v of a total x over a non-zero weight y, `v * y == x`, lies in [0, top] when
      0 <= x <= top * y. */
  lemma MeanBounds(v: real, x: real, y: real, top: real, m: real, t: real)
    requires y == m && x == t && 0.0 <= m && m != 0.0 && 0.0 <= t <= top * m && v * y == x
    ensures 0.0 <= v <= top
  {
    assert (top - v) * y == top * m - x;
  }

  /** SumAffine with the three totals named by the caller. */
  lemma SumAffineAt(s: seq<real>, t: seq<real>, c: real, u: seq<real>, su: real, ss: real, st: real)
    requires |s| == |t| == |u|
    requires forall k :: 0 <= k < |u| ==> u[k] == s[k] - c * t[k]
    requires su == Sum(u) && ss == Sum(s) && st == Sum(t)
    ensures su == ss - c * st
  {
    SumAffine(s, t, c, u);
  }

  /** u[k] = s[k] - c * w[k] termwise. */
  predicate AffineTerms(u: seq<real>, s: seq<real>, w: seq<real>, c: real) {
    |s| == |w| == |u| && forall k :: 0 <= k < |u| ==> u[k] == s[k] - c * w[k]
  }

  /** When u[k] = s[k] - c * w[k] and c is the weighted mean of s (c * m == x for the totals
      m of w and x of s), the terms u sum to 0. */
  lemma AffineVanishes(s: seq<real>, w: seq<real>, c: real, u: seq<real>, m: real, x: real)
    requires AffineTerms(u, s, w, c)
    requires c * m == x && m == Sum(w) && x == Sum(s)
    ensures Sum(u) == 0.0
  {
    var total := Sum(u);
    SumAffineAt(s, w, c, u, total, x, m);
  }
}
